=== FILE: README.md ===
# Document service core, modelled in Dafny

This project models the server-side core of a multi-tenant document service.
Users and API clients upload Word and Excel files. A job queue turns them into
PDF previews with the Aspose engines. Templates are rendered by replacing
`<<[key]>>` and `{{key}}` tags. API keys are limited per minute with a fixed
window. The model covers these parts:

- **The job queue** (`src/lib/queue.ts`), modelled as a sequence of jobs.
  Jobs move PENDING → PROCESSING → COMPLETED | FAILED. The claim statement
  (`UPDATE … WHERE id = (SELECT … ORDER BY "createdAt" FOR UPDATE SKIP LOCKED
  LIMIT 1)`) is one atomic step. `Queue.ProcessNextJob` is generic over the
  handler and the world that handler reads and writes.
- **The standalone worker** (`src/worker.ts`): its claim–convert–finish step
  and its polling loop. The loop is run over a finite trace of rounds, and
  a flag says whether the database was reachable in each round.
- **The HTTP queue driver** (`src/app/api/workers/process/route.ts`). It
  writes the document to a temp file, converts it, reads the PDF back and
  removes both temp files.
- **The engine wrapper** (`src/lib/aspose.ts`): `processDocument`'s routing
  by type tag, `renderWordTemplate` over a document seen as runs and images,
  and `scanDocumentFields` with JavaScript's lazy regular-expression
  semantics.
- **The API-key rate limiter and key generation** (`src/lib/api-key.ts`).
- **The request decision ladders.** Each route is one function from
  (database, session or key, request) to (response, database):
  - document upload;
  - external process;
  - the API-key listing and creation;
  - organization rename;
  - license upload;
  - the middleware;
  - the zod schemas.
- **The storage and temp-file helpers** (`src/lib/storage.ts`,
  `src/lib/temp-file.ts`). They work over a file system modelled as a map
  from path to bytes.

The database is a value (`Store.Db`), and each operation returns an updated
copy. JavaScript semantics the code relies on are spelled out in module `Js`:
- truthiness;
- `??`;
- `String(value)`;
- `error instanceof Error ? error.message : String(error)`;
- property access on a JSON value.

The clock, `Math.random`, `crypto.randomBytes`, database-generated ids, the
working directory and the native engines become parameters.

Three places where the code differs from its own comments or names; the
model follows the code:
- `validateApiKey` counts a request before the external route parses the
  form. A request rejected with 400 therefore still uses up one slot of the
  window.
- `!doc.fileData` only rejects a missing column. A zero-length file is
  converted, not reported as "empty".
- `apiKeySchema` names its limit `rateLimit`, but the API-key route reads
  `rateLimitPerMin`. The schema is not used by any route.

## Model

| member | source | states |
|---|---|---|
| Queue.TypeOfName | src/worker.ts:37 | A stored type name is read as PROCESS_DOCUMENT, GENERATE_TEMPLATE or another type that spells neither, and stores back under the same name. |
| Queue.TypeNameRoundTrip | src/worker.ts:37 | A type whose other-name spells neither enum name is read back as itself from its stored name. |
| Queue.Enqueue | src/lib/queue.ts:4-17 | `enqueueJob` appends exactly one job. It is PENDING, has 0 attempts, no result and no error, and its payload is `payload ?? {}`. Every earlier job is unchanged. |
| Queue.EnqueueFresh | src/lib/queue.ts:4-17 | Enqueueing under a fresh id keeps job ids unique and raises the number of pending jobs by exactly one. |
| Queue.OldestPending | src/lib/queue.ts:38-45 | The subquery finds no row exactly when no job is PENDING. Otherwise the row it picks is PENDING and no PENDING job is older. |
| Queue.Claim | src/lib/queue.ts:33-51 | The claim changes nothing when nothing is pending. Otherwise it moves exactly the oldest pending job to PROCESSING and leaves every other job as it was. |
| Queue.ClaimedNotReclaimed | src/lib/queue.ts:36-45 | A job one claim took cannot be taken by the next claim (SKIP LOCKED / the status guard). |
| Queue.ClaimOnlyPending | src/lib/queue.ts:41 | A job that is not PENDING is never claimed. |
| Queue.TwoClaimsOnePending | src/lib/queue.ts:33-51 | With one pending job, the first claim takes it and a second claim finds nothing. |
| Queue.Finish | src/lib/queue.ts:55-79 | A returned value completes the job with result `value ?? {}`. A throw fails the job with the thrown error's message, or `String(error)` for a non-Error. Id, type, payload, creation time and attempts are kept. |
| Queue.ResultOf | src/lib/queue.ts:66-78 | The resolved value carries the claimed row. Its status is COMPLETED exactly when the handler returned. |
| Queue.ProcessNextJob | src/lib/queue.ts:19-79 | `processNextJob` returns null exactly when no job is pending. Then jobs and world are untouched. Otherwise the handler sees the oldest pending job's id, type and payload, and only that job's row changes. Its terminal status and result or error match what the handler did. |
| Queue.ProcessNextJobAdvances | src/lib/queue.ts:33-79 | A step never moves a job back to PENDING and never changes a job's id, type, payload, creation time or attempts. |
| Queue.AdvancesTransitive | src/lib/queue.ts:33-79 | Lifecycle progress composes over several steps. |
| Queue.ProcessNextJobPendingCount | src/lib/queue.ts:33-79 | Each step that claims a job lowers the pending count by exactly one. A step that claims nothing happens only when the count is zero. |
| Queue.EnqueueRunDrain | src/lib/queue.ts:4-79 | On an empty queue, enqueue then process completes that job with the handler's value, and a further call finds no job. |
| Worker.EngineForExt | src/worker.ts:43-45 | The spreadsheet engine is chosen exactly for `ext` "xlsx" or "xls". Anything else, missing `ext` included, goes to the word engine. |
| Worker.Converted | src/worker.ts:49-55 | Only the converted document changes: it becomes COMPLETED and holds the PDF, and its id, file data and version stay as they were. |
| Worker.Handle | src/worker.ts:36-66 | A PROCESS_DOCUMENT job for a missing document, or for one without file data, throws "Document not found or empty". A throw leaves documents and audit trail untouched. A success marks that document COMPLETED with the converter's output and appends one EXTERNAL_DOCUMENT_PROCESSED_ASYNC event. Other job types return `{success: true}` and change nothing. |
| Worker.Step | src/worker.ts:8-88 | Returns true exactly when a job was pending. When none was, the database is unchanged. Otherwise only the claimed job's row changes, to COMPLETED with `{success: true}` or to FAILED with the thrown message. Users, organizations and keys are untouched. |
| Worker.MissingDocumentFailsJob | src/worker.ts:38-41 | A job naming a document that does not exist ends FAILED with "Document not found or empty". Documents and audit trail are unchanged. |
| Worker.StepEffects | src/worker.ts:36-85 | A failed job leaves documents and audit trail as they were. A completed PROCESS_DOCUMENT job appended exactly one processed event and marked a document COMPLETED with a PDF. |
| Worker.LoopTurn | src/worker.ts:92-101 | A round with the database down sleeps 5 × 1000 ms and changes nothing. Otherwise it performs one step, then sleeps 1000 ms exactly when nothing was pending, and 0 ms when a job was processed. |
| Worker.LoopTurnCount | src/worker.ts:92-101 | One round lowers the pending count by one at most, and by exactly one when the database is up and a job was pending. |
| Worker.TurnKeepsRunInvariant | src/worker.ts:92-101 | The loop's accounting of processed jobs, idle polls and slept time is preserved by one more round. |
| Worker.Turn | src/worker.ts:93-101 | One round of the loop keeps that accounting: processed jobs, idle polls and slept time all agree with the rounds so far. Job lifecycles only advance. A round with the database reachable finishes one PENDING job if any is left; an unreachable round finishes none. The time slept never decreases. |
| Worker.Run | src/worker.ts:90-103 | After a trace of rounds, the pending count has dropped by min(pending, reachable rounds). The time slept is 1000 ms per reachable round that found nothing plus 5000 ms per unreachable round. Job lifecycles only advance. Users, organizations and keys are unchanged. |
| WorkerRoute.TempInputHasPrefix | src/app/api/workers/process/route.ts:37-38 | The temp input file and its `.pdf` output share the `temp-<now>-<random>` prefix in the temp directory. |
| WorkerRoute.RemovingTempPathsIsFramed | src/app/api/workers/process/route.ts:59-62 | Deleting the two temp files touches nothing outside the temp prefix. |
| WorkerRoute.CleanupAfterEngine | src/app/api/workers/process/route.ts:37-62 | Whatever the engine wrote at the output path, the `finally` clean-up leaves exactly the files that existed before, minus the two temp paths. |
| WorkerRoute.Cleanup | src/app/api/workers/process/route.ts:59-62 | The `finally` block removes exactly the temp input and the temp output. |
| WorkerRoute.Convert | src/app/api/workers/process/route.ts:30-62 | Conversion succeeds exactly when the engine does. On success, the document gets the bytes read back from `<temp>.pdf` and one "Processed via Job Queue" event is appended. On failure the engine's error is rethrown and the tables are unchanged. In both cases both temp files are gone afterwards. |
| WorkerRoute.HandleDocument | src/app/api/workers/process/route.ts:18-63 | A missing document, or one without file data, throws "Document not found or empty". A throw never changes documents or the audit trail. A success returns `{success: true}`, converts the named document and appends one audit event. |
| WorkerRoute.Handle | src/app/api/workers/process/route.ts:17-70 | PROCESS_DOCUMENT jobs are converted. GENERATE_TEMPLATE returns `{skipped: true}` and changes nothing. Any other type throws "Unknown job type: <type>". No file outside the temp prefix changes. |
| WorkerRoute.HandleRestoresFiles | src/app/api/workers/process/route.ts:30-62 | If no existing file carries the temp prefix, handling a job leaves the file system exactly as it was. |
| WorkerRoute.ResultJson | src/app/api/workers/process/route.ts:76 | The response shows the claimed job, the status COMPLETED or FAILED, and the result or the serialised error. |
| WorkerRoute.Get | src/app/api/workers/process/route.ts:13-77 | Always answers 200. With nothing pending it answers `{message: "No jobs pending"}` and changes nothing. Otherwise the body's job is the oldest pending job, its status agrees with the job's new row, and no other job changes. |
| WorkerRoute.GenerateTemplateIsSkipped | src/app/api/workers/process/route.ts:64-67 | A GENERATE_TEMPLATE job is completed with `{skipped: true}`. The response carries it, and documents and files are unchanged. |
| WorkerRoute.UnknownTypeFails | src/app/api/workers/process/route.ts:69 | A job of an unknown type ends FAILED with "Unknown job type: <type>". Nothing else changes. |
| WorkerRoute.GetRestoresFiles | src/app/api/workers/process/route.ts:17-70 | The queue driver leaves no temp file behind and touches no other file. |
| Aspose.EngineFor | src/lib/aspose.ts:73-100 | "docx" and "doc" go to the word engine, and "xlsx" and "xls" to the spreadsheet engine, by exact comparison. |
| Aspose.ProcessDocument | src/lib/aspose.ts:54-101 | "pdf" copies the input to the output, or does nothing when they are the same path, and a missing input throws ENOENT. Word and spreadsheet tags write the engine's output, or rethrow its error. Any other tag throws "Unsupported file type: <tag>". Only the output path is ever written. |
| Aspose.TypeTagsAreCaseSensitive | src/lib/aspose.ts:61-99 | Any type tag containing an upper-case letter, such as "DOCX" or "Pdf", fails with "Unsupported file type: <type>" whatever the files hold, because the tags are compared exactly. |
| Template.ReplaceTags | src/lib/aspose.ts:170-173 | Every run becomes its text with every `<<[key]>>` replaced by the value, then every `{{key}}` replaced by it. Images and the document length are kept. |
| Template.ReplaceTagsUntagged | src/lib/aspose.ts:170-173 | A run holding neither tag of the key is left exactly as it was. |
| Template.InsertImages | src/lib/aspose.ts:143-164 | Each run holding the placeholder becomes `Image(data)` followed by the run with every placeholder removed. Every other node is kept, and the nodes keep their order: node i starts after the earlier nodes plus one image per earlier placeholder run. The length grows by the number of such runs, and the number of runs is unchanged. |
| Template.ImagePhaseCons | src/lib/aspose.ts:143-164 | Putting the first node's result in front of the rest's shifts every later node's position by that result's length. |
| Template.RunGetsToken | src/lib/aspose.ts:139-140 | After tag replacement, a run holds the placeholder exactly when it held one of the key's tags. |
| Template.TaggedRunsGetToken | src/lib/aspose.ts:139-150 | The runs holding the placeholder after tag replacement are as many as the runs that held a tag. |
| Template.TaggedChunkStart | src/lib/aspose.ts:139-150 | With a fresh placeholder, the runs holding it before node i after tag replacement are exactly the tagged runs before node i. |
| Template.TaggedNodeAt | src/lib/aspose.ts:139-150 | With a fresh placeholder, node i holds it after tag replacement exactly when it held a tag, and is unchanged otherwise. |
| Template.PlacedThroughTagged | src/lib/aspose.ts:139-164 | The placement of node i after the image phase follows from the placement of the placeholder runs after tag replacement. |
| Template.ImageEntryPlacedAt | src/lib/aspose.ts:129-164 | For each node, an accepted image entry places it as the entry's full placement promises. |
| Template.ImageEntryOnePerTaggedRun | src/lib/aspose.ts:129-164 | An accepted image value with a fresh placeholder puts `Image(b64)` right before each run that held a tag of the key. That run keeps its text with the tags replaced by the placeholder and the placeholder then removed. Every other node is kept, in order. Images grow by the number of tagged runs and runs stay as many. |
| Template.RejectedImageLeavesToken | src/lib/aspose.ts:129-167 | When the engine rejects the image, no image is added and the placeholder stays in every tagged run. |
| Template.TextEntryTouchesOnlyTaggedRuns | src/lib/aspose.ts:168-174 | A plain value changes no node that holds neither of its tags. |
| Template.ApplyEntry | src/lib/aspose.ts:125-175 | A null or undefined value changes nothing. A non-image value replaces both tags of the key by `String(value)` in every run. An image value without a comma changes nothing. An image value with one replaces the tags by the placeholder; the image phase then runs if the engine accepts the data after the first comma, and otherwise the placeholder stays. |
| Template.RenderNullishIsIdentity | src/lib/aspose.ts:125-126 | Data whose values are all null or undefined renders the document unchanged. |
| Template.RenderSequential | src/lib/aspose.ts:123-175 | Entries are applied one after another. Rendering a concatenation of entries equals rendering the first part, then the second. |
| Template.RenderWordTemplate | src/lib/aspose.ts:103-183 | A document that fails to load is rethrown. Otherwise the result is the loaded document with every entry applied in order. Failures inside an image entry are caught; text replacement and saving are taken never to fail. |
| Template.SecondField | src/lib/aspose.ts:131 | `split(",")[1]` is undefined exactly when there is no comma. Otherwise it is the text that starts right after the first comma and runs to the next comma or the end. |
| Template.FirstComma | src/lib/aspose.ts:131 | The index of the first comma, or the length when there is none: no comma comes before it. |
| Template.UpToComma | src/lib/aspose.ts:131 | The longest comma-free prefix of the text. |
| Template.ImageWithoutCommaIsSkipped | src/lib/aspose.ts:129-132 | An image value without a comma changes nothing: decoding `undefined` throws before any tag is replaced, and the error is swallowed. |
| FieldScanner.LazyEnd | src/lib/aspose.ts:197 | The lazy `.*?` ends at the first close delimiter, with no line terminator before it. |
| FieldScanner.LazyEndFinds | src/lib/aspose.ts:197 | If a close delimiter is reachable without crossing a line terminator, the lazy match finds one. |
| FieldScanner.LazyEndExact | src/lib/aspose.ts:197 | The lazy `.*?` stops exactly at the first close delimiter reachable without a line terminator. |
| FieldScanner.MatchAt | src/lib/aspose.ts:197-199 | A match at a position spans the open delimiter, the capture and the close delimiter. |
| FieldScanner.ScanFrom | src/lib/aspose.ts:197-206 | Each capture of the global scan is the inside of a delimited tag occurring at or after the start position. |
| FieldScanner.ScanCapturesAreShortest | src/lib/aspose.ts:197-206 | Every capture is free of line terminators and of the close delimiter. |
| FieldScanner.ScanFindsDelimited | src/lib/aspose.ts:197-206 | A delimited tag whose inside has no line terminator yields at least one match of the global scan. |
| FieldScanner.MatchAtDelimited | src/lib/aspose.ts:197 | A match attempt at the start of such a tag succeeds. |
| FieldScanner.InsideHasNoLineTerminator | src/lib/aspose.ts:197 | The inside of a tag occupies the text right after its open delimiter, so a single-line inside leaves that stretch single-line. |
| FieldScanner.ScanReaches | src/lib/aspose.ts:197-206 | The global search reaches a position unless an earlier match runs past it, so the match starting there is among the captures. |
| FieldScanner.AddAll | src/lib/aspose.ts:194-209 | `Set.add` in order keeps the earlier elements as a prefix, adds no duplicate, and holds exactly the old and the new elements. The new elements come in the order of their first occurrence. |
| FieldScanner.Keys | src/lib/aspose.ts:200-206 | Keys are exactly the trimmed non-empty captures. |
| FieldScanner.ScanDocumentFields | src/lib/aspose.ts:185-214 | A load failure gives `[]`. Otherwise the result has no duplicates and holds exactly the keys of both tag styles. The `<<[…]>>` keys come first, in the order of their first occurrence, followed by the `{{…}}` keys not already present, also in first-occurrence order. |
| FieldScanner.ScannedKeysComeFromTags | src/lib/aspose.ts:185-214 | Every reported key is the trimmed inside of a tag that occurs in the text. |
| FieldScanner.TagIsFound | src/lib/aspose.ts:185-214 | Completeness: a tag whose inside is non-empty, single-line and holds no earlier close delimiter is reported as its trimmed inside, provided no earlier match of the same expression runs past its start. |
| ApiKeys.Admit | src/lib/api-key.ts:13-41 | A request is limited exactly when it falls in the current 60-second window and the window count has reached the key's limit. A limited key is not written. Otherwise usage rises by one, `lastUsedAt` becomes now, and the window either restarts at now with count 1 or counts one more. |
| ApiKeys.AdmitKeepsCounterWithinLimit | src/lib/api-key.ts:18-41 | If the window count is within a positive limit, it stays within that limit after any request. |
| ApiKeys.ReplayInsideWindow | src/lib/api-key.ts:13-41 | Within one window, the admitted requests never push the count past max(count, limit). |
| ApiKeys.WindowAdmitsAtMostLimit | src/lib/api-key.ts:13-41 | A burst that opens a new window and stays within 60 s admits at least one and at most max(1, limit) requests. |
| ApiKeys.FindKey | src/lib/api-key.ts:5-7 | The lookup by key string finds the first record with that key, or reports that none exists. |
| ApiKeys.ValidateApiKey | src/lib/api-key.ts:4-53 | An unknown or inactive key gives null, and no record changes. A limited key returns the unchanged record. An accepted key returns the record after the window update, and only that record changes. |
| ApiKeys.HexEncode | src/lib/api-key.ts:56 | The encoding has two lower-case hex digits per byte. |
| ApiKeys.HexRoundTrip | src/lib/api-key.ts:56 | Hex decoding inverts the encoding. |
| ApiKeys.GenerateApiKey | src/lib/api-key.ts:55-57 | A key is 64 lower-case hex characters that decode back to the 32 random bytes. |
| UploadRoute.LatestVersion | src/app/api/documents/upload/route.ts:43-49 | The search finds nothing exactly when the organization has no document of that name. Otherwise it finds the highest version among those documents. |
| UploadRoute.NextVersion | src/app/api/documents/upload/route.ts:38-54 | Without a truthy `rootId`, or with no earlier document of the name, the version is 1. With `rootId`, it is one more than the highest existing version. |
| UploadRoute.CaughtMessage | src/app/api/documents/upload/route.ts:86-89 | An Error's message is reported, and anything else as "Upload failed". |
| UploadRoute.Post | src/app/api/documents/upload/route.ts:10-91 | The response is 401 without a session or organization, and 401 when the user or organization is gone. It is 500 with the caught message when the form cannot be read, and 400 without a file. The answer is 200 exactly for an authorised request with a file; then exactly one PENDING document is added with the computed version, one DOCUMENT_UPLOADED event is logged, and one PROCESS_DOCUMENT job is enqueued with the document id and the lower-cased bare extension. Every non-200 answer leaves the database unchanged. |
| UploadRoute.UploadEnqueuesOneJob | src/app/api/documents/upload/route.ts:76-82 | A successful upload adds one pending job with a fresh id whose payload names the new document and its extension. |
| ExternalRoute.DocumentName | src/app/api/external/process/route.ts:43-44 | TEST keys prefix the name with "[TEST] ". PRODUCTION keys keep it. |
| ExternalRoute.Post | src/app/api/external/process/route.ts:9-83 | The checks run in order: a missing key gives 401, an invalid one 401, a limited one 429, an unreadable form 400 and a missing file 400. The answer is 200 exactly for an accepted key with a file. Then one PENDING document in the key's organization, one EXTERNAL_UPLOADED event and one job are added. A non-200 answer adds no document, job or event. |
| ExternalRoute.Create | src/app/api/external/process/route.ts:40-75 | The success path answers `{id, status: "PENDING"}` and changes only documents, audit trail and jobs. |
| ExternalRoute.KeyUseIsCountedBeforeTheForm | src/app/api/external/process/route.ts:16-37 | Unless the key was rejected or limited, its usage count has risen by one, even when the form or file was then refused. |
| ApiKeysRoute.OfOrg | src/app/api/apikeys/route.ts:15-16 | The filter keeps exactly the organization's keys, with their multiplicities. |
| ApiKeysRoute.Insert | src/app/api/apikeys/route.ts:17 | Insertion keeps the newest-first order and adds exactly the new key. |
| ApiKeysRoute.SortNewestFirst | src/app/api/apikeys/route.ts:17 | The result is ordered newest first and is a permutation of the input. |
| ApiKeysRoute.ListKeys | src/app/api/apikeys/route.ts:15-18 | The list is exactly the organization's keys, newest first. |
| ApiKeysRoute.Get | src/app/api/apikeys/route.ts:8-21 | Non-admins and sessions without an organization get 403 "Forbidden". Others get their organization's keys, newest first. |
| ApiKeysRoute.RateLimitOf | src/app/api/apikeys/route.ts:31-40 | A positive number is kept as the limit, and anything else gives 60. |
| ApiKeysRoute.KindOf | src/app/api/apikeys/route.ts:32 | The type is TEST exactly for the string "TEST", and PRODUCTION otherwise. |
| ApiKeysRoute.Post | src/app/api/apikeys/route.ts:23-52 | A non-admin gets 403 and nothing changes. Otherwise exactly one active key is added with a fresh 64-hex-digit value, the organization, the type and the limit. The plain value is returned, and one API_KEY_CREATED event names the id and the type. |
| ApiKeysRoute.CreatedKeyIsUsable | src/app/api/apikeys/route.ts:36-51 | The created key is active, starts within its limit, and heads the organization's newest-first list. |
| OrganizationRoute.ValidName | src/app/api/organization/route.ts:21-27 | A name is accepted exactly when the body is truthy, `name` is a string and its trim is non-empty. The stored name is that trim. |
| OrganizationRoute.Patch | src/app/api/organization/route.ts:7-37 | The answer is 401 without a session or organization, 403 for a non-admin and 400 for an invalid name, and each of these leaves the database unchanged. A 200 renames exactly the session's organization to the trimmed name, logs one ORGANIZATION_UPDATED event and returns the organization. |
| OrganizationRoute.StoredNameIsTrimmed | src/app/api/organization/route.ts:25-28 | A stored name is non-empty, neither starts nor ends with white space, and is its own trim. |
| LicenseRoute.LicenseFiles | src/app/api/admin/license/route.ts:34-54 | "total" writes both license files, "words" only the Words file and "cells" only the Cells file. Any other type writes none. |
| LicenseRoute.Install | src/app/api/admin/license/route.ts:34-57 | A valid type writes exactly its license files with the uploaded bytes and nothing else. An invalid type writes nothing. |
| LicenseRoute.TotalIsWordsThenCells | src/app/api/admin/license/route.ts:34-57 | Installing "total" is installing "words" and then "cells". |
| LicenseRoute.Post | src/app/api/admin/license/route.ts:9-72 | The answer is 403 for a non-admin and 400 without a file or type, and each leaves everything unchanged. It is 200 exactly for an admin uploading a file with type total, words or cells. Then exactly those license files are written and one LICENSE_UPDATED event is logged. |
| Middleware.Middleware | src/middleware.ts:4-26 | A request under /api/external without a key gets 401 "Missing API key". Every other request passes on with exactly the three security headers. |
| Middleware.Apply | src/middleware.ts:28-30 | Only /api and paths under it reach the middleware. |
| Middleware.ExternalPathsAreMatched | src/middleware.ts:13-29 | Every /api/external path is covered by the matcher. |
| Middleware.KeyIsNotValidated | src/middleware.ts:14-22 | Only the presence of a key is checked. Any two non-empty keys lead to the same outcome, and outside /api/external the key does not matter. |
| Schemas.KindOf | src/lib/schemas.ts:19 | Only "PRODUCTION" and "TEST" are accepted types. |
| Schemas.ApiKeyIssues | src/lib/schemas.ts:17-21 | Each invalid field is reported by name, and only invalid fields. A non-object is reported at the root. |
| Schemas.ParseApiKey | src/lib/schemas.ts:17-21 | Parsing succeeds exactly when the name is a non-empty string, the type is one of the two, and the limit is an integer between 1 and 10000. The parsed fields are the input's. |
| Schemas.ApiKeyRoundTrip | src/lib/schemas.ts:17-21 | Serialising a valid input and parsing it gives the input back. |
| Schemas.ParseIsIdempotent | src/lib/schemas.ts:17-21 | Re-parsing a parse result's JSON gives the same result. |
| Schemas.ParseTemplateRequest | src/lib/schemas.ts:7-11 | A template request is valid exactly when it is an object whose `data` is an object. |
| Schemas.ParseFileRequest | src/lib/schemas.ts:3-5 | Any object is a valid file request, and its `file` is kept. |
| Storage.SafeName | src/lib/storage.ts:8 | Every character outside `[a-zA-Z0-9.-]` becomes `_`, and the others and the length are kept. |
| Storage.SafeNameIdempotent | src/lib/storage.ts:8 | Sanitising twice equals sanitising once, and a sanitised name has no `/`. |
| Storage.SaveFile | src/lib/storage.ts:6-17 | The file is written at `uploads/<org>/<now>-<safe name>` under the working directory, and that path and name are returned. The name holds no `/`, so the file stays in the organization's directory. |
| Storage.DeleteFile | src/lib/storage.ts:23-32 | A missing file is not an error. Any other unlink failure is rethrown. A successful delete removes exactly that path. |
| Storage.DeleteFileTwice | src/lib/storage.ts:23-32 | Deleting a file is idempotent: a second delete of the same path succeeds and changes nothing. |
| TempFile.SafeExt | src/lib/temp-file.ts:8 | The extension gets a leading dot only if it lacks one. |
| TempFile.SafeExtIdempotent | src/lib/temp-file.ts:8 | Normalising an extension twice equals normalising it once. |
| TempFile.TempFileName | src/lib/temp-file.ts:9 | Temp names start with "temp-" and end with the normalised extension. |
| TempFile.WriteTempFile | src/lib/temp-file.ts:5-13 | The buffer is written at the joined temp path, and that path is returned. |
| TempFile.DeleteTempFile | src/lib/temp-file.ts:19-25 | Deletion removes the path, and every failure is swallowed. |
| TempFile.WriteThenDeleteRestores | src/lib/temp-file.ts:5-25 | Writing a temp file at a fresh path and deleting it restores the file system. |
| Store.Unlink | src/lib/storage.ts:25 | `fs.unlink` succeeds exactly when the path exists and the environment does not refuse. Then it removes exactly that path. A missing path fails with ENOENT. |
| Store.FindDocument | src/worker.ts:40 | `findUnique` by id finds the document with that id, or reports that none exists. |
| Store.LookupDocument | src/worker.ts:38-40 | A string `documentId` is looked up, and any other payload value makes the query throw. |
| Js.Coalesce | src/lib/queue.ts:12 | `v ?? fallback` keeps every value except null and undefined. |
| Js.ErrorMessage | src/lib/queue.ts:74 | An Error contributes its message, and a thrown string itself. |
| NodePath.Extname | src/app/api/documents/upload/route.ts:76 | `path.extname` is empty or a dot followed by characters that are neither dots nor slashes. |
| NodePath.ExtnameOfName | src/app/api/documents/upload/route.ts:76 | For a file name, the extension is empty exactly when the name is ".." or has no dot after its first character. Otherwise it is the suffix from the last dot. |
| NodePath.BareExtension | src/app/api/documents/upload/route.ts:76 | The job's `ext` is the lower-cased `path.extname` without its leading dot, and empty when there is no extension. It holds no dot, no slash and no upper-case letter. |
| Text.ToLower | src/app/api/documents/upload/route.ts:76 | Lower-casing keeps the length and maps each character on its own. |
| Text.JoinSplit | src/lib/aspose.ts:139-173 | Splitting on a pattern and joining with it gives the text back. |
| Text.ReplaceAllIsJoin | src/lib/aspose.ts:139-173 | Literal replace-all is split-then-join with the replacement. |
| Text.ReplaceAllAbsent | src/lib/aspose.ts:139-173 | Replacing a pattern that does not occur changes nothing. |
| Text.ReplacementPresence | src/lib/aspose.ts:139-157 | After replacing `q` by `r`, the text holds `r` exactly when it held `q` or `r` before. |
| Text.TrimSpec | src/app/api/organization/route.ts:21-27 | `trim()` removes exactly the leading and trailing JavaScript white space. |
| Text.TrimIdempotent | src/app/api/organization/route.ts:27 | Trimming twice equals trimming once. |
| Text.TrimEmptyIffBlank | src/app/api/organization/route.ts:21 | The trim is empty exactly when every character is white space. |
| Text.NatToStringRoundTrip | src/lib/storage.ts:9 | The decimal rendering of a timestamp parses back to it. |

## Left out

- Database and ORM failures. The tables cannot fail to be read or written. Prisma's own exception texts are not modelled, except that a non-string document id is rejected.
- The database schema is not part of this model. Column defaults are taken from the code that reads them: version 1, `isActive` true, counters 0. `updatedAt` columns are not tracked.
- Concurrency. Each claim and each route is one atomic step. `FOR UPDATE SKIP LOCKED` only shows as "a claimed job is not claimed again".
- Timers, logging and `console.*`. The worker's sleeps are summed into a number rather than waited for.
- Worker.Run: covers a finite prefix of the infinite `while (true)` loop. An error thrown by a step is modelled only as "database unreachable this round".
- The native engines: loading, converting, saving, inserting images, and `loadLicense`. Each becomes a parameter function. `loadLicense` itself is not modelled, and the license route treats it as never throwing.
- Template: documents are a flat sequence of runs and images. Tags are assumed to lie inside one run. The engine's exact image placement and `FindReplaceOptions` are not modelled.
- Template.ReplaceTags: matching is exact and case-sensitive literal replace-all. The engine's default `FindReplaceOptions` (`MatchCase` false) also replace case variants of a tag such as `{{NAME}}` for key `name`, and read `&p`, `&b`, `&m`, `&l` in a plain pattern or replacement as breaks. Neither is modelled.
- Template.ReplaceTagsUntagged: "untagged" means no exact-case tag. A run holding only a case variant of the tag is changed by the engine but kept here.
- Template.TextEntryTouchesOnlyTaggedRuns: the same exact-case notion of a tagged run, so runs holding only case variants are kept here although the engine rewrites them.
- Template.ApplyEntry: the text and placeholder replacements inherit the exact-case literal matching of ReplaceTags.
- Template.ImageEntryOnePerTaggedRun: tagged runs are those with an exact-case tag. Runs holding only a case variant, which the engine would also give the placeholder and the image, are not counted.
- Template.RenderWordTemplate: only the image branch has its own `try`. A failing text-entry `range.replace` or a failing `doc.save` would be rethrown by the outer `catch`; the model takes both as never failing, so a loaded document always renders.
- Base64 decoding of image data. The engine's acceptance of the data is a parameter.
- `path.join` normalisation (`..`, repeated slashes). The model joins with one `/` and assumes the directories it is given are already normal.
- Text.ToLower / NodePath.BareExtension: `toLowerCase` lowers only the ASCII letters; other letters keep their case.
- JSON serialisation of responses. Bodies are JSON values before serialisation, and binary columns are not shown.
- `fs.mkdir`: directories are implicit in the path-to-bytes map.
- Unlink failures other than a missing file during the queue driver's clean-up. `deleteTempFile` swallows them, and the model takes the files as removed.
- Storage.SafeName: strings are sequences of code points, while the JavaScript regular expression (no `u` flag) replaces each UTF-16 code unit. A character outside the Basic Multilingual Plane becomes one `_` here but two in the source, so the "length is kept" claim is in code points.
- ApiKeysRoute.RateLimitOf / Schemas.ValidRateLimit / Template.ApplyEntry: JavaScript numbers are modelled as integers only. A fractional `rateLimitPerMin` is stored by the source but cannot be expressed here. zod's `.int()` check is therefore vacuous, and `String(x)` of a fractional number is not modelled.
- Js.ToJsString / Js.ErrorMessage / Template.ApplyEntry / Queue.Finish: numbers are unbounded integers written in plain decimal. JavaScript numbers are doubles: `String(n)` switches to exponent form at magnitude 10^21 (`String(1e21)` is "1e+21"), and integers above 2^53 are not exact. So a data value or thrown number of magnitude 10^21 or more renders as "1e+21" in the source but as "1000000000000000000000" here.
- ApiKeysRoute.RateLimitOf: a non-number value that compares greater than 0 in JavaScript (such as the string "5") is treated as 60 instead of being stored.
- The pages, components, debug scripts and the other routes (documents CRUD, history, restore, scan, content, external generate, API-key PATCH). They call the modelled helpers but are not part of this model.

=== FILE: api_key.dfy ===
/** API keys of `src/lib/api-key.ts`: the fixed-window rate limiter applied
    on every use of a key, and the shape of freshly generated keys. Times are
    milliseconds since the epoch. */
module ApiKeys {
  import opened Js

  datatype KeyType = Production | Test

  /** The enum value as the database and JSON spell it. */
  function KindName(t: KeyType): string {
    match t
    case Production => "PRODUCTION"
    case Test => "TEST"
  }

  datatype ApiKey = ApiKey(
    id: string,
    key: string,
    orgId: string,
    kind: KeyType,
    isActive: bool,
    rateLimitPerMin: int,
    windowStart: Option<int>,
    windowCount: int,
    usageCount: int,
    lastUsedAt: Option<int>,
    createdAt: int)

  /** Length of one rate-limit window: 60 * 1000 ms. */
  const WINDOW_MILLIS: int := 60 * 1000

  /** `key.windowStart ?? new Date(0)` */
  function WindowStartOf(k: ApiKey): int {
    match k.windowStart
    case None => 0
    case Some(t) => t
  }

  predicate SameWindow(k: ApiKey, now: int) {
    now - WindowStartOf(k) < WINDOW_MILLIS
  }

  /** The fields a use of a key never touches are equal. */
  predicate SameIdentity(a: ApiKey, b: ApiKey) {
    && a.id == b.id && a.key == b.key && a.orgId == b.orgId && a.kind == b.kind
    && a.isActive == b.isActive && a.rateLimitPerMin == b.rateLimitPerMin && a.createdAt == b.createdAt
  }

  /** One use of an active key at time `now`: whether it is limited, and the
      record afterwards. */
  function Admit(k: ApiKey, now: int): (r: (bool, ApiKey))
    ensures r.0 <==> SameWindow(k, now) && k.windowCount >= k.rateLimitPerMin
    ensures r.0 ==> r.1 == k
    ensures !r.0 ==> SameIdentity(k, r.1) && r.1.usageCount == k.usageCount + 1 && r.1.lastUsedAt == Some(now)
    ensures !r.0 && !SameWindow(k, now) ==> r.1.windowStart == Some(now) && r.1.windowCount == 1
    ensures !r.0 && SameWindow(k, now) ==>
      r.1.windowStart == k.windowStart && r.1.windowCount == k.windowCount + 1
  {
    var same := SameWindow(k, now);
    if same && k.windowCount >= k.rateLimitPerMin then (true, k)
    else if !same then
      (false, k.(windowStart := Some(now), windowCount := 1, usageCount := k.usageCount + 1, lastUsedAt := Some(now)))
    else
      (false, k.(windowCount := k.windowCount + 1, usageCount := k.usageCount + 1, lastUsedAt := Some(now)))
  }

  /** The window counter never exceeds a positive limit. */
  predicate CounterWithinLimit(k: ApiKey) {
    k.rateLimitPerMin >= 1 && k.windowCount <= k.rateLimitPerMin
  }

  lemma AdmitKeepsCounterWithinLimit(k: ApiKey, now: int)
    requires CounterWithinLimit(k)
    ensures CounterWithinLimit(Admit(k, now).1)
  {
  }

  /** A sequence of uses: how many were admitted, and the final record. */
  function Replay(k: ApiKey, times: seq<int>): (r: (nat, ApiKey))
    ensures r.0 <= |times|
    decreases |times|
  {
    if |times| == 0 then (0, k)
    else
      var (limited, k') := Admit(k, times[0]);
      var (n, last) := Replay(k', times[1..]);
      (n + (if limited then 0 else 1), last)
  }

  function Max(a: int, b: int): int {
    if a >= b then a else b
  }

  /** Inside one open window, uses are admitted only until the counter
      reaches the limit. */
  lemma {:induction false} ReplayInsideWindow(k: ApiKey, times: seq<int>)
    requires k.windowStart.Some?
    requires forall i :: 0 <= i < |times| ==> times[i] - k.windowStart.value < WINDOW_MILLIS
    ensures k.windowCount + Replay(k, times).0 <= Max(k.windowCount, k.rateLimitPerMin)
    decreases |times|
  {
    if |times| > 0 {
      var (limited, k') := Admit(k, times[0]);
      assert k'.windowStart == k.windowStart;
      ReplayInsideWindow(k', times[1..]);
    }
  }

  /** The fixed-window guarantee: uses that all fall within one window
      length of a use that opened a new window are admitted at most
      `rateLimitPerMin` times (at least the opening use is admitted). */
  lemma WindowAdmitsAtMostLimit(k: ApiKey, times: seq<int>)
    requires |times| >= 1 && !SameWindow(k, times[0])
    requires forall i :: 0 <= i < |times| ==> times[i] - times[0] < WINDOW_MILLIS
    ensures 1 <= Replay(k, times).0 <= Max(1, k.rateLimitPerMin)
  {
    var (_, k') := Admit(k, times[0]);
    ReplayInsideWindow(k', times[1..]);
  }

  // ---- validateApiKey ---------------------------------------------------

  datatype Validation = Rejected | RateLimited(key: ApiKey) | Accepted(key: ApiKey)

  /** Index of the record whose key equals `apiKey`. */
  function FindKey(keys: seq<ApiKey>, apiKey: string): (r: Option<nat>)
    ensures r.None? <==> forall i :: 0 <= i < |keys| ==> keys[i].key != apiKey
    ensures r.Some? ==> r.value < |keys| && keys[r.value].key == apiKey
    ensures r.Some? ==> forall i :: 0 <= i < r.value ==> keys[i].key != apiKey
  {
    if |keys| == 0 then None
    else if keys[0].key == apiKey then Some(0)
    else match FindKey(keys[1..], apiKey)
      case None => None
      case Some(i) => Some(i + 1)
  }

  /** `validateApiKey(apiKey)` at time `now`: the decision and the key store
      afterwards. Unknown and inactive keys are rejected; a limited use
      changes nothing; an admitted use updates only that key's record. */
  function ValidateApiKey(keys: seq<ApiKey>, apiKey: string, now: int): (r: (Validation, seq<ApiKey>))
    ensures |r.1| == |keys|
    ensures r.0.Rejected? <==> FindKey(keys, apiKey).None? || !keys[FindKey(keys, apiKey).value].isActive
    ensures !r.0.Accepted? ==> r.1 == keys
    ensures r.0.Accepted? ==> var i := FindKey(keys, apiKey).value;
      && r.1 == keys[i := r.0.key]
      && r.0.key == Admit(keys[i], now).1 && !Admit(keys[i], now).0
    ensures r.0.RateLimited? ==> var i := FindKey(keys, apiKey).value;
      r.0.key == keys[i] && Admit(keys[i], now).0
  {
    match FindKey(keys, apiKey)
    case None => (Rejected, keys)
    case Some(i) =>
      if !keys[i].isActive then (Rejected, keys)
      else
        var (limited, k') := Admit(keys[i], now);
        if limited then (RateLimited(keys[i]), keys) else (Accepted(k'), keys[i := k'])
  }

  // ---- generateApiKey ---------------------------------------------------

  predicate IsLowerHex(c: char) {
    ('0' <= c <= '9') || ('a' <= c <= 'f')
  }

  function HexDigit(d: int): (c: char)
    requires 0 <= d < 16
    ensures IsLowerHex(c)
  {
    "0123456789abcdef"[d]
  }

  function HexValue(c: char): (d: int)
    requires IsLowerHex(c)
    ensures 0 <= d < 16
  {
    if '0' <= c <= '9' then c as int - '0' as int else c as int - 'a' as int + 10
  }

  /** `buffer.toString("hex")`: two lower-case hex digits per byte, high nibble first. */
  function HexEncode(bytes: seq<byte>): (r: string)
    ensures |r| == 2 * |bytes|
    ensures forall i :: 0 <= i < |r| ==> IsLowerHex(r[i])
  {
    if |bytes| == 0 then ""
    else [HexDigit(bytes[0] as int / 16), HexDigit(bytes[0] as int % 16)] + HexEncode(bytes[1..])
  }

  function HexDecode(s: string): seq<byte>
    requires |s| % 2 == 0
    requires forall i :: 0 <= i < |s| ==> IsLowerHex(s[i])
  {
    if |s| == 0 then []
    else [(16 * HexValue(s[0]) + HexValue(s[1])) as byte] + HexDecode(s[2..])
  }

  /** Hex encoding loses nothing. */
  lemma {:induction false} HexRoundTrip(bytes: seq<byte>)
    ensures HexDecode(HexEncode(bytes)) == bytes
  {
    if |bytes| > 0 {
      var b := bytes[0] as int;
      var s := HexEncode(bytes);
      assert HexValue(HexDigit(b / 16)) == b / 16;
      assert HexValue(HexDigit(b % 16)) == b % 16;
      assert s[2..] == HexEncode(bytes[1..]);
      HexRoundTrip(bytes[1..]);
    }
  }

  /** `generateApiKey()` over the 32 random bytes it draws: a key of 64
      lower-case hex characters. */
  function GenerateApiKey(random: seq<byte>): (r: string)
    requires |random| == 32
    ensures |r| == 64
    ensures forall i :: 0 <= i < |r| ==> IsLowerHex(r[i])
    ensures HexDecode(r) == random
  {
    HexRoundTrip(random);
    HexEncode(random)
  }
}

=== FILE: apikeys_route.dfy ===
/** The `GET` and `POST` handlers of `src/app/api/apikeys/route.ts`: an
    organization's administrator lists its API keys, newest first, and
    creates new ones. */
module ApiKeysRoute {
  import opened Js
  import Store
  import ApiKeys

  const API_KEY_CREATED: string := "API_KEY_CREATED"

  /** The limit a key gets when the request gives no usable one. */
  const DEFAULT_RATE_LIMIT: int := 60

  /** Only an administrator with an organization may manage keys. */
  predicate MayManage(session: Option<Store.Session>) {
    session.Some? && Store.IsAdmin(session.value) && Store.HasOrg(session.value)
  }

  // ---- GET ----------------------------------------------------------------

  /** The keys of one organization, in store order (`where: { organizationId }`). */
  function OfOrg(keys: seq<ApiKeys.ApiKey>, orgId: string): (r: seq<ApiKeys.ApiKey>)
    ensures forall k :: k in r <==> k in keys && k.orgId == orgId
    ensures forall k :: k in multiset(r) ==> multiset(r)[k] == multiset(keys)[k]
  {
    if |keys| == 0 then []
    else
      var rest := OfOrg(keys[1..], orgId);
      assert keys == [keys[0]] + keys[1..];
      if keys[0].orgId == orgId then [keys[0]] + rest else rest
  }

  predicate NewestFirst(ks: seq<ApiKeys.ApiKey>) {
    forall i, j :: 0 <= i < j < |ks| ==> ks[i].createdAt >= ks[j].createdAt
  }

  function Insert(k: ApiKeys.ApiKey, ks: seq<ApiKeys.ApiKey>): (r: seq<ApiKeys.ApiKey>)
    requires NewestFirst(ks)
    ensures NewestFirst(r)
    ensures |r| == |ks| + 1 && (r[0] == k || (|ks| > 0 && r[0] == ks[0]))
    ensures multiset(r) == multiset(ks) + multiset{k}
  {
    if |ks| == 0 || k.createdAt >= ks[0].createdAt then [k] + ks
    else
      var rest := Insert(k, ks[1..]);
      assert ks == [ks[0]] + ks[1..];
      assert multiset([ks[0]] + rest) == multiset{ks[0]} + multiset(rest);
      var r := [ks[0]] + rest;
      assert r[0].createdAt >= r[1].createdAt;
      forall i, j | 0 <= i < j < |r|
        ensures r[i].createdAt >= r[j].createdAt
      {
        if i == 0 && j > 1 {
          assert rest[0].createdAt >= rest[j - 1].createdAt;
        }
      }
      r
  }

  /** `orderBy: { createdAt: "desc" }`; keys created at the same moment
      may come in any order, and this one is the store order. */
  function SortNewestFirst(ks: seq<ApiKeys.ApiKey>): (r: seq<ApiKeys.ApiKey>)
    ensures NewestFirst(r)
    ensures multiset(r) == multiset(ks)
  {
    if |ks| == 0 then []
    else
      assert ks == [ks[0]] + ks[1..];
      Insert(ks[0], SortNewestFirst(ks[1..]))
  }

  /** The keys `GET` lists: exactly the organization's keys, newest first. */
  function ListKeys(keys: seq<ApiKeys.ApiKey>, orgId: string): (r: seq<ApiKeys.ApiKey>)
    ensures NewestFirst(r)
    ensures multiset(r) == multiset(OfOrg(keys, orgId))
    ensures forall k :: k in r <==> k in keys && k.orgId == orgId
  {
    var r := SortNewestFirst(OfOrg(keys, orgId));
    assert forall k :: k in r <==> k in multiset(r);
    r
  }

  function KeyJson(k: ApiKeys.ApiKey): Value {
    Obj([("id", Str(k.id)), ("key", Str(k.key)), ("organizationId", Str(k.orgId)), ("type", Str(ApiKeys.KindName(k.kind))),
         ("isActive", Bool(k.isActive)), ("rateLimitPerMin", Num(k.rateLimitPerMin)), ("usageCount", Num(k.usageCount)),
         ("createdAt", Num(k.createdAt))])
  }

  function KeysJson(ks: seq<ApiKeys.ApiKey>): (r: seq<Value>)
    ensures |r| == |ks| && forall i :: 0 <= i < |ks| ==> r[i] == KeyJson(ks[i])
  {
    if |ks| == 0 then [] else [KeyJson(ks[0])] + KeysJson(ks[1..])
  }

  /** `GET` */
  function Get(db: Store.Db, session: Option<Store.Session>): (r: Store.Response)
    ensures !MayManage(session) ==> r == Store.ErrorResponse(403, "Forbidden")
    ensures MayManage(session) ==>
      r.status == 200 && Field(r.body, "keys") == Arr(KeysJson(ListKeys(db.apiKeys, session.value.orgId.value)))
  {
    if !MayManage(session) then Store.ErrorResponse(403, "Forbidden")
    else Store.Response(200, Single("keys", Arr(KeysJson(ListKeys(db.apiKeys, session.value.orgId.value)))))
  }

  // ---- POST ---------------------------------------------------------------

  /** `rateLimit && rateLimit > 0 ? rateLimit : 60` for a numeric or absent
      field. */
  function RateLimitOf(v: Value): (r: int)
    ensures r >= 1
    ensures v.Num? && v.n > 0 ==> r == v.n
    ensures !(v.Num? && v.n > 0) ==> r == DEFAULT_RATE_LIMIT
  {
    if v.Num? && v.n > 0 then v.n else DEFAULT_RATE_LIMIT
  }

  /** `body?.type === "TEST" ? "TEST" : "PRODUCTION"` */
  function KindOf(v: Value): (t: ApiKeys.KeyType)
    ensures t == ApiKeys.Test <==> v == Str("TEST")
  {
    if v == Str("TEST") then ApiKeys.Test else ApiKeys.Production
  }

  /** What the database and the clock supply: the new key's id and the time. */
  datatype Ids = Ids(keyId: string, now: int)

  /** `POST` with the JSON body (`None` when it did not parse, which the
      route treats as `null`) and the 32 random bytes of the new key. The
      new record's other columns take their schema defaults: active, no
      window yet, no use. */
  function Post(db: Store.Db, session: Option<Store.Session>, body: Option<Value>, random: seq<byte>, ids: Ids)
    : (r: (Store.Response, Store.Db))
    requires |random| == 32
    ensures !MayManage(session) ==> r == (Store.ErrorResponse(403, "Forbidden"), db)
    ensures r.1.documents == db.documents && r.1.jobs == db.jobs && r.1.users == db.users && r.1.orgs == db.orgs
    ensures MayManage(session) ==>
      var b := if body.None? then Null else body.value;
      var plain := ApiKeys.GenerateApiKey(random);
      var kind := KindOf(Field(b, "type"));
      var key := ApiKeys.ApiKey(ids.keyId, plain, session.value.orgId.value, kind, true,
                                RateLimitOf(Field(b, "rateLimitPerMin")), None, 0, 0, None, ids.now);
      && r.0.status == 200
      && Field(r.0.body, "plain") == Str(plain) && Field(r.0.body, "key") == KeyJson(key)
      && r.1.apiKeys == db.apiKeys + [key]
      && r.1.audit == db.audit + [Store.AuditEvent(API_KEY_CREATED, None, Some(session.value.userId),
                                                   Some("ApiKey " + ids.keyId + " (" + ApiKeys.KindName(kind) + ")"))]
  {
    if !MayManage(session) then (Store.ErrorResponse(403, "Forbidden"), db)
    else
      var s := session.value;
      var b := if body.None? then Null else body.value;
      var kind := KindOf(Field(b, "type"));
      var plain := ApiKeys.GenerateApiKey(random);
      var key := ApiKeys.ApiKey(ids.keyId, plain, s.orgId.value, kind, true,
                                RateLimitOf(Field(b, "rateLimitPerMin")), None, 0, 0, None, ids.now);
      var event := Store.AuditEvent(API_KEY_CREATED, None, Some(s.userId), Some("ApiKey " + key.id + " (" + ApiKeys.KindName(kind) + ")"));
      var fields := [("key", KeyJson(key)), ("plain", Str(plain))];
      FieldAt(fields, "key", 0);
      FieldAt(fields, "plain", 1);
      (Store.Response(200, Obj(fields)), db.(apiKeys := db.apiKeys + [key], audit := db.audit + [event]))
  }

  /** A created key starts inside the rate limiter's invariant, is active
      and is listed first among its organization's keys when it is the
      newest. */
  lemma CreatedKeyIsUsable(db: Store.Db, session: Option<Store.Session>, body: Option<Value>, random: seq<byte>, ids: Ids)
    requires |random| == 32 && MayManage(session)
    requires forall k :: k in db.apiKeys ==> k.createdAt < ids.now
    ensures var keys := Post(db, session, body, random, ids).1.apiKeys;
      var key := keys[|keys| - 1];
      && ApiKeys.CounterWithinLimit(key) && key.isActive
      && ListKeys(keys, session.value.orgId.value)[0] == key
  {
    var keys := Post(db, session, body, random, ids).1.apiKeys;
    var key := keys[|keys| - 1];
    var listed := ListKeys(keys, session.value.orgId.value);
    assert key in listed;
  }
}

=== FILE: aspose.dfy ===
/** `processDocument` of `src/lib/aspose.ts`: routing a file to the word
    processing engine, the spreadsheet engine or a plain copy, by its type
    tag. The engines themselves are one opaque conversion function. */
module Aspose {
  import opened Js
  import Store

  datatype EngineKind = Words | Cells

  /** What the native engine does with the input file's contents (absent
      when the file does not exist): converted bytes or an exception. */
  type Converter = (EngineKind, Option<seq<byte>>) -> Result<seq<byte>, Thrown>

  /** The engine a type tag is routed to, by exact string comparison;
      `None` for "pdf" and for unsupported tags. */
  function EngineFor(fileType: string): (r: Option<EngineKind>)
    ensures r == Some(Words) <==> fileType == "docx" || fileType == "doc"
    ensures r == Some(Cells) <==> fileType == "xlsx" || fileType == "xls"
  {
    if fileType == "docx" || fileType == "doc" then Some(Words)
    else if fileType == "xlsx" || fileType == "xls" then Some(Cells)
    else None
  }

  /** Node's message for copying a missing file. */
  function CopyFileMissing(src: string, dest: string): string {
    "ENOENT: no such file or directory, copyfile '" + src + "' -> '" + dest + "'"
  }

  function ContentsOf(fs: Store.FileSystem, path: string): Option<seq<byte>> {
    if path in fs then Some(fs[path]) else None
  }

  /** `processDocument(inputPath, outputPath, type)` over a file system: the
      new file system, or what it throws. Only `outputPath` is ever written. */
  function ProcessDocument(fs: Store.FileSystem, inputPath: string, outputPath: string, fileType: string, convert: Converter)
    : (r: Result<Store.FileSystem, Thrown>)
    ensures fileType == "pdf" && inputPath == outputPath ==> r == Success(fs)
    ensures fileType == "pdf" && inputPath != outputPath ==>
      (inputPath in fs ==> r == Success(fs[outputPath := fs[inputPath]]))
      && (inputPath !in fs ==> r == Failure(Error(CopyFileMissing(inputPath, outputPath))))
    ensures fileType != "pdf" && EngineFor(fileType).Some? ==>
      var c := convert(EngineFor(fileType).value, ContentsOf(fs, inputPath));
      (c.Success? ==> r == Success(fs[outputPath := c.value])) && (c.Failure? ==> r == Failure(c.error))
    ensures fileType != "pdf" && EngineFor(fileType).None? ==>
      r == Failure(Error("Unsupported file type: " + fileType))
    ensures r.Success? ==> forall p :: p != outputPath ==> (p in r.value <==> p in fs)
    ensures r.Success? ==> forall p :: p != outputPath && p in fs ==> r.value[p] == fs[p]
    ensures r.Success? && inputPath != outputPath ==> outputPath in r.value
  {
    if fileType == "pdf" then
      if inputPath == outputPath then Success(fs)
      else if inputPath in fs then Success(fs[outputPath := fs[inputPath]])
      else Failure(Error(CopyFileMissing(inputPath, outputPath)))
    else match EngineFor(fileType)
      case None => Failure(Error("Unsupported file type: " + fileType))
      case Some(kind) =>
        match convert(kind, ContentsOf(fs, inputPath))
        case Success(out) => Success(fs[outputPath := out])
        case Failure(e) => Failure(e)
  }

  predicate HasUpperCase(t: string) {
    exists k :: 0 <= k < |t| && 'A' <= t[k] <= 'Z'
  }

  /** Type tags are matched exactly: any tag with an upper-case letter (such
      as "DOCX" or "Pdf") is unsupported, whatever the files hold. */
  lemma TypeTagsAreCaseSensitive(fs: Store.FileSystem, i: string, o: string, fileType: string, convert: Converter)
    requires HasUpperCase(fileType)
    ensures ProcessDocument(fs, i, o, fileType, convert) == Failure(Error("Unsupported file type: " + fileType))
  {
    assert !HasUpperCase("pdf") && !HasUpperCase("docx") && !HasUpperCase("doc");
    assert !HasUpperCase("xlsx") && !HasUpperCase("xls");
  }
}

=== FILE: external_route.dfy ===
/** The `POST` handler of `src/app/api/external/process/route.ts`: a
    client authenticated by API key submits a file, which becomes a PENDING
    document of the key's organization and a queued conversion job. */
module ExternalRoute {
  import opened Js
  import NodePath
  import Queue
  import Store
  import ApiKeys

  const EXTERNAL_UPLOADED: string := "EXTERNAL_DOCUMENT_UPLOADED"

  /** The `x-api-key` header and the parsed form (`None` when parsing
      failed: the route catches that and treats the form as `null`). */
  datatype Request = Request(apiKey: Option<string>, form: Option<Store.Form>)

  /** What the database and the clock supply: the new document's id, the
      new job's id and the time. */
  datatype Ids = Ids(documentId: string, jobId: string, now: int)

  /** The stored name: test keys mark their documents. */
  function DocumentName(kind: ApiKeys.KeyType, fileName: string): (r: string)
    ensures kind == ApiKeys.Production ==> r == fileName
    ensures kind == ApiKeys.Test ==> |r| == |fileName| + 7 && r[..7] == "[TEST] " && r[7..] == fileName
  {
    if kind == ApiKeys.Test then "[TEST] " + fileName else fileName
  }

  /** `POST`: the response and the database afterwards. */
  function Post(db: Store.Db, req: Request, ids: Ids): (r: (Store.Response, Store.Db))
    ensures req.apiKey.None? || req.apiKey.value == "" ==> r == (Store.ErrorResponse(401, "Missing API key"), db)
    ensures req.apiKey.Some? && req.apiKey.value != "" ==>
      var (v, keys) := ApiKeys.ValidateApiKey(db.apiKeys, req.apiKey.value, ids.now);
      && (v.Rejected? ==> r == (Store.ErrorResponse(401, "Invalid API key"), db))
      && (v.RateLimited? ==> r == (Store.ErrorResponse(429, "Rate limit exceeded"), db))
      && (v.Accepted? ==> r.1.apiKeys == keys)
      && (v.Accepted? && req.form.None? ==> r == (Store.ErrorResponse(400, "Invalid form data"), db.(apiKeys := keys)))
      && (v.Accepted? && req.form.Some? && !Store.FieldTruthy(Store.FormGet(req.form.value, "file")) ==>
            r == (Store.ErrorResponse(400, "No file provided"), db.(apiKeys := keys)))
      && (r.0.status == 200 <==> v.Accepted? && req.form.Some? && Store.FormGet(req.form.value, "file").Blob?)
    ensures r.0.status != 200 ==> r.1.documents == db.documents && r.1.jobs == db.jobs && r.1.audit == db.audit
    ensures r.1.users == db.users && r.1.orgs == db.orgs
    ensures r.0.status == 200 ==>
      var key := ApiKeys.ValidateApiKey(db.apiKeys, req.apiKey.value, ids.now).0.key;
      var f := Store.FormGet(req.form.value, "file").file;
      && Field(r.0.body, "id") == Str(ids.documentId) && Field(r.0.body, "status") == Str("PENDING")
      && r.1.documents == db.documents + [Store.Document(ids.documentId, DocumentName(key.kind, f.name), f.name, Some(f.bytes),
                                                          key.orgId, None, Store.DocPending, Store.DEFAULT_VERSION, None)]
      && r.1.audit == db.audit + [Store.AuditEvent(EXTERNAL_UPLOADED, Some(ids.documentId), None, Some("ApiKey " + key.id))]
      && r.1.jobs == Queue.Enqueue(db.jobs, ids.jobId, Queue.ProcessDocument,
                                   Store.ProcessPayload(ids.documentId, NodePath.BareExtension(f.name)), ids.now)
  {
    if req.apiKey.None? || req.apiKey.value == "" then (Store.ErrorResponse(401, "Missing API key"), db)
    else
      var (v, keys) := ApiKeys.ValidateApiKey(db.apiKeys, req.apiKey.value, ids.now);
      match v
      case Rejected => (Store.ErrorResponse(401, "Invalid API key"), db)
      case RateLimited(_) => (Store.ErrorResponse(429, "Rate limit exceeded"), db)
      case Accepted(key) =>
        var db1 := db.(apiKeys := keys);
        match req.form
        case None => (Store.ErrorResponse(400, "Invalid form data"), db1)
        case Some(form) =>
          match Store.FormGet(form, "file")
          case Absent => (Store.ErrorResponse(400, "No file provided"), db1)
          case Text(t) =>
            if t == "" then (Store.ErrorResponse(400, "No file provided"), db1)
            else (Store.ErrorResponse(500, Store.NOT_A_FILE), db1)
          case Blob(f) => Create(db1, key, f, ids)
  }

  /** The accepted upload: the document under the key's organization, its
      audit event and its PROCESS_DOCUMENT job. */
  function Create(db: Store.Db, key: ApiKeys.ApiKey, f: Store.File, ids: Ids): (r: (Store.Response, Store.Db))
    ensures r.0.status == 200 && Field(r.0.body, "id") == Str(ids.documentId) && Field(r.0.body, "status") == Str("PENDING")
    ensures r.1 == db.(documents := r.1.documents, audit := r.1.audit, jobs := r.1.jobs)
    ensures r.1.documents == db.documents + [Store.Document(ids.documentId, DocumentName(key.kind, f.name), f.name, Some(f.bytes),
                                                             key.orgId, None, Store.DocPending, Store.DEFAULT_VERSION, None)]
    ensures r.1.audit == db.audit + [Store.AuditEvent(EXTERNAL_UPLOADED, Some(ids.documentId), None, Some("ApiKey " + key.id))]
    ensures r.1.jobs == Queue.Enqueue(db.jobs, ids.jobId, Queue.ProcessDocument,
                                      Store.ProcessPayload(ids.documentId, NodePath.BareExtension(f.name)), ids.now)
  {
    var doc := Store.Document(ids.documentId, DocumentName(key.kind, f.name), f.name, Some(f.bytes),
                              key.orgId, None, Store.DocPending, Store.DEFAULT_VERSION, None);
    var event := Store.AuditEvent(EXTERNAL_UPLOADED, Some(doc.id), None, Some("ApiKey " + key.id));
    var ext := NodePath.BareExtension(f.name);
    var jobs := Queue.Enqueue(db.jobs, ids.jobId, Queue.ProcessDocument, Store.ProcessPayload(doc.id, ext), ids.now);
    var body := Obj([("id", Str(doc.id)), ("status", Str("PENDING"))]);
    FieldAt(body.fields, "id", 0);
    FieldAt(body.fields, "status", 1);
    (Store.Response(200, body), db.(documents := db.documents + [doc], audit := db.audit + [event], jobs := jobs))
  }

  /** Every request that gets past the key check counts against the key's
      window, even when its form is then rejected; a rejected or limited
      request leaves the key store as it was. */
  lemma KeyUseIsCountedBeforeTheForm(db: Store.Db, req: Request, ids: Ids)
    requires req.apiKey.Some? && req.apiKey.value != ""
    ensures var after := Post(db, req, ids).1;
      var i := ApiKeys.FindKey(db.apiKeys, req.apiKey.value);
      && |after.apiKeys| == |db.apiKeys|
      && (Post(db, req, ids).0.status in {401, 429} ==> after.apiKeys == db.apiKeys)
      && (Post(db, req, ids).0.status !in {401, 429} ==>
            i.Some? && after.apiKeys[i.value].usageCount == db.apiKeys[i.value].usageCount + 1)
  {
    var (v, keys) := ApiKeys.ValidateApiKey(db.apiKeys, req.apiKey.value, ids.now);
    if v.Accepted? {
      var i := ApiKeys.FindKey(db.apiKeys, req.apiKey.value).value;
      assert keys[i] == v.key;
    }
  }
}

=== FILE: js.dfy ===
/** JavaScript values as the TypeScript sources see them: JSON payloads,
    request bodies and handler results, plus the truthiness, `??` and
    `String(x)` conversions the code applies to them. Numbers are integers
    only; floating point is not part of this model. */
module Js {
  import Text

  datatype Option<+T> = None | Some(value: T)

  datatype Result<+R, +E> = Success(value: R) | Failure(error: E)

  /** One byte of a Node `Buffer`. */
  newtype byte = b: int | 0 <= b < 256

  /** A JavaScript value: `undefined`, JSON data, or an object whose fields
      are listed in enumeration order. */
  datatype Value =
    | Undefined
    | Null
    | Bool(b: bool)
    | Num(n: int)
    | Str(s: string)
    | Arr(items: seq<Value>)
    | Obj(fields: seq<(string, Value)>)

  /** Something thrown: an `Error` instance (with its message) or any other value. */
  datatype Thrown = Error(message: string) | Raw(value: Value)

  predicate Nullish(v: Value) {
    v.Undefined? || v.Null?
  }

  /** JavaScript truthiness: `undefined`, `null`, `false`, `0` and `""` are falsy. */
  predicate Truthy(v: Value) {
    match v
    case Undefined => false
    case Null => false
    case Bool(b) => b
    case Num(n) => n != 0
    case Str(s) => s != ""
    case Arr(_) => true
    case Obj(_) => true
  }

  /** `v ?? fallback` */
  function Coalesce(v: Value, fallback: Value): (r: Value)
    ensures Nullish(v) ==> r == fallback
    ensures !Nullish(v) ==> r == v
  {
    if Nullish(v) then fallback else v
  }

  /** The empty object `{}`. */
  const EmptyObject: Value := Obj([])

  /** Property read `v.name`: the first field with that name of an object,
      `undefined` for a missing field or a non-object. */
  function Field(v: Value, name: string): (r: Value)
    ensures !v.Obj? ==> r == Undefined
    ensures v.Obj? && r != Undefined ==> exists i :: 0 <= i < |v.fields| && v.fields[i] == (name, r)
    decreases if v.Obj? then |v.fields| else 0
  {
    if !v.Obj? || |v.fields| == 0 then Undefined
    else if v.fields[0].0 == name then v.fields[0].1
    else
      var rest := Field(Obj(v.fields[1..]), name);
      assert rest != Undefined ==> exists i :: 0 <= i < |v.fields[1..]| && v.fields[1..][i] == (name, rest);
      rest
  }

  /** Reading an object's field finds the first field with that name. */
  lemma {:induction false} FieldAt(fields: seq<(string, Value)>, name: string, i: nat)
    requires i < |fields| && fields[i].0 == name
    requires forall j :: 0 <= j < i ==> fields[j].0 != name
    ensures Field(Obj(fields), name) == fields[i].1
    decreases i
  {
    if i > 0 {
      FieldAt(fields[1..], name, i - 1);
    }
  }

  /** `String(v)` for the values this model carries. Numbers are unbounded
      integers written in plain decimal, with no exponent form. */
  function ToJsString(v: Value): string {
    match v
    case Undefined => "undefined"
    case Null => "null"
    case Bool(b) => if b then "true" else "false"
    case Num(n) => Text.IntToString(n)
    case Str(s) => s
    case Arr(items) => ArrayToString(items)
    case Obj(_) => "[object Object]"
  }

  /** `Array.prototype.toString`: the elements joined by ",", with `null`
      and `undefined` elements written as the empty string. */
  function ArrayToString(items: seq<Value>): string
    decreases items, 1
  {
    if |items| == 0 then ""
    else
      var head := if Nullish(items[0]) then "" else ToJsString(items[0]);
      if |items| == 1 then head else head + "," + ArrayToString(items[1..])
  }

  /** The message recorded for a caught value:
      `error instanceof Error ? error.message : String(error)`. */
  function ErrorMessage(e: Thrown): (r: string)
    ensures e.Error? ==> r == e.message
    ensures e.Raw? && e.value.Str? ==> r == e.value.s
  {
    match e
    case Error(m) => m
    case Raw(v) => ToJsString(v)
  }

  /** A one-field object `{name: v}`. */
  function Single(name: string, v: Value): (r: Value)
    ensures Field(r, name) == v
  {
    Obj([(name, v)])
  }
}

=== FILE: license_route.dfy ===
/** The `POST` handler of `src/app/api/admin/license/route.ts`: an
    administrator uploads a license file for the word processing engine,
    the spreadsheet engine, or both ("total"). Loading the license
    afterwards only logs failures, so it has no effect here. */
module LicenseRoute {
  import opened Js
  import NodePath
  import Store

  const LICENSE_UPDATED: string := "LICENSE_UPDATED"
  const WORDS_LICENSE: string := "Aspose.Words.lic"
  const CELLS_LICENSE: string := "Aspose.Cells.lic"

  /** `path.join(process.cwd(), "licenses")` */
  function LicensesDir(cwd: string): string {
    NodePath.Join(cwd, "licenses")
  }

  /** The license files a type tag writes; `None` for an invalid tag. */
  function LicenseFiles(licenseType: string): (r: Option<set<string>>)
    ensures r.Some? <==> licenseType in {"total", "words", "cells"}
    ensures r.Some? ==> (WORDS_LICENSE in r.value <==> licenseType != "cells")
    ensures r.Some? ==> (CELLS_LICENSE in r.value <==> licenseType != "words")
    ensures r.Some? ==> r.value <= {WORDS_LICENSE, CELLS_LICENSE}
  {
    if licenseType == "total" then Some({WORDS_LICENSE, CELLS_LICENSE})
    else if licenseType == "words" then Some({WORDS_LICENSE})
    else if licenseType == "cells" then Some({CELLS_LICENSE})
    else None
  }

  /** Both `file` and `type` are truthy. */
  predicate BothGiven(f: Store.Form) {
    Store.FieldTruthy(Store.FormGet(f, "file")) && Store.FieldTruthy(Store.FormGet(f, "type"))
  }

  predicate MayUpload(session: Option<Store.Session>) {
    session.Some? && Store.IsAdmin(session.value) && Store.HasOrg(session.value)
  }

  /** `after` is `before` with every named file in `dir` set to `bytes`. */
  ghost predicate WroteExactly(before: Store.FileSystem, after: Store.FileSystem, dir: string, names: set<string>, bytes: seq<byte>) {
    && (forall p :: p in after <==> p in before || exists n :: n in names && p == NodePath.Join(dir, n))
    && (forall n :: n in names ==> NodePath.Join(dir, n) in after && after[NodePath.Join(dir, n)] == bytes)
    && (forall p :: p in before && (forall n :: n in names ==> p != NodePath.Join(dir, n)) ==> after[p] == before[p])
  }

  /** The writes for a valid type tag: the license bytes copied into each
      of its files in `dir`; `None` for an invalid tag, with nothing written. */
  function Install(fs: Store.FileSystem, dir: string, licenseType: string, bytes: seq<byte>): (r: Option<Store.FileSystem>)
    ensures r.Some? <==> LicenseFiles(licenseType).Some?
    ensures r.Some? ==> WroteExactly(fs, r.value, dir, LicenseFiles(licenseType).value, bytes)
  {
    var wordsPath := NodePath.Join(dir, WORDS_LICENSE);
    var cellsPath := NodePath.Join(dir, CELLS_LICENSE);
    assert wordsPath != cellsPath by {
      assert wordsPath[|dir| + 8] != cellsPath[|dir| + 8];
    }
    if licenseType == "total" then Some(fs[wordsPath := bytes][cellsPath := bytes])
    else if licenseType == "words" then Some(fs[wordsPath := bytes])
    else if licenseType == "cells" then Some(fs[cellsPath := bytes])
    else None
  }

  /** Installing a "total" license writes the same files as installing the
      "words" license and then the "cells" one. */
  lemma TotalIsWordsThenCells(fs: Store.FileSystem, dir: string, bytes: seq<byte>)
    ensures Install(fs, dir, "total", bytes) == Install(Install(fs, dir, "words", bytes).value, dir, "cells", bytes)
  {
    assert "total" != "words" && "total" != "cells" && "words" != "cells";
  }

  /** `POST` with the parsed form (or what parsing threw, which the route
      does not catch): the response, the database and the file system. */
  function Post(db: Store.Db, fs: Store.FileSystem, session: Option<Store.Session>, form: Result<Store.Form, Thrown>, cwd: string)
    : (r: (Store.Response, Store.Db, Store.FileSystem))
    ensures !MayUpload(session) ==> r == (Store.ErrorResponse(403, "Forbidden"), db, fs)
    ensures MayUpload(session) && form.Success? && !BothGiven(form.value) ==>
      r == (Store.ErrorResponse(400, "Missing file or type"), db, fs)
    ensures r.0.status != 200 ==> r.1 == db && r.2 == fs
    ensures r.1.users == db.users && r.1.orgs == db.orgs && r.1.documents == db.documents
      && r.1.jobs == db.jobs && r.1.apiKeys == db.apiKeys
    ensures r.0.status == 200 <==>
      && MayUpload(session) && form.Success?
      && Store.FormGet(form.value, "file").Blob?
      && Store.FormGet(form.value, "type").Text?
      && LicenseFiles(Store.FormGet(form.value, "type").text).Some?
    ensures r.0.status == 200 ==>
      var t := Store.FormGet(form.value, "type").text;
      && WroteExactly(fs, r.2, LicensesDir(cwd), LicenseFiles(t).value, Store.FormGet(form.value, "file").file.bytes)
      && r.1.audit == db.audit + [Store.AuditEvent(LICENSE_UPDATED, None, Some(session.value.userId), Some("Updated " + t + " license"))]
      && Field(r.0.body, "success") == Bool(true)
  {
    if !MayUpload(session) then (Store.ErrorResponse(403, "Forbidden"), db, fs)
    else match form
      case Failure(_) => (Store.UNHANDLED, db, fs)
      case Success(f) =>
        var file := Store.FormGet(f, "file");
        var licenseType := Store.FormGet(f, "type");
        if !Store.FieldTruthy(file) || !Store.FieldTruthy(licenseType) then (Store.ErrorResponse(400, "Missing file or type"), db, fs)
        else if file.Text? then (Store.UNHANDLED, db, fs)
        else if !licenseType.Text? then (Store.ErrorResponse(400, "Invalid license type"), db, fs)
        else match Install(fs, LicensesDir(cwd), licenseType.text, file.file.bytes)
          case None => (Store.ErrorResponse(400, "Invalid license type"), db, fs)
          case Some(after) =>
            var event := Store.AuditEvent(LICENSE_UPDATED, None, Some(session.value.userId),
                                          Some("Updated " + licenseType.text + " license"));
            (Store.Response(200, Single("success", Bool(true))), db.(audit := db.audit + [event]), after)
  }
}

=== FILE: middleware.dfy ===
/** `src/middleware.ts`: the edge middleware in front of every API route.
    It adds three security headers to responses that pass through, and turns
    away `/api/external` requests that carry no API key. */
module Middleware {
  import opened Js
  import Text
  import Store

  /** Response headers by name. */
  type Headers = map<string, string>

  /** The headers every pass-through response carries. */
  const SECURITY_HEADERS: Headers := map[
    "X-Content-Type-Options" := "nosniff",
    "X-Frame-Options" := "SAMEORIGIN",
    "X-XSS-Protection" := "1; mode=block"]

  const EXTERNAL_PREFIX: string := "/api/external"

  /** What happens to a request: the middleware does not run for its path,
      it continues to the route with extra headers, or it is answered here. */
  datatype Outcome = NotMatched | Next(headers: Headers) | Answered(response: Store.Response)

  /** The matcher "/api/:path*": "/api" itself or any path below it. */
  predicate Matched(path: string) {
    path == "/api" || Text.StartsWith(path, "/api/")
  }

  /** The request is for an external route and has no usable key. */
  predicate MissingKey(path: string, apiKey: Option<string>) {
    Text.StartsWith(path, EXTERNAL_PREFIX) && (apiKey.None? || apiKey.value == "")
  }

  /** `middleware(request)` for a request path and its `x-api-key` header.
      A key that is present is passed on without being checked. */
  function Middleware(path: string, apiKey: Option<string>): (r: Outcome)
    ensures !r.NotMatched?
    ensures r.Answered? <==> MissingKey(path, apiKey)
    ensures r.Answered? ==> r.response == Store.ErrorResponse(401, "Missing API key")
    ensures r.Next? ==>
      && r.headers.Keys == SECURITY_HEADERS.Keys
      && r.headers["X-Content-Type-Options"] == "nosniff"
      && r.headers["X-Frame-Options"] == "SAMEORIGIN"
      && r.headers["X-XSS-Protection"] == "1; mode=block"
  {
    var headers := map[];
    var headers := headers["X-Content-Type-Options" := "nosniff"];
    var headers := headers["X-Frame-Options" := "SAMEORIGIN"];
    var headers := headers["X-XSS-Protection" := "1; mode=block"];
    if Text.StartsWith(path, EXTERNAL_PREFIX) && (apiKey.None? || apiKey.value == "") then
      Answered(Store.ErrorResponse(401, "Missing API key"))
    else
      Next(headers)
  }

  /** The middleware as the framework applies it: only on matched paths. */
  function Apply(path: string, apiKey: Option<string>): (r: Outcome)
    ensures r.NotMatched? <==> !Matched(path)
    ensures r.Answered? <==> MissingKey(path, apiKey)
    ensures r.Next? ==> r.headers == SECURITY_HEADERS
  {
    if Matched(path) then Middleware(path, apiKey) else NotMatched
  }

  /** Every external path is under the matcher, so the key gate is never
      skipped. */
  lemma ExternalPathsAreMatched(path: string)
    requires Text.StartsWith(path, EXTERNAL_PREFIX)
    ensures Matched(path)
  {
    assert path[..5] == path[..|EXTERNAL_PREFIX|][..5];
  }

  /** Only the presence of a key is checked: any two non-empty keys lead
      to the same outcome, and outside the external routes the key does not
      matter at all. */
  lemma KeyIsNotValidated(path: string, k1: Option<string>, k2: Option<string>)
    requires (k1.Some? && k1.value != "" && k2.Some? && k2.value != "") || !Text.StartsWith(path, EXTERNAL_PREFIX)
    ensures Apply(path, k1) == Apply(path, k2)
  {
  }
}

=== FILE: node_path.dfy ===
/** The two pieces of Node's `path` module (POSIX flavour) the routes use:
    `path.extname` and a `path.join` of already-normal segments. */
module NodePath {
  import Text
  import Js

  /** Index just past the last character that is not '/', or 0 when there is none. */
  function EndOfLastSegment(p: string): (e: nat)
    ensures e <= |p|
    ensures forall k :: e <= k < |p| ==> p[k] == '/'
    ensures e > 0 ==> p[e - 1] != '/'
  {
    if |p| == 0 || p[|p| - 1] != '/' then |p| else EndOfLastSegment(p[..|p| - 1])
  }

  /** Index of the first character of the segment that ends at `end`. */
  function StartOfSegment(p: string, end: nat): (s: nat)
    requires end <= |p|
    ensures s <= end
    ensures forall k :: s <= k < end ==> p[k] != '/'
    ensures s > 0 ==> p[s - 1] == '/'
  {
    if end == 0 || p[end - 1] == '/' then end else StartOfSegment(p, end - 1)
  }

  /** Index of the last '.' in `p[lo..hi]`, if any. */
  function LastDot(p: string, lo: nat, hi: nat): (d: Js.Option<nat>)
    requires lo <= hi <= |p|
    ensures d.Some? ==> lo <= d.value < hi && p[d.value] == '.'
    ensures d.Some? ==> forall k :: d.value < k < hi ==> p[k] != '.'
    ensures d.None? ==> forall k :: lo <= k < hi ==> p[k] != '.'
    decreases hi - lo
  {
    if hi == lo then Js.None
    else if p[hi - 1] == '.' then Js.Some(hi - 1)
    else LastDot(p, lo, hi - 1)
  }

  /** `path.extname(p)`: within the last segment (trailing slashes ignored),
      the text from the last '.' to the end; empty when the segment has no
      '.', when its only dots lead it, or when it is exactly "..". */
  function Extname(p: string): (r: string)
    ensures r == "" || (r[0] == '.' && forall k :: 1 <= k < |r| ==> r[k] != '.' && r[k] != '/')
  {
    var end := EndOfLastSegment(p);
    var start := StartOfSegment(p, end);
    match LastDot(p, start, end)
    case None => ""
    case Some(dot) =>
      if dot == start then ""
      else if p[start] == '.' && dot == end - 1 && dot == start + 1 then ""
      else p[dot..end]
  }

  /** For a plain file name (no '/'), the extension is the suffix from the
      last '.', and it is empty exactly when there is no '.' after the first
      character, or the name is "..". */
  lemma ExtnameOfName(name: string)
    requires forall k :: 0 <= k < |name| ==> name[k] != '/'
    ensures var r := Extname(name);
      && (r != "" ==> exists d :: 0 < d < |name| && r == name[d..] && name[d] == '.')
      && (r == "" <==> name == ".." || forall k :: 0 < k < |name| ==> name[k] != '.')
  {
    var end := EndOfLastSegment(name);
    assert end == |name|;
    var start := StartOfSegment(name, end);
    assert start == 0;
    match LastDot(name, start, end)
    case None =>
    case Some(dot) =>
      if dot != start {
        assert 0 < dot < |name| && name[dot] == '.';
      }
  }

  /** The extension without its dot, lower-cased:
      `path.extname(name).toLowerCase().replace(".", "")`. */
  function BareExtension(name: string): (r: string)
    ensures Extname(name) == "" ==> r == ""
    ensures Extname(name) != "" ==> "." + r == Text.ToLower(Extname(name))
    ensures forall k :: 0 <= k < |r| ==> r[k] != '.' && r[k] != '/'
    ensures forall k :: 0 <= k < |r| ==> !('A' <= r[k] <= 'Z')
  {
    var e := Text.ToLower(Extname(name));
    if |e| > 0 then e[1..] else e
  }

  /** `path.join(dir, name)` for a directory without a trailing '/' and a
      name that needs no normalisation. */
  function Join(dir: string, name: string): string {
    dir + "/" + name
  }
}

=== FILE: organization_route.dfy ===
/** The `PATCH` handler of `src/app/api/organization/route.ts`: an
    administrator renames the organization. */
module OrganizationRoute {
  import opened Js
  import Text
  import Store

  const ORGANIZATION_UPDATED: string := "ORGANIZATION_UPDATED"

  /** The name the body carries, when it is a string with something besides
      whitespace (`!body || typeof body.name !== "string" || !body.name.trim()`
      rejects everything else). */
  function ValidName(body: Value): (r: Option<string>)
    ensures r.Some? <==> Truthy(body) && Field(body, "name").Str? && Text.Trim(Field(body, "name").s) != ""
    ensures r.Some? ==> r.value == Text.Trim(Field(body, "name").s)
  {
    if !Truthy(body) then None
    else match Field(body, "name")
      case Str(n) => if Text.Trim(n) != "" then Some(Text.Trim(n)) else None
      case _ => None
  }

  predicate MayRename(session: Option<Store.Session>) {
    session.Some? && Store.HasOrg(session.value) && Store.IsAdmin(session.value)
  }

  /** `PATCH` with the JSON body (`None` when it did not parse, which the
      route treats as `null`). Renaming an organization that no longer
      exists makes the update throw. */
  function Patch(db: Store.Db, session: Option<Store.Session>, body: Option<Value>): (r: (Store.Response, Store.Db))
    ensures session.None? || !Store.HasOrg(session.value) ==> r == (Store.ErrorResponse(401, "Unauthorized"), db)
    ensures session.Some? && Store.HasOrg(session.value) && !Store.IsAdmin(session.value) ==>
      r == (Store.ErrorResponse(403, "Forbidden"), db)
    ensures MayRename(session) && ValidName(if body.None? then Null else body.value).None? ==>
      r == (Store.ErrorResponse(400, "Invalid name"), db)
    ensures r.0.status != 200 ==> r.1 == db
    ensures r.1.users == db.users && r.1.documents == db.documents && r.1.jobs == db.jobs && r.1.apiKeys == db.apiKeys
    ensures r.0.status == 200 ==>
      var s := session.value;
      var name := ValidName(body.value).value;
      && s.orgId.value in db.orgs
      && r.1.orgs == db.orgs[s.orgId.value := name]
      && name == Text.Trim(Field(body.value, "name").s)
      && r.1.audit == db.audit + [Store.AuditEvent(ORGANIZATION_UPDATED, None, Some(s.userId),
                                                   Some("Updated name to \"" + name + "\""))]
      && Field(Field(r.0.body, "organization"), "name") == Str(name)
  {
    if session.None? || !Store.HasOrg(session.value) then (Store.ErrorResponse(401, "Unauthorized"), db)
    else
      var s := session.value;
      if !Store.IsAdmin(s) then (Store.ErrorResponse(403, "Forbidden"), db)
      else
        var b := if body.None? then Null else body.value;
        match ValidName(b)
        case None => (Store.ErrorResponse(400, "Invalid name"), db)
        case Some(name) =>
          var orgId := s.orgId.value;
          if orgId !in db.orgs then (Store.UNHANDLED, db)
          else
            var event := Store.AuditEvent(ORGANIZATION_UPDATED, None, Some(s.userId), Some("Updated name to \"" + name + "\""));
            var org := Obj([("id", Str(orgId)), ("name", Str(name))]);
            FieldAt(org.fields, "name", 1);
            (Store.Response(200, Single("organization", org)), db.(orgs := db.orgs[orgId := name], audit := db.audit + [event]))
  }

  /** The stored name never starts or ends with whitespace, and renaming to
      the stored name again stores the same name. */
  lemma StoredNameIsTrimmed(db: Store.Db, session: Option<Store.Session>, body: Option<Value>)
    requires Patch(db, session, body).0.status == 200
    ensures var name := Patch(db, session, body).1.orgs[session.value.orgId.value];
      && name != ""
      && !Text.IsJsSpace(name[0]) && !Text.IsJsSpace(name[|name| - 1])
      && Text.Trim(name) == name
  {
    var name := Patch(db, session, body).1.orgs[session.value.orgId.value];
    Text.TrimSpec(Field(body.value, "name").s);
    Text.TrimIdempotent(name);
  }
}

=== FILE: queue.dfy ===
/** The job queue of `src/lib/queue.ts`: a store of jobs that move
    PENDING -> PROCESSING -> COMPLETED | FAILED. The claim statement
    (`UPDATE ... WHERE id = (SELECT ... FOR UPDATE SKIP LOCKED LIMIT 1)`) is
    one atomic step here. Job ids are supplied by the caller and stand for
    the database-generated identifiers. */
module Queue {
  import opened Js

  /** The two enum values, and any other string a raw SQL row may carry.
      An `OtherType` name is meant to differ from both enum names (see
      `WellFormedType`); `TypeOfName` reads a stored name that way. */
  datatype JobType = ProcessDocument | GenerateTemplate | OtherType(name: string)

  /** The job type as stored and compared in the sources. */
  function TypeName(t: JobType): string {
    match t
    case ProcessDocument => "PROCESS_DOCUMENT"
    case GenerateTemplate => "GENERATE_TEMPLATE"
    case OtherType(n) => n
  }

  /** `OtherType` never spells one of the enum names. */
  predicate WellFormedType(t: JobType) {
    t.OtherType? ==> t.name != "PROCESS_DOCUMENT" && t.name != "GENERATE_TEMPLATE"
  }

  /** The job type a stored `type` column holds. */
  function TypeOfName(name: string): (t: JobType)
    ensures TypeName(t) == name && WellFormedType(t)
  {
    if name == "PROCESS_DOCUMENT" then ProcessDocument
    else if name == "GENERATE_TEMPLATE" then GenerateTemplate
    else OtherType(name)
  }

  /** Well-formed types are stored under distinct names, so reading the
      stored name back gives the type. */
  lemma TypeNameRoundTrip(t: JobType)
    requires WellFormedType(t)
    ensures TypeOfName(TypeName(t)) == t
  {
  }

  datatype JobStatus = Pending | Processing | Completed | Failed

  datatype Job = Job(
    id: string,
    kind: JobType,
    payload: Value,
    status: JobStatus,
    createdAt: int,
    result: Option<Value>,
    error: Option<string>,
    attempts: nat)

  /** The jobs in insertion order. */
  type JobStore = seq<Job>

  /** What the claim statement returns: `RETURNING id, type, payload`. */
  datatype Claimed = Claimed(id: string, kind: JobType, payload: Value)

  function ClaimedOf(j: Job): Claimed {
    Claimed(j.id, j.kind, j.payload)
  }

  /** What a handler does: return a value or throw. */
  datatype Outcome = Returned(value: Value) | Threw(thrown: Thrown)

  /** The value `processNextJob` resolves to when it claimed a job. */
  datatype QueueResult =
    | CompletedWith(job: Claimed, result: Value)
    | FailedWith(job: Claimed, error: Thrown)

  predicate IdsUnique(jobs: JobStore) {
    forall i, j :: 0 <= i < j < |jobs| ==> jobs[i].id != jobs[j].id
  }

  predicate HasId(jobs: JobStore, id: string) {
    exists i :: 0 <= i < |jobs| && jobs[i].id == id
  }

  function CountPending(jobs: JobStore): nat {
    if |jobs| == 0 then 0
    else CountPending(jobs[..|jobs| - 1]) + (if jobs[|jobs| - 1].status == Pending then 1 else 0)
  }

  predicate NoPending(jobs: JobStore) {
    forall i :: 0 <= i < |jobs| ==> jobs[i].status != Pending
  }

  /** `k` is a PENDING job with the smallest `createdAt` among PENDING jobs. */
  predicate IsOldestPending(jobs: JobStore, k: int) {
    && 0 <= k < |jobs|
    && jobs[k].status == Pending
    && forall i :: 0 <= i < |jobs| && jobs[i].status == Pending ==> jobs[k].createdAt <= jobs[i].createdAt
  }

  /** `enqueueJob(type, payload)`: appends one PENDING job with attempts 0
      and payload `payload ?? {}`. The `options` argument of the source is
      ignored there and is not a parameter here. */
  function Enqueue(jobs: JobStore, id: string, kind: JobType, payload: Value, now: int): (r: JobStore)
    ensures |r| == |jobs| + 1 && r[..|jobs|] == jobs
    ensures r[|jobs|].id == id && r[|jobs|].kind == kind && r[|jobs|].createdAt == now
    ensures r[|jobs|].status == Pending && r[|jobs|].attempts == 0
    ensures r[|jobs|].result.None? && r[|jobs|].error.None?
    ensures !Nullish(r[|jobs|].payload)
    ensures Nullish(payload) ==> r[|jobs|].payload == EmptyObject
    ensures !Nullish(payload) ==> r[|jobs|].payload == payload
  {
    jobs + [Job(id, kind, Coalesce(payload, EmptyObject), Pending, now, None, None, 0)]
  }

  /** The index of the job the claim statement picks. Among PENDING jobs
      with equal `createdAt` the earliest inserted one is taken, which is
      one of the orders the database may choose. */
  function OldestPending(jobs: JobStore): (r: Option<nat>)
    ensures r.None? <==> NoPending(jobs)
    ensures r.Some? ==> IsOldestPending(jobs, r.value)
  {
    if |jobs| == 0 then None
    else
      var init := jobs[..|jobs| - 1];
      var last := |jobs| - 1;
      var rest := OldestPending(init);
      assert forall i :: 0 <= i < last ==> jobs[i] == init[i];
      if jobs[last].status != Pending then rest
      else match rest
        case None => Some(last)
        case Some(k) => if jobs[k].createdAt <= jobs[last].createdAt then Some(k) else Some(last)
  }

  /** The claim: flip the oldest PENDING job to PROCESSING and return its
      index, or change nothing when no job is PENDING. */
  function Claim(jobs: JobStore): (r: (Option<nat>, JobStore))
    ensures r.0.None? <==> NoPending(jobs)
    ensures r.0.None? ==> r.1 == jobs
    ensures r.0.Some? ==> IsOldestPending(jobs, r.0.value)
    ensures r.0.Some? ==> r.1 == jobs[r.0.value := jobs[r.0.value].(status := Processing)]
  {
    match OldestPending(jobs)
    case None => (None, jobs)
    case Some(k) => (Some(k), jobs[k := jobs[k].(status := Processing)])
  }

  /** The terminal write after the handler: COMPLETED with `result ?? {}`,
      or FAILED with the thrown value's message. */
  function Finish(j: Job, o: Outcome): (r: Job)
    ensures o.Returned? ==> r.status == Completed && r.result == Some(Coalesce(o.value, EmptyObject))
    ensures o.Threw? ==> r.status == Failed && r.error == Some(ErrorMessage(o.thrown))
    ensures r.id == j.id && r.kind == j.kind && r.payload == j.payload
    ensures r.createdAt == j.createdAt && r.attempts == j.attempts
  {
    match o
    case Returned(v) => j.(status := Completed, result := Some(Coalesce(v, EmptyObject)))
    case Threw(e) => j.(status := Failed, error := Some(ErrorMessage(e)))
  }

  function ResultOf(c: Claimed, o: Outcome): (r: QueueResult)
    ensures r.job == c
    ensures o.Returned? <==> r.CompletedWith?
  {
    match o
    case Returned(v) => CompletedWith(c, v)
    case Threw(e) => FailedWith(c, e)
  }

  /** `processNextJob(handler)`: claim, run the handler on the claimed job
      (the handler may change the world `w` it is given), then write the
      terminal status. A handler failure is recorded and returned, never
      rethrown. */
  function ProcessNextJob<W>(jobs: JobStore, handler: (Claimed, W) -> (Outcome, W), w: W): (r: (Option<QueueResult>, JobStore, W))
    ensures r.0.None? <==> NoPending(jobs)
    ensures r.0.None? ==> r.1 == jobs && r.2 == w
    ensures r.0.Some? ==> OldestPending(jobs).Some?
    ensures r.0.Some? ==>
      var k := OldestPending(jobs).value;
      var o := handler(ClaimedOf(jobs[k]), w);
      && |r.1| == |jobs|
      && r.0.value == ResultOf(ClaimedOf(jobs[k]), o.0)
      && r.2 == o.1
      && (forall i :: 0 <= i < |jobs| && i != k ==> r.1[i] == jobs[i])
      && (r.0.value.CompletedWith? ==>
            r.1[k].status == Completed && r.1[k].result == Some(Coalesce(r.0.value.result, EmptyObject)))
      && (r.0.value.FailedWith? ==>
            r.1[k].status == Failed && r.1[k].error == Some(ErrorMessage(r.0.value.error)))
  {
    var (c, claimed) := Claim(jobs);
    match c
    case None => (None, jobs, w)
    case Some(k) =>
      var job := ClaimedOf(claimed[k]);
      var (o, w') := handler(job, w);
      (Some(ResultOf(job, o)), claimed[k := Finish(claimed[k], o)], w')
  }

  // ---- lifecycle invariants ---------------------------------------------

  /** The only status moves a job may make: stay, leave PENDING, or go from
      PROCESSING to a terminal status. */
  predicate MayBecome(s: JobStatus, t: JobStatus) {
    s == t || (s == Pending && t != Pending) || (s == Processing && t in {Completed, Failed})
  }

  /** `after` is `before` with some jobs moved forward in their lifecycle and
      every other field that identifies a job untouched. */
  predicate Advances(before: JobStore, after: JobStore) {
    && |after| == |before|
    && forall i :: 0 <= i < |before| ==>
      && after[i].id == before[i].id
      && after[i].kind == before[i].kind
      && after[i].payload == before[i].payload
      && after[i].createdAt == before[i].createdAt
      && after[i].attempts == before[i].attempts
      && MayBecome(before[i].status, after[i].status)
  }

  lemma AdvancesTransitive(a: JobStore, b: JobStore, c: JobStore)
    requires Advances(a, b) && Advances(b, c)
    ensures Advances(a, c)
  {
  }

  /** No step moves a job back to PENDING or changes its attempts. */
  lemma ProcessNextJobAdvances<W>(jobs: JobStore, handler: (Claimed, W) -> (Outcome, W), w: W)
    ensures Advances(jobs, ProcessNextJob(jobs, handler, w).1)
    ensures forall i :: 0 <= i < |jobs| && jobs[i].status != Pending ==>
      ProcessNextJob(jobs, handler, w).1[i].status != Pending
  {
  }

  /** A job that is not PENDING is never picked by a claim. */
  lemma ClaimOnlyPending(jobs: JobStore, k: nat)
    requires k < |jobs| && jobs[k].status != Pending
    ensures Claim(jobs).0 != Some(k)
  {
  }

  /** The job a claim returns is never returned by the next claim. */
  lemma ClaimedNotReclaimed(jobs: JobStore)
    requires Claim(jobs).0.Some?
    ensures Claim(Claim(jobs).1).0 != Claim(jobs).0
  {
    var (c, after) := Claim(jobs);
    ClaimOnlyPending(after, c.value);
  }

  lemma {:induction false} CountPendingUpdate(jobs: JobStore, k: nat, j: Job)
    requires k < |jobs|
    ensures CountPending(jobs[k := j]) + (if jobs[k].status == Pending then 1 else 0)
      == CountPending(jobs) + (if j.status == Pending then 1 else 0)
    decreases |jobs|
  {
    var u := jobs[k := j];
    if k < |jobs| - 1 {
      assert u[..|u| - 1] == jobs[..|jobs| - 1][k := j];
      CountPendingUpdate(jobs[..|jobs| - 1], k, j);
    } else {
      assert u[..|u| - 1] == jobs[..|jobs| - 1];
    }
  }

  lemma {:induction false} CountPendingZero(jobs: JobStore)
    ensures CountPending(jobs) == 0 <==> NoPending(jobs)
    decreases |jobs|
  {
    if |jobs| > 0 {
      var init := jobs[..|jobs| - 1];
      CountPendingZero(init);
      assert forall i :: 0 <= i < |init| ==> init[i] == jobs[i];
    }
  }

  /** A step that claims a job lowers the PENDING count by exactly one; a
      step with nothing to claim leaves it at zero. */
  lemma ProcessNextJobPendingCount<W>(jobs: JobStore, handler: (Claimed, W) -> (Outcome, W), w: W)
    ensures var r := ProcessNextJob(jobs, handler, w);
      if r.0.Some? then CountPending(r.1) == CountPending(jobs) - 1
      else CountPending(r.1) == CountPending(jobs) == 0
  {
    CountPendingZero(jobs);
    var (c, claimed) := Claim(jobs);
    if c.Some? {
      var k := c.value;
      CountPendingUpdate(jobs, k, jobs[k].(status := Processing));
      var job := ClaimedOf(claimed[k]);
      var (o, w') := handler(job, w);
      CountPendingUpdate(claimed, k, Finish(claimed[k], o));
    }
  }

  /** With exactly one PENDING job, a first claim returns it and a second
      returns nothing. */
  lemma TwoClaimsOnePending(jobs: JobStore, k: nat)
    requires k < |jobs| && jobs[k].status == Pending
    requires forall i :: 0 <= i < |jobs| && i != k ==> jobs[i].status != Pending
    ensures Claim(jobs).0 == Some(k)
    ensures Claim(Claim(jobs).1).0.None?
  {
  }

  /** Enqueue a job on an empty store, run it to completion, and the next
      step finds nothing to do. */
  lemma EnqueueRunDrain(id: string, payload: Value, now: int, v: Value)
    ensures var jobs := Enqueue([], id, ProcessDocument, payload, now);
      var handler := (c: Claimed, u: ()) => (Returned(v), u);
      var r := ProcessNextJob(jobs, handler, ());
      && r.0 == Some(CompletedWith(Claimed(id, ProcessDocument, jobs[0].payload), v))
      && r.1[0].status == Completed
      && ProcessNextJob(r.1, handler, ()).0.None?
  {
    var jobs := Enqueue([], id, ProcessDocument, payload, now);
    assert IsOldestPending(jobs, 0);
  }

  /** Enqueueing a fresh id keeps ids unique and adds one PENDING job. */
  lemma EnqueueFresh(jobs: JobStore, id: string, kind: JobType, payload: Value, now: int)
    requires IdsUnique(jobs) && !HasId(jobs, id)
    ensures IdsUnique(Enqueue(jobs, id, kind, payload, now))
    ensures CountPending(Enqueue(jobs, id, kind, payload, now)) == CountPending(jobs) + 1
  {
    var r := Enqueue(jobs, id, kind, payload, now);
    assert r[..|r| - 1] == jobs;
  }
}

=== FILE: scanner.dfy ===
/** `scanDocumentFields` of `src/lib/aspose.ts` over the document's text:
    the global regular expressions `/<<\[(.*?)\]>>/g` and `/\{\{(.*?)\}\}/g`
    run with JavaScript semantics (`.` matches anything but a line
    terminator; `*?` takes the shortest capture; each search resumes where
    the last match ended), each non-empty capture trimmed and collected in
    an insertion-ordered set. */
module FieldScanner {
  import opened Js
  import opened Text

  const BRACKET_OPEN: string := "<<["
  const BRACKET_CLOSE: string := "]>>"
  const BRACE_OPEN: string := "{{"
  const BRACE_CLOSE: string := "}}"

  /** The characters a regular-expression `.` does not match. */
  predicate IsLineTerminator(c: char) {
    c == '\n' || c == '\r' || c == '\U{2028}' || c == '\U{2029}'
  }

  predicate NoLineTerminator(text: string, lo: int, hi: int)
    requires 0 <= lo <= hi <= |text|
  {
    forall k :: lo <= k < hi ==> !IsLineTerminator(text[k])
  }

  /** Where a lazy `(.*?)` that starts at `j` stops: the first index at which
      `close` matches, provided no line terminator comes before it. */
  function LazyEnd(text: string, j: nat, close: string): (r: Option<nat>)
    requires j <= |text| && |close| > 0
    ensures r.Some? ==> j <= r.value && OccursAt(text, close, r.value) && NoLineTerminator(text, j, r.value)
    ensures r.Some? ==> forall k :: j <= k < r.value ==> !OccursAt(text, close, k)
    decreases |text| - j
  {
    if OccursAt(text, close, j) then Some(j)
    else if j < |text| && !IsLineTerminator(text[j]) then LazyEnd(text, j + 1, close)
    else None
  }

  /** If `close` occurs at `e` with no line terminator between `j` and `e`,
      the lazy capture from `j` succeeds. */
  lemma {:induction false} LazyEndFinds(text: string, j: nat, close: string, e: nat)
    requires j <= e && |close| > 0 && OccursAt(text, close, e) && NoLineTerminator(text, j, e)
    ensures LazyEnd(text, j, close).Some?
    decreases e - j
  {
    if !OccursAt(text, close, j) {
      assert j < e;
      LazyEndFinds(text, j + 1, close, e);
    }
  }

  datatype Match = Match(capture: string, end: nat)

  /** The regular expression anchored at index `i`. */
  function MatchAt(text: string, i: nat, open: string, close: string): (r: Option<Match>)
    requires |open| > 0 && |close| > 0
    ensures r.Some? ==> i < r.value.end <= |text|
    ensures r.Some? ==> OccursAt(text, open + r.value.capture + close, i)
  {
    if !OccursAt(text, open, i) then None
    else match LazyEnd(text, i + |open|, close)
      case None => None
      case Some(e) =>
        var c := text[i + |open|..e];
        assert text[i..e + |close|] == open + c + close by {
          assert text[i..e + |close|] == text[i..i + |open|] + text[i + |open|..e] + text[e..e + |close|];
        }
        Some(Match(c, e + |close|))
  }

  /** The tag `t` occurs at or after index `i`. */
  predicate OccursFrom(text: string, t: string, i: int) {
    exists p :: i <= p <= |text| && OccursAt(text, t, p)
  }

  /** The captures `exec` returns, one after another, starting the search at `i`. */
  function ScanFrom(text: string, i: nat, open: string, close: string): (caps: seq<string>)
    requires |open| > 0 && |close| > 0
    ensures forall k :: 0 <= k < |caps| ==> OccursFrom(text, open + caps[k] + close, i)
    decreases |text| - i
  {
    if i >= |text| then []
    else match MatchAt(text, i, open, close)
      case Some(m) =>
        var rest := ScanFrom(text, m.end, open, close);
        assert forall k :: 1 <= k < |[m.capture] + rest| ==> ([m.capture] + rest)[k] == rest[k - 1];
        [m.capture] + rest
      case None =>
        var rest := ScanFrom(text, i + 1, open, close);
        assert forall k :: 0 <= k < |rest| ==> OccursFrom(text, open + rest[k] + close, i) by {
          forall k | 0 <= k < |rest|
            ensures OccursFrom(text, open + rest[k] + close, i)
          {
            var p :| i + 1 <= p <= |text| && OccursAt(text, open + rest[k] + close, p);
            assert i <= p <= |text|;
          }
        }
        rest
  }

  /** A capture never holds a line terminator, nor the closing delimiter. */
  lemma {:induction false} ScanCapturesAreShortest(text: string, i: nat, open: string, close: string)
    requires |open| > 0 && |close| > 0
    ensures forall k :: 0 <= k < |ScanFrom(text, i, open, close)| ==>
      var c := ScanFrom(text, i, open, close)[k];
      (forall m :: 0 <= m < |c| ==> !IsLineTerminator(c[m])) && !Contains(c, close)
    decreases |text| - i
  {
    if i < |text| {
      match MatchAt(text, i, open, close)
      case Some(m) =>
        var s := i + |open|;
        var e := LazyEnd(text, s, close).value;
        assert m.capture == text[s..e];
        CaptureHasNoClose(text, s, e, close);
        ScanCapturesAreShortest(text, m.end, open, close);
      case None =>
        ScanCapturesAreShortest(text, i + 1, open, close);
    }
  }

  lemma SliceOfSlice(s: string, a: int, b: int, i: int, j: int)
    requires 0 <= a <= b <= |s| && 0 <= i <= j <= b - a
    ensures s[a..b][i..j] == s[a + i..a + j]
  {
    forall m | 0 <= m < j - i
      ensures s[a..b][i..j][m] == s[a + i..a + j][m]
    {
    }
  }

  lemma CaptureHasNoClose(text: string, s: nat, e: nat, close: string)
    requires s <= e <= |text| && |close| > 0
    requires forall k :: s <= k < e ==> !OccursAt(text, close, k)
    ensures !Contains(text[s..e], close)
  {
    var c := text[s..e];
    if Contains(c, close) {
      var k :| 0 <= k <= |c| && OccursAt(c, close, k);
      assert k + |close| <= |c|;
      SliceOfSlice(text, s, e, k, k + |close|);
      assert c[k..k + |close|] == text[s + k..s + k + |close|];
      assert OccursAt(text, close, s + k);
      assert false;
    }
  }

  /** Whenever the text holds `open`, a line-terminator-free stretch and
      `close` at or after the search start, the scan finds something. */
  lemma {:induction false} ScanFindsDelimited(text: string, i: nat, open: string, close: string, c: string, p: nat)
    requires |open| > 0 && |close| > 0
    requires i <= p && OccursAt(text, open + c + close, p)
    requires forall m :: 0 <= m < |c| ==> !IsLineTerminator(c[m])
    ensures |ScanFrom(text, i, open, close)| > 0
    decreases p - i
  {
    if i < p {
      if MatchAt(text, i, open, close).None? {
        ScanFindsDelimited(text, i + 1, open, close, c, p);
      }
    } else {
      MatchAtDelimited(text, p, open, close, c);
    }
  }

  /** A tag occurring at `p` puts its delimiters and its inside at known
      positions of the text. */
  lemma TagParts(text: string, p: nat, open: string, close: string, c: string)
    requires OccursAt(text, open + c + close, p)
    ensures OccursAt(text, open, p)
    ensures OccursAt(text, close, p + |open| + |c|)
    ensures text[p + |open|..p + |open| + |c|] == c
  {
    var t := open + c + close;
    assert text[p..p + |t|] == t;
    SliceOfSlice(text, p, p + |t|, 0, |open|);
    SliceOfSlice(text, p, p + |t|, |open|, |open| + |c|);
    SliceOfSlice(text, p, p + |t|, |open| + |c|, |t|);
    assert t[..|open|] == open;
    assert t[|open|..|open| + |c|] == c;
    assert t[|open| + |c|..|t|] == close;
  }

  /** The inside of a tag at `p` sits in the text right after `open`, so a
      line-terminator-free inside leaves that stretch of the text free too. */
  lemma InsideHasNoLineTerminator(text: string, p: nat, open: string, close: string, c: string)
    requires OccursAt(text, open + c + close, p)
    requires forall m :: 0 <= m < |c| ==> !IsLineTerminator(c[m])
    ensures p + |open| + |c| + |close| <= |text|
    ensures NoLineTerminator(text, p + |open|, p + |open| + |c|)
  {
    var s := p + |open|;
    var e := s + |c|;
    TagParts(text, p, open, close, c);
    forall k | s <= k < e
      ensures !IsLineTerminator(text[k])
    {
      assert text[k] == text[s..e][k - s];
    }
  }

  /** A tag whose inside has no line terminator matches where it starts. */
  lemma MatchAtDelimited(text: string, p: nat, open: string, close: string, c: string)
    requires |open| > 0 && |close| > 0
    requires OccursAt(text, open + c + close, p)
    requires forall m :: 0 <= m < |c| ==> !IsLineTerminator(c[m])
    ensures p < |text| && MatchAt(text, p, open, close).Some?
  {
    TagParts(text, p, open, close, c);
    InsideHasNoLineTerminator(text, p, open, close, c);
    LazyEndFinds(text, p + |open|, close, p + |open| + |c|);
  }

  /** The lazy capture from `j` stops exactly at the first close delimiter. */
  lemma LazyEndExact(text: string, j: nat, close: string, e: nat)
    requires j <= e && |close| > 0 && OccursAt(text, close, e) && NoLineTerminator(text, j, e)
    requires forall k :: j <= k < e ==> !OccursAt(text, close, k)
    ensures LazyEnd(text, j, close) == Some(e)
  {
    LazyEndFinds(text, j, close, e);
  }

  /** No match that starts in `[i, p)` runs past `p`. */
  predicate NoMatchAcross(text: string, i: nat, p: nat, open: string, close: string)
    requires |open| > 0 && |close| > 0
  {
    forall q: nat :: i <= q < p && MatchAt(text, q, open, close).Some? ==> MatchAt(text, q, open, close).value.end <= p
  }

  /** A search from `i` arrives at `p` unless an earlier match runs past it,
      so the match at `p` is among the captures. */
  lemma {:induction false} ScanReaches(text: string, i: nat, p: nat, open: string, close: string)
    requires |open| > 0 && |close| > 0 && i <= p
    requires NoMatchAcross(text, i, p, open, close)
    requires MatchAt(text, p, open, close).Some?
    ensures MatchAt(text, p, open, close).value.capture in ScanFrom(text, i, open, close)
    decreases p - i
  {
    if i < p {
      match MatchAt(text, i, open, close)
      case None =>
        ScanReaches(text, i + 1, p, open, close);
      case Some(m) =>
        ScanReaches(text, m.end, p, open, close);
    }
  }

  // ---- the insertion-ordered set ---------------------------------------

  predicate NoDuplicates(xs: seq<string>) {
    forall i, j :: 0 <= i < j < |xs| ==> xs[i] != xs[j]
  }

  /** `a` occurs in `xs` before the first occurrence of `b`. */
  predicate FirstSeenBefore(xs: seq<string>, a: string, b: string) {
    forall k :: 0 <= k < |xs| && xs[k] == b ==> a in xs[..k]
  }

  lemma FirstSeenBeforeTail(xs: seq<string>, a: string, b: string)
    requires |xs| > 0 && b != xs[0] && FirstSeenBefore(xs[1..], a, b)
    ensures FirstSeenBefore(xs, a, b)
  {
    forall k | 0 <= k < |xs| && xs[k] == b
      ensures a in xs[..k]
    {
      assert xs[1..][k - 1] == b;
      assert xs[1..][..k - 1] == xs[1..k];
    }
  }

  lemma FirstSeenBeforeHead(xs: seq<string>, b: string)
    requires |xs| > 0 && b != xs[0]
    ensures FirstSeenBefore(xs, xs[0], b)
  {
    forall k | 0 <= k < |xs| && xs[k] == b
      ensures xs[0] in xs[..k]
    {
      assert xs[..k][0] == xs[0];
    }
  }

  /** The elements `r[lo..hi]` come in the order of their first occurrence in `xs`. */
  predicate InFirstOccurrenceOrder(r: seq<string>, lo: int, hi: int, xs: seq<string>)
    requires 0 <= lo && hi <= |r|
  {
    forall i, j :: lo <= i < j < hi ==> FirstSeenBefore(xs, r[i], r[j])
  }

  /** `keys.add(x)` for each `x` of `xs`, in order: the elements not seen
      before are appended in the order of their first occurrence in `xs`. */
  function AddAll(seen: seq<string>, xs: seq<string>): (r: seq<string>)
    requires NoDuplicates(seen)
    ensures NoDuplicates(r)
    ensures |seen| <= |r| && r[..|seen|] == seen
    ensures forall x :: x in r <==> x in seen || x in xs
    ensures InFirstOccurrenceOrder(r, |seen|, |r|, xs)
    decreases |xs|
  {
    if |xs| == 0 then seen
    else if xs[0] in seen then
      var r := AddAll(seen, xs[1..]);
      assert forall i, j :: |seen| <= i < j < |r| ==> FirstSeenBefore(xs, r[i], r[j]) by {
        forall i, j | |seen| <= i < j < |r|
          ensures FirstSeenBefore(xs, r[i], r[j])
        {
          assert r[j] != xs[0];
          FirstSeenBeforeTail(xs, r[i], r[j]);
        }
      }
      r
    else
      var next := seen + [xs[0]];
      var r := AddAll(next, xs[1..]);
      assert r[..|seen|] == next[..|seen|];
      assert forall i, j :: |seen| <= i < j < |r| ==> FirstSeenBefore(xs, r[i], r[j]) by {
        assert r[|seen|] == next[|seen|] == xs[0];
        forall i, j | |seen| <= i < j < |r|
          ensures FirstSeenBefore(xs, r[i], r[j])
        {
          assert r[j] != xs[0];
          if i == |seen| {
            FirstSeenBeforeHead(xs, r[j]);
          } else {
            FirstSeenBeforeTail(xs, r[i], r[j]);
          }
        }
      }
      r
  }

  /** `if (match[1]) keys.add(match[1].trim())` for each capture: an empty
      capture is dropped, a blank one is added as the empty key. */
  function Keys(caps: seq<string>): (ks: seq<string>)
    ensures forall x :: x in ks <==> exists k :: 0 <= k < |caps| && caps[k] != "" && x == Trim(caps[k])
  {
    if |caps| == 0 then []
    else
      var rest := Keys(caps[1..]);
      assert forall k :: 1 <= k < |caps| ==> caps[k] == caps[1..][k - 1];
      if caps[0] != "" then [Trim(caps[0])] + rest else rest
  }

  /** `scanDocumentFields(path)` given the loaded document's text, or `None`
      when loading failed (the error is swallowed and `[]` returned). */
  function ScanDocumentFields(loaded: Option<string>): (r: seq<string>)
    ensures loaded.None? ==> r == []
    ensures NoDuplicates(r)
    ensures loaded.Some? ==>
      var bracket := Keys(ScanFrom(loaded.value, 0, BRACKET_OPEN, BRACKET_CLOSE));
      var brace := Keys(ScanFrom(loaded.value, 0, BRACE_OPEN, BRACE_CLOSE));
      var first := AddAll([], bracket);
      && (forall x :: x in r <==> x in bracket || x in brace)
      && |first| <= |r| && r[..|first|] == first
      && InFirstOccurrenceOrder(r, 0, |first|, bracket)
      && InFirstOccurrenceOrder(r, |first|, |r|, brace)
  {
    match loaded
    case None => []
    case Some(text) =>
      var bracket := Keys(ScanFrom(text, 0, BRACKET_OPEN, BRACKET_CLOSE));
      var brace := Keys(ScanFrom(text, 0, BRACE_OPEN, BRACE_CLOSE));
      var first := AddAll([], bracket);
      var r := AddAll(first, brace);
      assert InFirstOccurrenceOrder(r, 0, |first|, bracket) by {
        forall i, j | 0 <= i < j < |first|
          ensures FirstSeenBefore(bracket, r[i], r[j])
        {
          assert r[i] == first[i] && r[j] == first[j];
        }
      }
      r
  }

  /** `c` is the inside of a tag at `p` whose trimmed form is `x`. */
  predicate FoundTag(text: string, x: string, c: string, p: int) {
    && 0 <= p <= |text| && x == Trim(c) && c != ""
    && (forall m :: 0 <= m < |c| ==> !IsLineTerminator(c[m]))
    && (OccursAt(text, BRACKET_OPEN + c + BRACKET_CLOSE, p) || OccursAt(text, BRACE_OPEN + c + BRACE_CLOSE, p))
  }

  /** Every key the scan reports is the trimmed inside of a tag that really
      occurs in the text, with no line terminator inside. */
  lemma ScannedKeysComeFromTags(text: string)
    ensures forall x :: x in ScanDocumentFields(Some(text)) ==> exists c, p :: FoundTag(text, x, c, p)
  {
    var bcaps := ScanFrom(text, 0, BRACKET_OPEN, BRACKET_CLOSE);
    var ccaps := ScanFrom(text, 0, BRACE_OPEN, BRACE_CLOSE);
    ScanCapturesAreShortest(text, 0, BRACKET_OPEN, BRACKET_CLOSE);
    ScanCapturesAreShortest(text, 0, BRACE_OPEN, BRACE_CLOSE);
    forall x | x in ScanDocumentFields(Some(text))
      ensures exists c, p :: FoundTag(text, x, c, p)
    {
      if x in Keys(bcaps) {
        var k :| 0 <= k < |bcaps| && bcaps[k] != "" && x == Trim(bcaps[k]);
        var p :| 0 <= p <= |text| && OccursAt(text, BRACKET_OPEN + bcaps[k] + BRACKET_CLOSE, p);
        assert FoundTag(text, x, bcaps[k], p);
      } else {
        var k :| 0 <= k < |ccaps| && ccaps[k] != "" && x == Trim(ccaps[k]);
        var p :| 0 <= p <= |text| && OccursAt(text, BRACE_OPEN + ccaps[k] + BRACE_CLOSE, p);
        assert FoundTag(text, x, ccaps[k], p);
      }
    }
  }

  /** Completeness: a tag with a non-empty, single-line inside `c` that
      holds no earlier close delimiter is reported as `Trim(c)`, provided no
      earlier match of the same expression runs past its start. */
  lemma TagIsFound(text: string, open: string, close: string, c: string, p: nat)
    requires (open == BRACKET_OPEN && close == BRACKET_CLOSE) || (open == BRACE_OPEN && close == BRACE_CLOSE)
    requires c != "" && forall m :: 0 <= m < |c| ==> !IsLineTerminator(c[m])
    requires OccursAt(text, open + c + close, p)
    requires forall k :: p + |open| <= k < p + |open| + |c| ==> !OccursAt(text, close, k)
    requires NoMatchAcross(text, 0, p, open, close)
    ensures Trim(c) in ScanDocumentFields(Some(text))
  {
    var s := p + |open|;
    var e := s + |c|;
    TagParts(text, p, open, close, c);
    InsideHasNoLineTerminator(text, p, open, close, c);
    LazyEndExact(text, s, close, e);
    assert MatchAt(text, p, open, close).value.capture == c;
    ScanReaches(text, 0, p, open, close);
    var caps := ScanFrom(text, 0, open, close);
    var k :| 0 <= k < |caps| && caps[k] == c;
    assert Trim(c) in Keys(caps);
  }
}

=== FILE: schemas.dfy ===
/** The request schemas of `src/lib/schemas.ts` as validating parsers over
    JSON values. A zod object schema checks every field of its shape,
    reports one issue per failing field (by its path) and returns only the
    fields of its shape. */
module Schemas {
  import opened Js
  import ApiKeys

  /** What `apiKeySchema` returns for a valid body. */
  datatype ApiKeyInput = ApiKeyInput(name: string, kind: ApiKeys.KeyType, rateLimit: int)

  const MIN_RATE_LIMIT: int := 1
  const MAX_RATE_LIMIT: int := 10000

  /** `z.string().min(1)` */
  predicate ValidName(v: Value) {
    v.Str? && |v.s| >= 1
  }

  /** `z.enum(["PRODUCTION", "TEST"])` */
  function KindOf(v: Value): (r: Option<ApiKeys.KeyType>)
    ensures r.Some? <==> v == Str("PRODUCTION") || v == Str("TEST")
    ensures r.Some? ==> v == Str(ApiKeys.KindName(r.value))
  {
    if v == Str("PRODUCTION") then Some(ApiKeys.Production)
    else if v == Str("TEST") then Some(ApiKeys.Test)
    else None
  }

  /** `z.number().int().min(1).max(10000)`; every number here is an integer. */
  predicate ValidRateLimit(v: Value) {
    v.Num? && MIN_RATE_LIMIT <= v.n <= MAX_RATE_LIMIT
  }

  /** The paths of the fields of `v` that fail; `[""]` when `v` is not an
      object at all. */
  function ApiKeyIssues(v: Value): (r: seq<string>)
    ensures |r| <= 3
    ensures !v.Obj? ==> r == [""]
    ensures v.Obj? ==>
      && ("name" in r <==> !ValidName(Field(v, "name")))
      && ("type" in r <==> KindOf(Field(v, "type")).None?)
      && ("rateLimit" in r <==> !ValidRateLimit(Field(v, "rateLimit")))
      && (forall p :: p in r ==> p in {"name", "type", "rateLimit"})
  {
    if !v.Obj? then [""]
    else
      (if ValidName(Field(v, "name")) then [] else ["name"])
      + (if KindOf(Field(v, "type")).Some? then [] else ["type"])
      + (if ValidRateLimit(Field(v, "rateLimit")) then [] else ["rateLimit"])
  }

  /** `apiKeySchema.safeParse(v)`: the parsed input, or the paths of every
      failing field. */
  function ParseApiKey(v: Value): (r: Result<ApiKeyInput, seq<string>>)
    ensures r.Success? <==>
      && v.Obj? && ValidName(Field(v, "name")) && KindOf(Field(v, "type")).Some?
      && ValidRateLimit(Field(v, "rateLimit"))
    ensures r.Success? ==>
      && |r.value.name| >= 1 && MIN_RATE_LIMIT <= r.value.rateLimit <= MAX_RATE_LIMIT
      && Field(v, "name") == Str(r.value.name)
      && Field(v, "type") == Str(ApiKeys.KindName(r.value.kind))
      && Field(v, "rateLimit") == Num(r.value.rateLimit)
    ensures r.Failure? ==> |r.error| >= 1 && r.error == ApiKeyIssues(v)
  {
    var issues := ApiKeyIssues(v);
    if |issues| > 0 then Failure(issues)
    else Success(ApiKeyInput(Field(v, "name").s, KindOf(Field(v, "type")).value, Field(v, "rateLimit").n))
  }

  /** An input as a JSON body. */
  function ApiKeyJson(x: ApiKeyInput): Value {
    Obj([("name", Str(x.name)), ("type", Str(ApiKeys.KindName(x.kind))), ("rateLimit", Num(x.rateLimit))])
  }

  predicate ValidInput(x: ApiKeyInput) {
    |x.name| >= 1 && MIN_RATE_LIMIT <= x.rateLimit <= MAX_RATE_LIMIT
  }

  /** Every valid input survives being written as JSON and parsed again. */
  lemma ApiKeyRoundTrip(x: ApiKeyInput)
    requires ValidInput(x)
    ensures ParseApiKey(ApiKeyJson(x)) == Success(x)
  {
    var v := ApiKeyJson(x);
    FieldAt(v.fields, "name", 0);
    FieldAt(v.fields, "type", 1);
    FieldAt(v.fields, "rateLimit", 2);
    assert KindOf(Field(v, "type")) == Some(x.kind) by {
      assert Field(v, "type") == Str(ApiKeys.KindName(x.kind));
    }
    assert ApiKeyIssues(v) == [];
  }

  /** Parsing keeps only the shape's fields: a parsed body written back and
      parsed again gives the same input. */
  lemma ParseIsIdempotent(v: Value)
    requires ParseApiKey(v).Success?
    ensures ValidInput(ParseApiKey(v).value)
    ensures ParseApiKey(ApiKeyJson(ParseApiKey(v).value)) == ParseApiKey(v)
  {
    ApiKeyRoundTrip(ParseApiKey(v).value);
  }

  /** `generateTemplateSchema`: `data` must be an object (a record with
      string keys); its values are not checked. */
  function ParseTemplateRequest(v: Value): (r: Result<Value, seq<string>>)
    ensures r.Success? <==> v.Obj? && Field(v, "data").Obj?
    ensures r.Success? ==> r.value == Single("data", Field(v, "data"))
    ensures r.Failure? ==> r.error == (if v.Obj? then ["data"] else [""])
  {
    if !v.Obj? then Failure([""])
    else if !Field(v, "data").Obj? then Failure(["data"])
    else Success(Single("data", Field(v, "data")))
  }

  /** `documentUploadSchema` and `processDocumentSchema`: any object is
      accepted, whatever its `file` holds, and only `file` is kept (left out
      when it is `undefined`). */
  function ParseFileRequest(v: Value): (r: Result<Value, seq<string>>)
    ensures r.Success? <==> v.Obj?
    ensures r.Success? ==> Field(r.value, "file") == Field(v, "file")
    ensures r.Success? && Field(v, "file") == Undefined ==> r.value == EmptyObject
  {
    if !v.Obj? then Failure([""])
    else if Field(v, "file") == Undefined then Success(EmptyObject)
    else Success(Single("file", Field(v, "file")))
  }
}

=== FILE: storage.dfy ===
/** `src/lib/storage.ts`: where an uploaded file is stored and how its name
    is made safe, and the delete policy that tolerates a missing file. */
module Storage {
  import opened Js
  import Text
  import NodePath
  import Store

  /** The characters `/[^a-zA-Z0-9.-]/g` leaves alone. */
  predicate IsSafeChar(c: char) {
    ('a' <= c <= 'z') || ('A' <= c <= 'Z') || ('0' <= c <= '9') || c == '.' || c == '-'
  }

  /** `name.replace(/[^a-zA-Z0-9.-]/g, "_")` */
  function SafeName(name: string): (r: string)
    ensures |r| == |name|
    ensures forall k :: 0 <= k < |name| ==> if IsSafeChar(name[k]) then r[k] == name[k] else r[k] == '_'
  {
    if |name| == 0 then ""
    else [if IsSafeChar(name[0]) then name[0] else '_'] + SafeName(name[1..])
  }

  /** Sanitising twice changes nothing more, and a sanitised name holds no
      path separator. */
  lemma SafeNameIdempotent(name: string)
    ensures SafeName(SafeName(name)) == SafeName(name)
    ensures forall k :: 0 <= k < |SafeName(name)| ==> SafeName(name)[k] != '/'
  {
    var s := SafeName(name);
    assert forall k :: 0 <= k < |s| ==> IsSafeChar(s[k]) || s[k] == '_';
  }

  /** `path.join(process.cwd(), "uploads")` */
  function UploadDir(cwd: string): string {
    NodePath.Join(cwd, "uploads")
  }

  datatype Saved = Saved(filePath: string, fileName: string)

  /** `saveFile(file, organizationId)` at time `now`: the file is written as
      `<now>-<safe name>` directly inside the organization's upload
      directory, and nothing else in the file system changes. */
  function SaveFile(fs: Store.FileSystem, cwd: string, file: Store.File, organizationId: string, now: nat)
    : (r: (Saved, Store.FileSystem))
    ensures var dir := NodePath.Join(UploadDir(cwd), organizationId);
      && r.0.filePath == NodePath.Join(dir, r.0.fileName)
      && r.0.fileName == Text.NatToString(now) + "-" + SafeName(file.name)
    ensures r.1 == fs[r.0.filePath := file.bytes]
    ensures forall k :: 0 <= k < |r.0.fileName| ==> r.0.fileName[k] != '/'
  {
    var fileName := Text.NatToString(now) + "-" + SafeName(file.name);
    SafeNameIdempotent(file.name);
    var filePath := NodePath.Join(NodePath.Join(UploadDir(cwd), organizationId), fileName);
    (Saved(filePath, fileName), fs[filePath := file.bytes])
  }

  /** `deleteFile(filePath)`: a missing file is not an error; any other
      failure of `unlink` is rethrown. */
  function DeleteFile(fs: Store.FileSystem, path: string, denied: Option<Store.FsError>)
    : (r: Result<Store.FileSystem, Store.FsError>)
    ensures var u := Store.Unlink(fs, path, denied);
      r.Failure? <==> u.Failure? && u.error.code != "ENOENT"
    ensures r.Failure? ==> r.error == denied.value
    ensures r.Success? && denied.None? ==> r.value == fs - {path}
    ensures r.Success? && denied.Some? ==> r.value == fs
  {
    match Store.Unlink(fs, path, denied)
    case Success(after) => Success(after)
    case Failure(e) => if e.code == "ENOENT" then Success(fs) else Failure(e)
  }

  /** Deleting a file that is already gone succeeds and changes nothing, so
      a delete may be repeated. */
  lemma DeleteFileTwice(fs: Store.FileSystem, path: string)
    ensures DeleteFile(fs, path, None).Success?
    ensures var once := DeleteFile(fs, path, None).value;
      DeleteFile(once, path, None) == Success(once)
  {
  }
}

=== FILE: store.dfy ===
/** The records the routes and workers share: documents, audit events, the
    file system, the caller's session and HTTP responses. The database is a
    value (`Db`) that each operation returns updated. */
module Store {
  import opened Js
  import Queue
  import ApiKeys

  datatype DocStatus = DocPending | DocCompleted | DocOther(name: string)

  datatype Document = Document(
    id: string,
    name: string,
    url: string,
    fileData: Option<seq<byte>>,
    orgId: string,
    uploadedBy: Option<string>,
    status: DocStatus,
    version: nat,
    pdfData: Option<seq<byte>>)

  /** One row written by `createAuditLog`; absent fields are stored as null. */
  datatype AuditEvent = AuditEvent(
    action: string,
    documentId: Option<string>,
    userId: Option<string>,
    details: Option<string>)

  /** The version a document gets when its creator sets none. The database
      schema is not part of this model; its default is taken to be 1, the
      number the upload route starts from. */
  const DEFAULT_VERSION: nat := 1

  /** File contents by absolute path. Directories are implicit. */
  type FileSystem = map<string, seq<byte>>

  /** A Node file-system error: its `code` and its message. */
  datatype FsError = FsError(code: string, message: string)

  /** `fs.unlink(path)`. `denied` is a failure the environment imposes
      (permissions, a directory, a busy file), which the map cannot show. */
  function Unlink(fs: FileSystem, path: string, denied: Option<FsError>): (r: Result<FileSystem, FsError>)
    ensures r.Success? <==> denied.None? && path in fs
    ensures r.Success? ==> r.value == fs - {path}
    ensures denied.None? && path !in fs ==> r.error.code == "ENOENT"
    ensures denied.Some? ==> r == Failure(denied.value)
  {
    if denied.Some? then Failure(denied.value)
    else if path !in fs then Failure(FsError("ENOENT", "ENOENT: no such file or directory, unlink '" + path + "'"))
    else Success(fs - {path})
  }

  /** `fs.readFile(path)` */
  function ReadFile(fs: FileSystem, path: string): (r: Result<seq<byte>, Thrown>)
    ensures r.Success? <==> path in fs
    ensures r.Success? ==> r.value == fs[path]
  {
    if path in fs then Success(fs[path])
    else Failure(Error("ENOENT: no such file or directory, open '" + path + "'"))
  }

  /** The signed-in user as the session carries it. */
  datatype Session = Session(userId: string, orgId: Option<string>, role: string)

  /** `session.user.organizationId` is truthy. */
  predicate HasOrg(s: Session) {
    s.orgId.Some? && s.orgId.value != ""
  }

  predicate IsAdmin(s: Session) {
    s.role == "ADMIN"
  }

  /** An uploaded file: its name and its bytes. */
  datatype File = File(name: string, bytes: seq<byte>)

  /** What `formData.get(name)` returns: nothing (`null`), a text field or
      an uploaded file. */
  datatype FormField = Absent | Text(text: string) | Blob(file: File)

  /** A parsed multipart form, by field name. */
  type Form = map<string, FormField>

  function FormGet(form: Form, name: string): FormField {
    if name in form then form[name] else Absent
  }

  /** JavaScript truthiness of a form field: `null` and `""` are falsy. */
  predicate FieldTruthy(f: FormField) {
    match f
    case Absent => false
    case Text(t) => t != ""
    case Blob(_) => true
  }

  /** The `TypeError` of calling `arrayBuffer()` on a text field. */
  const NOT_A_FILE: string := "file.arrayBuffer is not a function"

  /** A response body: the object before JSON serialisation. */
  datatype Response = Response(status: nat, body: Value)

  /** The framework's response to an exception the handler does not catch. */
  const UNHANDLED: Response := Response(500, Undefined)

  /** `NextResponse.json({ error: message }, { status })` */
  function ErrorResponse(status: nat, message: string): (r: Response)
    ensures r.status == status && Field(r.body, "error") == Str(message)
  {
    Response(status, Obj([("error", Str(message))]))
  }

  function StatusName(s: DocStatus): string {
    match s
    case DocPending => "PENDING"
    case DocCompleted => "COMPLETED"
    case DocOther(n) => n
  }

  /** A document as a response shows it; binary columns are not shown. */
  function DocumentJson(d: Document): Value {
    Obj([("id", Str(d.id)), ("name", Str(d.name)), ("url", Str(d.url)), ("organizationId", Str(d.orgId)),
         ("status", Str(StatusName(d.status))), ("version", Num(d.version))])
  }

  /** Every table the core reads or writes. */
  datatype Db = Db(
    users: set<string>,
    /** organization id -> organization name */
    orgs: map<string, string>,
    documents: seq<Document>,
    jobs: Queue.JobStore,
    apiKeys: seq<ApiKeys.ApiKey>,
    audit: seq<AuditEvent>)

  /** Index of the document with the given id. */
  function FindDocument(docs: seq<Document>, id: string): (r: Option<nat>)
    ensures r.None? <==> forall i :: 0 <= i < |docs| ==> docs[i].id != id
    ensures r.Some? ==> r.value < |docs| && docs[r.value].id == id
  {
    if |docs| == 0 then None
    else if docs[0].id == id then Some(0)
    else match FindDocument(docs[1..], id)
      case None => None
      case Some(i) => Some(i + 1)
  }

  /** What Prisma throws when a `where` clause holds no usable id. The full
      text of Prisma's validation message is not modelled. */
  const QUERY_REJECTED: Thrown := Error("Invalid `prisma.document.findUnique()` invocation")

  /** `prisma.document.findUnique({ where: { id } })` with `id` read from a
      JSON payload: a string is looked up, any other value is rejected. */
  function LookupDocument(docs: seq<Document>, id: Value): (r: Result<Option<nat>, Thrown>)
    ensures r.Failure? <==> !id.Str?
    ensures r.Failure? ==> r.error == QUERY_REJECTED
    ensures r.Success? ==> r.value == FindDocument(docs, id.s)
  {
    if id.Str? then Success(FindDocument(docs, id.s)) else Failure(QUERY_REJECTED)
  }

  predicate HasDocument(docs: seq<Document>, id: string) {
    exists i :: 0 <= i < |docs| && docs[i].id == id
  }

  /** The document id as a JSON value, as the routes put it in job payloads. */
  function ProcessPayload(documentId: string, ext: string): (v: Value)
    ensures Field(v, "documentId") == Str(documentId)
  {
    Obj([("documentId", Str(documentId)), ("ext", Str(ext))])
  }

  lemma ProcessPayloadExt(documentId: string, ext: string)
    ensures Field(ProcessPayload(documentId, ext), "ext") == Str(ext)
  {
    var v := ProcessPayload(documentId, ext);
    if documentId != "ext" {
      assert Field(v, "ext") == Field(Obj(v.fields[1..]), "ext");
    }
  }
}

=== FILE: temp_file.dfy ===
/** `src/lib/temp-file.ts`: scratch files in the operating system's
    temporary directory, named from a timestamp and a random string. */
module TempFile {
  import opened Js
  import Text
  import NodePath
  import Store

  /** `extension.startsWith(".") ? extension : "." + extension` */
  function SafeExt(extension: string): (r: string)
    ensures |r| > 0 && r[0] == '.'
    ensures |r| - 1 <= |extension| <= |r| && r[|r| - |extension|..] == extension
    ensures Text.StartsWith(extension, ".") ==> r == extension
  {
    if Text.StartsWith(extension, ".") then extension else "." + extension
  }

  /** Normalising the dot twice adds nothing. */
  lemma SafeExtIdempotent(extension: string)
    ensures SafeExt(SafeExt(extension)) == SafeExt(extension)
  {
    assert Text.StartsWith(SafeExt(extension), ".");
  }

  /** `temp-${Date.now()}-${random}`, the part of the name before the
      extension; `random` stands for `Math.random().toString(36).substring(7)`. */
  function TempStem(now: nat, random: string): string {
    "temp-" + Text.NatToString(now) + "-" + random
  }

  /** The temporary file name: the stem followed by the dotted extension. */
  function TempFileName(now: nat, random: string, extension: string): (r: string)
    ensures Text.StartsWith(r, "temp-")
    ensures var e := SafeExt(extension); |e| <= |r| && r[|r| - |e|..] == e
  {
    var r := TempStem(now, random) + SafeExt(extension);
    assert r[..5] == "temp-";
    r
  }

  /** `writeTempFile(buffer, extension)`: the path written, inside
      `tempDir`, and the file system with that file. */
  function WriteTempFile(fs: Store.FileSystem, tempDir: string, now: nat, random: string, buffer: seq<byte>, extension: string)
    : (r: (string, Store.FileSystem))
    ensures Text.StartsWith(r.0, tempDir + "/")
    ensures r.0 == NodePath.Join(tempDir, TempFileName(now, random, extension))
    ensures r.1 == fs[r.0 := buffer]
  {
    var path := NodePath.Join(tempDir, TempFileName(now, random, extension));
    assert path[..|tempDir + "/"|] == tempDir + "/";
    (path, fs[path := buffer])
  }

  /** `deleteTempFile(filePath)`: every failure of `unlink` is swallowed, so
      the result is a file system and never an error. */
  function DeleteTempFile(fs: Store.FileSystem, path: string, denied: Option<Store.FsError>): (r: Store.FileSystem)
    ensures denied.None? ==> r == fs - {path}
    ensures denied.Some? ==> r == fs
  {
    match Store.Unlink(fs, path, denied)
    case Success(after) => after
    case Failure(_) => fs
  }

  /** Writing a temporary file at a fresh path and deleting it again leaves
      the file system as it was. */
  lemma WriteThenDeleteRestores(fs: Store.FileSystem, tempDir: string, now: nat, random: string, buffer: seq<byte>, extension: string)
    requires NodePath.Join(tempDir, TempFileName(now, random, extension)) !in fs
    ensures var (path, written) := WriteTempFile(fs, tempDir, now, random, buffer, extension);
      DeleteTempFile(written, path, None) == fs
  {
    var (path, written) := WriteTempFile(fs, tempDir, now, random, buffer, extension);
    assert written - {path} == fs;
  }
}

=== FILE: template.dfy ===
/** `renderWordTemplate` of `src/lib/aspose.ts`: direct replacement of the
    tags `<<[key]>>` and `{{key}}` by each data value, one key after the
    other, with image values injected through a placeholder token.

    The document is the sequence of its runs and images. A tag is assumed
    to lie inside one run. `Range.replace` is modelled as exact,
    case-sensitive, literal replace-all inside every run; the engine's
    default options also match case variants and read `&p`, `&b`, `&m` and
    `&l` as breaks, which this model does not. An inserted image is placed just
    before the run it belongs to; the engine's exact placement is not part
    of this model. An image node carries the base64 text its bytes are
    decoded from. */
module Template {
  import opened Js
  import opened Text

  datatype Node = Run(text: string) | Image(data: string)

  type Doc = seq<Node>

  /** A data entry, in `Object.entries` order. */
  datatype Entry = Entry(key: string, value: Value)

  function BracketTag(key: string): string {
    "<<[" + key + "]>>"
  }

  function BraceTag(key: string): string {
    "{{" + key + "}}"
  }

  /** Values whose string form starts with this are images. */
  const IMAGE_PREFIX: string := "data:image/"

  /** The placeholder that stands for an image while tags are replaced:
      `__IMG_${random}__`. */
  function Token(random: string): (t: string)
    ensures |t| > 0
  {
    "__IMG_" + random + "__"
  }

  predicate HasTag(n: Node, key: string) {
    n.Run? && (Contains(n.text, BracketTag(key)) || Contains(n.text, BraceTag(key)))
  }

  predicate RunContains(n: Node, p: string) {
    n.Run? && Contains(n.text, p)
  }

  function CountImages(doc: Doc): nat {
    if |doc| == 0 then 0 else (if doc[0].Image? then 1 else 0) + CountImages(doc[1..])
  }

  function CountRuns(doc: Doc): nat {
    if |doc| == 0 then 0 else (if doc[0].Run? then 1 else 0) + CountRuns(doc[1..])
  }

  function CountTagRuns(doc: Doc, key: string): nat {
    if |doc| == 0 then 0 else (if HasTag(doc[0], key) then 1 else 0) + CountTagRuns(doc[1..], key)
  }

  function CountRunsWith(doc: Doc, p: string): nat {
    if |doc| == 0 then 0 else (if RunContains(doc[0], p) then 1 else 0) + CountRunsWith(doc[1..], p)
  }

  /** `doc.range.replace(p, r)`: every run's text with `p` replaced by `r`. */
  function ReplaceInRuns(doc: Doc, p: string, r: string): (d: Doc)
    requires |p| > 0
    ensures |d| == |doc|
    ensures forall i :: 0 <= i < |doc| && doc[i].Image? ==> d[i] == doc[i]
    ensures forall i :: 0 <= i < |doc| && doc[i].Run? ==> d[i] == Run(ReplaceAll(doc[i].text, p, r))
  {
    if |doc| == 0 then []
    else
      var head := match doc[0] case Run(t) => Run(ReplaceAll(t, p, r)) case Image(_) => doc[0];
      [head] + ReplaceInRuns(doc[1..], p, r)
  }

  /** Both tags of `key` replaced by `s`, the bracketed form first. */
  function ReplaceTags(doc: Doc, key: string, s: string): (d: Doc)
    ensures |d| == |doc|
    ensures forall i :: 0 <= i < |doc| && doc[i].Image? ==> d[i] == doc[i]
    ensures forall i :: 0 <= i < |doc| && doc[i].Run? ==>
      d[i] == Run(ReplaceAll(ReplaceAll(doc[i].text, BracketTag(key), s), BraceTag(key), s))
  {
    ReplaceInRuns(ReplaceInRuns(doc, BracketTag(key), s), BraceTag(key), s)
  }

  /** A run with neither tag of `key` keeps its text. */
  lemma ReplaceTagsUntagged(doc: Doc, key: string, s: string, i: nat)
    requires i < |doc| && !HasTag(doc[i], key)
    ensures ReplaceTags(doc, key, s)[i] == doc[i]
  {
    if doc[i].Run? {
      ReplaceAllAbsent(doc[i].text, BracketTag(key), s);
      ReplaceAllAbsent(doc[i].text, BraceTag(key), s);
    }
  }

  /** Where node `i` of `doc` lands once an image has been put before every
      run holding `token`: one place per earlier node, plus one per earlier
      run holding the token. */
  function ChunkStart(doc: Doc, token: string, i: nat): nat
    requires i <= |doc|
  {
    i + CountRunsWith(doc[..i], token)
  }

  lemma ChunkStartStep(doc: Doc, token: string, i: nat)
    requires 1 <= i <= |doc|
    ensures ChunkStart(doc, token, i) == 1 + (if RunContains(doc[0], token) then 1 else 0) + ChunkStart(doc[1..], token, i - 1)
  {
    assert doc[..i][1..] == doc[1..][..i - 1];
  }

  /** Node `i` of `doc` after the image phase: a run holding the token shows
      up as `Image(data)` followed by the run without the token; every other
      node shows up unchanged. */
  predicate ImagePhaseAt(doc: Doc, d: Doc, token: string, data: string, i: nat)
    requires |token| > 0 && i < |doc|
  {
    var b := ChunkStart(doc, token, i);
    if RunContains(doc[i], token) then b + 1 < |d| && d[b] == Image(data) && d[b + 1] == Run(ReplaceAll(doc[i].text, token, ""))
    else b < |d| && d[b] == doc[i]
  }

  /** The image phase for one node: a run holding the token becomes an
      image followed by the run without the token; any other node stays. */
  function Chunk(n: Node, token: string, data: string): Doc
    requires |token| > 0
  {
    if RunContains(n, token) then [Image(data), Run(ReplaceAll(n.text, token, ""))] else [n]
  }

  /** Placing the first node's chunk in front shifts every later node's
      placement by the chunk's length. */
  lemma ImagePhaseCons(doc: Doc, token: string, data: string, rest: Doc, i: nat)
    requires |token| > 0 && i < |doc|
    requires i > 0 ==> ImagePhaseAt(doc[1..], rest, token, data, i - 1)
    ensures ImagePhaseAt(doc, Chunk(doc[0], token, data) + rest, token, data, i)
  {
    if i > 0 {
      ChunkStartStep(doc, token, i);
    }
  }

  /** The image phase for one run: a run holding the token gets one image
      before it, however often the token occurs, and loses the token text. */
  function InsertImages(doc: Doc, token: string, data: string): (d: Doc)
    requires |token| > 0
    ensures |d| == |doc| + CountRunsWith(doc, token)
    ensures forall i :: 0 <= i < |doc| ==> ImagePhaseAt(doc, d, token, data, i)
    ensures CountImages(d) == CountImages(doc) + CountRunsWith(doc, token)
    ensures CountRuns(d) == CountRuns(doc)
  {
    if |doc| == 0 then []
    else
      var rest := InsertImages(doc[1..], token, data);
      var head := Chunk(doc[0], token, data);
      assert forall i :: 0 <= i < |doc| ==> ImagePhaseAt(doc, head + rest, token, data, i) by {
        forall i | 0 <= i < |doc|
          ensures ImagePhaseAt(doc, head + rest, token, data, i)
        {
          ImagePhaseCons(doc, token, data, rest, i);
        }
      }
      assert CountImages(head + rest) == CountImages(head) + CountImages(rest) by {
        CountImagesAppend(head, rest);
      }
      assert CountRuns(head + rest) == CountRuns(head) + CountRuns(rest) by {
        CountRunsAppend(head, rest);
      }
      head + rest
  }

  lemma {:induction false} CountImagesAppend(a: Doc, b: Doc)
    ensures CountImages(a + b) == CountImages(a) + CountImages(b)
    decreases |a|
  {
    if |a| == 0 {
      assert a + b == b;
    } else {
      assert (a + b)[1..] == a[1..] + b;
      CountImagesAppend(a[1..], b);
    }
  }

  lemma {:induction false} CountRunsAppend(a: Doc, b: Doc)
    ensures CountRuns(a + b) == CountRuns(a) + CountRuns(b)
    decreases |a|
  {
    if |a| == 0 {
      assert a + b == b;
    } else {
      assert (a + b)[1..] == a[1..] + b;
      CountRunsAppend(a[1..], b);
    }
  }

  predicate NoComma(t: string) {
    forall k :: 0 <= k < |t| ==> t[k] != ','
  }

  /** The index of the first comma of `s`, or `|s|` when there is none. */
  function FirstComma(s: string): (i: nat)
    ensures i <= |s| && NoComma(s[..i]) && (i < |s| ==> s[i] == ',')
  {
    if |s| == 0 || s[0] == ',' then 0
    else
      var i := FirstComma(s[1..]);
      assert s[..i + 1] == [s[0]] + s[1..][..i];
      i + 1
  }

  /** `stringValue.split(",")[1]`: the text between the first and the second
      comma (or the end of the string), or `None` (JavaScript `undefined`)
      when there is no comma. */
  function SecondField(s: string): (r: Option<string>)
    ensures r.None? <==> NoComma(s)
    ensures r.Some? ==>
      var i := FirstComma(s);
      var j := i + 1 + |r.value|;
      && i < |s| && j <= |s| && r.value == s[i + 1..j]
      && NoComma(r.value) && (j == |s| || s[j] == ',')
  {
    if |s| == 0 then None
    else if s[0] == ',' then Some(UpToComma(s[1..]))
    else
      SecondField(s[1..])
  }

  /** The text of `s` up to its first comma, or all of it. */
  function UpToComma(s: string): (r: string)
    ensures |r| <= |s| && r == s[..|r|] && NoComma(r) && (|r| == |s| || s[|r|] == ',')
  {
    if |s| == 0 || s[0] == ',' then "" else [s[0]] + UpToComma(s[1..])
  }

  /** One iteration of the loop over the data entries. `random` is the
      token suffix drawn for this entry; `accepts` says whether the engine
      can insert an image from the given data.

      - a null or undefined value is skipped;
      - an image value without a comma makes `Buffer.from(undefined)` throw
        before anything changes; the failure is logged and the document is
        as before;
      - an image value replaces both tags by the token, then every run
        holding the token gets the image and loses the token; if the engine
        rejects the image, the first insertion throws and the document keeps
        the token where the tags were;
      - any other value replaces both tags by `String(value)`. */
  function ApplyEntry(doc: Doc, e: Entry, random: string, accepts: string -> bool): (d: Doc)
    ensures Nullish(e.value) ==> d == doc
    ensures !Nullish(e.value) && !IsImageValue(e.value) ==> d == ReplaceTags(doc, e.key, ToJsString(e.value))
    ensures IsImageValue(e.value) && SecondField(ToJsString(e.value)).None? ==> d == doc
    ensures IsImageValue(e.value) && SecondField(ToJsString(e.value)).Some? ==>
      var b64 := SecondField(ToJsString(e.value)).value;
      var tagged := ReplaceTags(doc, e.key, Token(random));
      d == if accepts(b64) then InsertImages(tagged, Token(random), b64) else tagged
  {
    if Nullish(e.value) then doc
    else
      var s := ToJsString(e.value);
      if StartsWith(s, IMAGE_PREFIX) then
        match SecondField(s)
        case None => doc
        case Some(b64) =>
          var token := Token(random);
          var tagged := ReplaceTags(doc, e.key, token);
          if accepts(b64) then InsertImages(tagged, token, b64) else tagged
      else ReplaceTags(doc, e.key, s)
  }

  predicate IsImageValue(v: Value) {
    !Nullish(v) && StartsWith(ToJsString(v), IMAGE_PREFIX)
  }

  /** The loop over all entries, in order. */
  function Render(doc: Doc, entries: seq<Entry>, randoms: seq<string>, accepts: string -> bool): Doc
    requires |randoms| == |entries|
    decreases |entries|
  {
    if |entries| == 0 then doc
    else Render(ApplyEntry(doc, entries[0], randoms[0], accepts), entries[1..], randoms[1..], accepts)
  }

  /** `renderWordTemplate(input, output, data)`: the loaded document (or the
      exception loading it threw), rendered. Loading failures are rethrown
      and nothing is produced. */
  function RenderWordTemplate(loaded: Result<Doc, Thrown>, entries: seq<Entry>, randoms: seq<string>, accepts: string -> bool)
    : (r: Result<Doc, Thrown>)
    requires |randoms| == |entries|
    ensures loaded.Failure? ==> r == loaded
    ensures loaded.Success? ==> r == Success(Render(loaded.value, entries, randoms, accepts))
  {
    match loaded
    case Failure(e) => Failure(e)
    case Success(doc) => Success(Render(doc, entries, randoms, accepts))
  }

  // ---- properties -------------------------------------------------------

  /** Entries are applied strictly one after another: rendering a
      concatenation is rendering the first part, then the second. */
  lemma {:induction false} RenderSequential(doc: Doc, e1: seq<Entry>, r1: seq<string>, e2: seq<Entry>, r2: seq<string>, accepts: string -> bool)
    requires |r1| == |e1| && |r2| == |e2|
    ensures Render(doc, e1 + e2, r1 + r2, accepts) == Render(Render(doc, e1, r1, accepts), e2, r2, accepts)
    decreases |e1|
  {
    if |e1| == 0 {
      assert e1 + e2 == e2 && r1 + r2 == r2;
    } else {
      assert (e1 + e2)[1..] == e1[1..] + e2;
      assert (r1 + r2)[1..] == r1[1..] + r2;
      RenderSequential(ApplyEntry(doc, e1[0], r1[0], accepts), e1[1..], r1[1..], e2, r2, accepts);
    }
  }

  /** Data whose values are all null or undefined leaves every tag in place. */
  lemma {:induction false} RenderNullishIsIdentity(doc: Doc, entries: seq<Entry>, randoms: seq<string>, accepts: string -> bool)
    requires |randoms| == |entries|
    requires forall i :: 0 <= i < |entries| ==> Nullish(entries[i].value)
    ensures Render(doc, entries, randoms, accepts) == doc
    decreases |entries|
  {
    if |entries| > 0 {
      RenderNullishIsIdentity(doc, entries[1..], randoms[1..], accepts);
    }
  }

  /** A text value rewrites only runs that hold one of the key's tags; every
      image and every other run is left as it was. */
  lemma TextEntryTouchesOnlyTaggedRuns(doc: Doc, e: Entry, random: string, accepts: string -> bool, i: nat)
    requires !Nullish(e.value) && !IsImageValue(e.value)
    requires i < |doc| && !HasTag(doc[i], e.key)
    ensures |ApplyEntry(doc, e, random, accepts)| == |doc|
    ensures ApplyEntry(doc, e, random, accepts)[i] == doc[i]
  {
    ReplaceTagsUntagged(doc, e.key, ToJsString(e.value), i);
  }

  /** With a token that occurs in no run, the runs holding the token after
      tag replacement are exactly the runs that held a tag of the key. */
  lemma RunGetsToken(n: Node, key: string, token: string)
    requires |token| > 0 && !RunContains(n, token)
    ensures var m := ReplaceTags([n], key, token)[0];
      RunContains(m, token) <==> HasTag(n, key)
  {
    if n.Run? {
      var t := n.text;
      var u := ReplaceAll(t, BracketTag(key), token);
      ReplacementPresence(t, BracketTag(key), token);
      ReplacementPresence(u, BraceTag(key), token);
      if !Contains(t, BracketTag(key)) {
        ReplaceAllAbsent(t, BracketTag(key), token);
      }
    }
  }

  lemma {:induction false} TaggedRunsGetToken(doc: Doc, key: string, token: string)
    requires |token| > 0
    requires forall i :: 0 <= i < |doc| ==> !RunContains(doc[i], token)
    ensures CountRunsWith(ReplaceTags(doc, key, token), token) == CountTagRuns(doc, key)
    decreases |doc|
  {
    if |doc| > 0 {
      var d := ReplaceTags(doc, key, token);
      RunGetsToken(doc[0], key, token);
      assert ReplaceTags([doc[0]], key, token)[0] == d[0];
      assert d[1..] == ReplaceTags(doc[1..], key, token);
      TaggedRunsGetToken(doc[1..], key, token);
    }
  }

  /** Node `i` of `doc` after an accepted image entry: a run holding a tag of
      the key shows up as `Image(b64)` followed by the run whose tags were
      replaced by the token and the token then removed; every other node
      shows up unchanged. Node `i` starts one place per earlier node plus
      one per earlier tagged run. */
  predicate EntryPlacedAt(doc: Doc, d: Doc, key: string, token: string, b64: string, i: nat)
    requires |token| > 0 && i < |doc|
  {
    var b := i + CountTagRuns(doc[..i], key);
    if HasTag(doc[i], key) then
      && b + 1 < |d| && d[b] == Image(b64)
      && d[b + 1] == Run(ReplaceAll(ReplaceAll(ReplaceAll(doc[i].text, BracketTag(key), token), BraceTag(key), token), token, ""))
    else b < |d| && d[b] == doc[i]
  }

  /** With a fresh token, the runs before node `i` holding the token after
      tag replacement are the runs before it that held a tag. */
  lemma TaggedChunkStart(doc: Doc, key: string, token: string, i: nat)
    requires |token| > 0 && i <= |doc|
    requires forall k :: 0 <= k < |doc| ==> !RunContains(doc[k], token)
    ensures ChunkStart(ReplaceTags(doc, key, token), token, i) == i + CountTagRuns(doc[..i], key)
  {
    assert ReplaceTags(doc, key, token)[..i] == ReplaceTags(doc[..i], key, token);
    TaggedRunsGetToken(doc[..i], key, token);
  }

  /** With a fresh token, node `i` holds the token after tag replacement
      exactly when it held a tag, and is unchanged when it did not. */
  lemma TaggedNodeAt(doc: Doc, key: string, token: string, i: nat)
    requires |token| > 0 && i < |doc| && !RunContains(doc[i], token)
    ensures RunContains(ReplaceTags(doc, key, token)[i], token) <==> HasTag(doc[i], key)
    ensures !HasTag(doc[i], key) ==> ReplaceTags(doc, key, token)[i] == doc[i]
  {
    RunGetsToken(doc[i], key, token);
    assert ReplaceTags([doc[i]], key, token)[0] == ReplaceTags(doc, key, token)[i];
    if !HasTag(doc[i], key) {
      ReplaceTagsUntagged(doc, key, token, i);
    }
  }

  /** How node `i` of `doc` ends up in `d` when `tagged` is `doc` with the
      tags of `key` replaced by `token` and `d` is `tagged` after the image
      phase. */
  lemma PlacedThroughTagged(doc: Doc, tagged: Doc, d: Doc, key: string, token: string, b64: string, i: nat)
    requires |token| > 0 && i < |doc| && |tagged| == |doc|
    requires ChunkStart(tagged, token, i) == i + CountTagRuns(doc[..i], key)
    requires RunContains(tagged[i], token) <==> HasTag(doc[i], key)
    requires HasTag(doc[i], key) ==>
      tagged[i] == Run(ReplaceAll(ReplaceAll(doc[i].text, BracketTag(key), token), BraceTag(key), token))
    requires !HasTag(doc[i], key) ==> tagged[i] == doc[i]
    requires ImagePhaseAt(tagged, d, token, b64, i)
    ensures EntryPlacedAt(doc, d, key, token, b64, i)
  {
  }

  /** The placement of one node after tag replacement with a fresh token
      and the image phase. */
  lemma ImageEntryPlacedAt(doc: Doc, key: string, token: string, b64: string, i: nat)
    requires |token| > 0 && i < |doc|
    requires forall k :: 0 <= k < |doc| ==> !RunContains(doc[k], token)
    ensures EntryPlacedAt(doc, InsertImages(ReplaceTags(doc, key, token), token, b64), key, token, b64, i)
  {
    var tagged := ReplaceTags(doc, key, token);
    TaggedChunkStart(doc, key, token, i);
    TaggedNodeAt(doc, key, token, i);
    PlacedThroughTagged(doc, tagged, InsertImages(tagged, token, b64), key, token, b64, i);
  }

  /** An image value with a fresh token that the engine accepts puts
      `Image(b64)` right before each run that held a tag of the key and
      removes the token from that run; every other node is kept, in order,
      and no run is added or lost. */
  lemma ImageEntryOnePerTaggedRun(doc: Doc, e: Entry, random: string, accepts: string -> bool, b64: string)
    requires IsImageValue(e.value) && SecondField(ToJsString(e.value)) == Some(b64) && accepts(b64)
    requires forall i :: 0 <= i < |doc| ==> !RunContains(doc[i], Token(random))
    ensures var d := ApplyEntry(doc, e, random, accepts);
      && (forall i :: 0 <= i < |doc| ==> EntryPlacedAt(doc, d, e.key, Token(random), b64, i))
      && CountImages(d) == CountImages(doc) + CountTagRuns(doc, e.key)
      && CountRuns(d) == CountRuns(doc)
      && |d| == |doc| + CountTagRuns(doc, e.key)
  {
    var token := Token(random);
    var tagged := ReplaceTags(doc, e.key, token);
    TaggedRunsGetToken(doc, e.key, token);
    ImagesKeepCount(doc, tagged);
    forall i | 0 <= i < |doc|
      ensures EntryPlacedAt(doc, InsertImages(tagged, token, b64), e.key, token, b64, i)
    {
      ImageEntryPlacedAt(doc, e.key, token, b64, i);
    }
  }

  /** Replacing text inside runs keeps the number of images and runs. */
  lemma {:induction false} ImagesKeepCount(a: Doc, b: Doc)
    requires |a| == |b|
    requires forall i :: 0 <= i < |a| ==> (a[i].Image? ==> b[i] == a[i]) && (a[i].Run? ==> b[i].Run?)
    ensures CountImages(b) == CountImages(a) && CountRuns(b) == CountRuns(a)
    decreases |a|
  {
    if |a| > 0 {
      ImagesKeepCount(a[1..], b[1..]);
    }
  }

  /** When the engine rejects the image, no image is inserted and the token
      is left in exactly the runs that held a tag of the key. */
  lemma RejectedImageLeavesToken(doc: Doc, e: Entry, random: string, accepts: string -> bool, b64: string)
    requires IsImageValue(e.value) && SecondField(ToJsString(e.value)) == Some(b64) && !accepts(b64)
    requires forall i :: 0 <= i < |doc| ==> !RunContains(doc[i], Token(random))
    ensures var d := ApplyEntry(doc, e, random, accepts);
      && CountImages(d) == CountImages(doc)
      && CountRunsWith(d, Token(random)) == CountTagRuns(doc, e.key)
  {
    var token := Token(random);
    var tagged := ReplaceTags(doc, e.key, token);
    TaggedRunsGetToken(doc, e.key, token);
    ImagesKeepCount(doc, tagged);
  }

  /** An image value whose text has no comma changes nothing. */
  lemma ImageWithoutCommaIsSkipped(doc: Doc, e: Entry, random: string, accepts: string -> bool)
    requires IsImageValue(e.value)
    requires forall k :: 0 <= k < |ToJsString(e.value)| ==> ToJsString(e.value)[k] != ','
    ensures ApplyEntry(doc, e, random, accepts) == doc
  {
  }
}

=== FILE: text.dfy ===
/** String operations the sources rely on, over `seq<char>`: literal
    replace-all (`String.prototype.replaceAll` and the document engine's
    `Range.replace` with a plain pattern), `trim`, ASCII lower-casing and the
    decimal rendering of integers. */
module Text {

  /** `p` occurs in `s` starting at index `i`. */
  predicate OccursAt(s: string, p: string, i: int) {
    0 <= i && i + |p| <= |s| && s[i..i + |p|] == p
  }

  /** `s.includes(p)` */
  predicate Contains(s: string, p: string) {
    exists i :: 0 <= i <= |s| && OccursAt(s, p, i)
  }

  /** `s.startsWith(p)` */
  predicate StartsWith(s: string, p: string) {
    |p| <= |s| && s[..|p|] == p
  }

  lemma AppendAssoc(a: string, b: string, c: string)
    ensures a + (b + c) == (a + b) + c
  {
  }

  /** A string followed by anything starts with that string. */
  lemma StartsWithConcat(p: string, q: string, r: string)
    ensures StartsWith(p + q, p) && StartsWith(p + q + r, p)
  {
    assert (p + q)[..|p|] == p;
    assert (p + q + r)[..|p|] == p;
  }

  /** Literal, left-to-right, non-overlapping replacement of every `p` in `s` by `r`. */
  function ReplaceAll(s: string, p: string, r: string): string
    requires |p| > 0
    decreases |s|
  {
    if |s| == 0 then ""
    else if StartsWith(s, p) then r + ReplaceAll(s[|p|..], p, r)
    else [s[0]] + ReplaceAll(s[1..], p, r)
  }

  /** The pieces of `s` between the occurrences that `ReplaceAll` replaces. */
  function Split(s: string, p: string): (pieces: seq<string>)
    requires |p| > 0
    ensures |pieces| >= 1
    decreases |s|
  {
    if |s| == 0 then [""]
    else if StartsWith(s, p) then [""] + Split(s[|p|..], p)
    else
      var rest := Split(s[1..], p);
      [[s[0]] + rest[0]] + rest[1..]
  }

  /** The pieces joined with `sep` between neighbours. */
  function Join(pieces: seq<string>, sep: string): string
    requires |pieces| >= 1
  {
    if |pieces| == 1 then pieces[0] else pieces[0] + sep + Join(pieces[1..], sep)
  }

  lemma {:induction false} JoinPrependChar(c: char, pieces: seq<string>, sep: string)
    requires |pieces| >= 1
    ensures Join([[c] + pieces[0]] + pieces[1..], sep) == [c] + Join(pieces, sep)
  {
    var q := [[c] + pieces[0]] + pieces[1..];
    assert q[1..] == pieces[1..];
  }

  /** Splitting at the occurrences of `p` and joining with `p` gives back `s`. */
  lemma {:induction false} JoinSplit(s: string, p: string)
    requires |p| > 0
    ensures Join(Split(s, p), p) == s
    decreases |s|
  {
    if |s| == 0 {
    } else if StartsWith(s, p) {
      var rest := Split(s[|p|..], p);
      JoinSplit(s[|p|..], p);
      assert Split(s, p) == [""] + rest;
      assert ([""] + rest)[1..] == rest;
      assert Join([""] + rest, p) == "" + p + Join(rest, p);
      assert s == s[..|p|] + s[|p|..];
    } else {
      var rest := Split(s[1..], p);
      JoinSplit(s[1..], p);
      assert Split(s, p) == [[s[0]] + rest[0]] + rest[1..];
      JoinPrependChar(s[0], rest, p);
      assert s == [s[0]] + s[1..];
    }
  }

  /** Replacing every occurrence is joining the split pieces with the replacement. */
  lemma {:induction false} ReplaceAllIsJoin(s: string, p: string, r: string)
    requires |p| > 0
    ensures ReplaceAll(s, p, r) == Join(Split(s, p), r)
    decreases |s|
  {
    if |s| == 0 {
    } else if StartsWith(s, p) {
      var rest := Split(s[|p|..], p);
      ReplaceAllIsJoin(s[|p|..], p, r);
      assert Split(s, p) == [""] + rest;
      assert ([""] + rest)[1..] == rest;
      assert Join([""] + rest, r) == "" + r + Join(rest, r);
    } else {
      var rest := Split(s[1..], p);
      ReplaceAllIsJoin(s[1..], p, r);
      assert Split(s, p) == [[s[0]] + rest[0]] + rest[1..];
      JoinPrependChar(s[0], rest, r);
    }
  }

  /** The first piece of a split is a prefix of the split string. */
  lemma {:induction false} SplitHeadIsPrefix(s: string, p: string)
    requires |p| > 0
    ensures StartsWith(s, Split(s, p)[0])
    decreases |s|
  {
    if |s| == 0 || StartsWith(s, p) {
    } else {
      SplitHeadIsPrefix(s[1..], p);
      var h := Split(s[1..], p)[0];
      assert ([s[0]] + h) == s[..|h| + 1];
    }
  }

  lemma ContainsWitness(s: string, p: string, i: int)
    requires OccursAt(s, p, i)
    ensures Contains(s, p)
  {
  }

  /** An occurrence inside a prefix of `s` that does not start at 0 is an occurrence in `s[1..]`. */
  lemma {:induction false} ContainsInPrefixTail(s: string, h: string, p: string)
    requires |s| >= 1 && StartsWith(s[1..], h)
    requires Contains([s[0]] + h, p) && !StartsWith(s, p)
    ensures Contains(h, p)
  {
    var t := [s[0]] + h;
    var i :| 0 <= i <= |t| && OccursAt(t, p, i);
    if i == 0 {
      assert false;
    } else {
      assert t[i..i + |p|] == h[i - 1..i - 1 + |p|];
      ContainsWitness(h, p, i - 1);
    }
  }

  /** No piece of a split contains the separator. */
  lemma {:induction false} SplitPiecesFree(s: string, p: string)
    requires |p| > 0
    ensures forall k :: 0 <= k < |Split(s, p)| ==> !Contains(Split(s, p)[k], p)
    decreases |s|
  {
    if |s| == 0 {
      assert !OccursAt("", p, 0);
    } else if StartsWith(s, p) {
      SplitPiecesFree(s[|p|..], p);
      var rest := Split(s[|p|..], p);
      assert !OccursAt("", p, 0);
      forall k | 0 <= k < |Split(s, p)|
        ensures !Contains(Split(s, p)[k], p)
      {
        if k > 0 {
          assert Split(s, p)[k] == rest[k - 1];
        }
      }
    } else {
      SplitPiecesFree(s[1..], p);
      SplitHeadIsPrefix(s[1..], p);
      var rest := Split(s[1..], p);
      forall k | 0 <= k < |Split(s, p)|
        ensures !Contains(Split(s, p)[k], p)
      {
        if k == 0 {
          if Contains([s[0]] + rest[0], p) {
            ContainsInPrefixTail(s, rest[0], p);
          }
        } else {
          assert Split(s, p)[k] == rest[k];
        }
      }
    }
  }

  /** Without an occurrence of `p` the text is left as it is. */
  lemma {:induction false} ReplaceAllAbsent(s: string, p: string, r: string)
    requires |p| > 0 && !Contains(s, p)
    ensures ReplaceAll(s, p, r) == s
    decreases |s|
  {
    if |s| == 0 {
    } else if StartsWith(s, p) {
      ContainsWitness(s, p, 0);
    } else {
      if Contains(s[1..], p) {
        var i :| 0 <= i <= |s[1..]| && OccursAt(s[1..], p, i);
        assert s[i + 1..i + 1 + |p|] == s[1..][i..i + |p|];
        ContainsWitness(s, p, i + 1);
      }
      ReplaceAllAbsent(s[1..], p, r);
      assert s == [s[0]] + s[1..];
    }
  }

  /** Replacing `p` by itself changes nothing. */
  lemma ReplaceAllSelf(s: string, p: string)
    requires |p| > 0
    ensures ReplaceAll(s, p, p) == s
  {
    ReplaceAllIsJoin(s, p, p);
    JoinSplit(s, p);
  }

  lemma ContainsPrefix(a: string, b: string)
    ensures Contains(a + b, a)
  {
    assert OccursAt(a + b, a, 0);
  }

  lemma ContainsShift(c: char, s: string, p: string)
    requires Contains(s, p)
    ensures Contains([c] + s, p)
  {
    var i :| 0 <= i <= |s| && OccursAt(s, p, i);
    assert ([c] + s)[i + 1..i + 1 + |p|] == s[i..i + |p|];
    assert OccursAt([c] + s, p, i + 1);
  }

  lemma ContainsTail(s: string, p: string)
    requires |s| >= 1 && Contains(s, p) && !StartsWith(s, p)
    ensures Contains(s[1..], p)
  {
    var i :| 0 <= i <= |s| && OccursAt(s, p, i);
    if i == 0 {
      assert false;
    } else {
      assert s[1..][i - 1..i - 1 + |p|] == s[i..i + |p|];
      assert OccursAt(s[1..], p, i - 1);
    }
  }

  /** When `p` occurs, the replacement shows up in the result. */
  lemma {:induction false} ReplaceAllShowsReplacement(s: string, p: string, r: string)
    requires |p| > 0 && Contains(s, p)
    ensures Contains(ReplaceAll(s, p, r), r)
    decreases |s|
  {
    if |s| == 0 {
      assert false;
    } else if StartsWith(s, p) {
      ContainsPrefix(r, ReplaceAll(s[|p|..], p, r));
    } else {
      ContainsTail(s, p);
      ReplaceAllShowsReplacement(s[1..], p, r);
      ContainsShift(s[0], ReplaceAll(s[1..], p, r), r);
    }
  }

  /** The result of replacing `q` by `r` contains `r` exactly when the input
      contained `q` or already contained `r`. */
  lemma ReplacementPresence(u: string, q: string, r: string)
    requires |q| > 0
    ensures Contains(ReplaceAll(u, q, r), r) <==> Contains(u, q) || Contains(u, r)
  {
    if Contains(u, q) {
      ReplaceAllShowsReplacement(u, q, r);
    } else {
      ReplaceAllAbsent(u, q, r);
    }
  }

  // ---- trim -------------------------------------------------------------

  /** The characters `String.prototype.trim` removes: ECMAScript WhiteSpace
      and LineTerminator. */
  predicate IsJsSpace(c: char) {
    c in JS_SPACES || '\U{2000}' <= c <= '\U{200A}'
  }

  /** The whitespace and line-terminator code points outside U+2000..U+200A. */
  const JS_SPACES: set<char> := {
    '\t', '\n', '\U{B}', '\U{C}', '\r', ' ', '\U{A0}', '\U{1680}', '\U{2028}', '\U{2029}',
    '\U{202F}', '\U{205F}', '\U{3000}', '\U{FEFF}'}

  /** The first index at or after `i` that does not hold whitespace. */
  function SkipSpaces(s: string, i: nat): (j: nat)
    requires i <= |s|
    ensures i <= j <= |s|
    ensures forall k :: i <= k < j ==> IsJsSpace(s[k])
    ensures j < |s| ==> !IsJsSpace(s[j])
    decreases |s| - i
  {
    if i < |s| && IsJsSpace(s[i]) then SkipSpaces(s, i + 1) else i
  }

  /** The end of `s[lo..j]` without its trailing whitespace. */
  function SkipSpacesBack(s: string, lo: nat, j: nat): (e: nat)
    requires lo <= j <= |s|
    ensures lo <= e <= j
    ensures forall k :: e <= k < j ==> IsJsSpace(s[k])
    ensures lo < e ==> !IsJsSpace(s[e - 1])
    decreases j - lo
  {
    if lo < j && IsJsSpace(s[j - 1]) then SkipSpacesBack(s, lo, j - 1) else j
  }

  /** `s.trim()`: the part between the leading and the trailing whitespace. */
  function Trim(s: string): string {
    var i := SkipSpaces(s, 0);
    s[i..SkipSpacesBack(s, i, |s|)]
  }

  /** `Trim` keeps a contiguous middle part of the input, removes only
      whitespace around it, and leaves no whitespace at either end. */
  lemma TrimSpec(s: string)
    ensures var t := Trim(s); var i := SkipSpaces(s, 0);
      && 0 <= i <= |s| - |t| && t == s[i..i + |t|]
      && (forall k :: 0 <= k < i ==> IsJsSpace(s[k]))
      && (forall k :: i + |t| <= k < |s| ==> IsJsSpace(s[k]))
      && (|t| > 0 ==> !IsJsSpace(t[0]) && !IsJsSpace(t[|t| - 1]))
  {
    var i := SkipSpaces(s, 0);
    var e := SkipSpacesBack(s, i, |s|);
    var t := Trim(s);
    assert t == s[i..e];
    if |t| > 0 {
      assert t[0] == s[i] && t[|t| - 1] == s[e - 1];
    }
  }

  /** Trimming twice removes nothing more. */
  lemma TrimIdempotent(s: string)
    ensures Trim(Trim(s)) == Trim(s)
  {
    var t := Trim(s);
    TrimSpec(s);
    if |t| > 0 {
      assert SkipSpaces(t, 0) == 0;
      assert SkipSpacesBack(t, 0, |t|) == |t|;
      assert t[0..|t|] == t;
    }
  }

  /** A trimmed string is empty exactly when the input is all whitespace. */
  lemma TrimEmptyIffBlank(s: string)
    ensures Trim(s) == "" <==> forall k :: 0 <= k < |s| ==> IsJsSpace(s[k])
  {
    var i := SkipSpaces(s, 0);
    var e := SkipSpacesBack(s, i, |s|);
    assert |Trim(s)| == e - i;
  }

  // ---- case -------------------------------------------------------------

  function LowerChar(c: char): char {
    if 'A' <= c <= 'Z' then (c as int + 32) as char else c
  }

  /** `s.toLowerCase()` restricted to the ASCII letters. */
  function ToLower(s: string): (r: string)
    ensures |r| == |s|
    ensures forall i :: 0 <= i < |s| ==> r[i] == LowerChar(s[i])
  {
    if |s| == 0 then "" else [LowerChar(s[0])] + ToLower(s[1..])
  }

  // ---- decimal numbers ----------------------------------------------------

  predicate IsDigit(c: char) {
    '0' <= c <= '9'
  }

  function DigitChar(d: int): (c: char)
    requires 0 <= d < 10
    ensures IsDigit(c)
  {
    "0123456789"[d]
  }

  /** The decimal digits of `n`, as `String(n)` writes them. */
  function NatToString(n: nat): (r: string)
    ensures |r| >= 1
    ensures forall i :: 0 <= i < |r| ==> IsDigit(r[i])
    ensures |r| > 1 ==> r[0] != '0'
  {
    if n < 10 then [DigitChar(n)] else NatToString(n / 10) + [DigitChar(n % 10)]
  }

  /** `String(n)` for an integer. */
  function IntToString(n: int): string {
    if n < 0 then "-" + NatToString(-n) else NatToString(n)
  }

  /** Reads a non-empty run of decimal digits. */
  function ParseDigits(s: string): nat
    requires forall i :: 0 <= i < |s| ==> IsDigit(s[i])
  {
    if |s| == 0 then 0
    else
      assert IsDigit(s[|s| - 1]);
      10 * ParseDigits(s[..|s| - 1]) + (s[|s| - 1] as int - '0' as int)
  }

  /** Decimal rendering is read back as the same number. */
  lemma {:induction false} NatToStringRoundTrip(n: nat)
    ensures ParseDigits(NatToString(n)) == n
  {
    if n >= 10 {
      NatToStringRoundTrip(n / 10);
      var s := NatToString(n);
      assert s[..|s| - 1] == NatToString(n / 10);
    }
  }
}

=== FILE: upload_route.dfy ===
/** The `POST` handler of `src/app/api/documents/upload/route.ts`: a
    signed-in user uploads a file, which is stored as a PENDING document
    with a version number and handed to the job queue. */
module UploadRoute {
  import opened Js
  import NodePath
  import Queue
  import Store

  const DOCUMENT_UPLOADED: string := "DOCUMENT_UPLOADED"
  const STALE_SESSION: string := "Session invalid: User or Organization not found"

  /** The parsed form, or what parsing threw, and the `rootId` query
      parameter. */
  datatype Request = Request(form: Result<Store.Form, Thrown>, rootId: Option<string>)

  /** What the database and the clock supply: the new document's id, the
      new job's id and the time. */
  datatype Ids = Ids(documentId: string, jobId: string, now: int)

  predicate SameName(d: Store.Document, orgId: string, name: string) {
    d.orgId == orgId && d.name == name
  }

  /** The highest version among the organization's documents with this
      name (`findFirst` ordered by version, descending). */
  function LatestVersion(docs: seq<Store.Document>, orgId: string, name: string): (r: Option<nat>)
    ensures r.None? <==> forall i :: 0 <= i < |docs| ==> !SameName(docs[i], orgId, name)
    ensures r.Some? ==> exists i :: 0 <= i < |docs| && SameName(docs[i], orgId, name) && docs[i].version == r.value
    ensures r.Some? ==> forall i :: 0 <= i < |docs| && SameName(docs[i], orgId, name) ==> docs[i].version <= r.value
  {
    if |docs| == 0 then None
    else
      var init := docs[..|docs| - 1];
      var last := docs[|docs| - 1];
      var rest := LatestVersion(init, orgId, name);
      assert forall i :: 0 <= i < |init| ==> init[i] == docs[i];
      if !SameName(last, orgId, name) then rest
      else match rest
        case None => Some(last.version)
        case Some(m) => if m >= last.version then Some(m) else Some(last.version)
  }

  /** `rootId` is present and not empty: its value is never read. */
  predicate IsNewVersion(rootId: Option<string>) {
    rootId.Some? && rootId.value != ""
  }

  /** The version of the uploaded document: one more than the latest
      same-name document of the organization when `rootId` is given and
      such a document exists, otherwise 1. */
  function NextVersion(docs: seq<Store.Document>, orgId: string, name: string, rootId: Option<string>): (v: nat)
    ensures v >= 1
    ensures !IsNewVersion(rootId) ==> v == 1
    ensures IsNewVersion(rootId) ==> forall i :: 0 <= i < |docs| && SameName(docs[i], orgId, name) ==> docs[i].version < v
    ensures IsNewVersion(rootId) && v > 1 ==> exists i :: 0 <= i < |docs| && SameName(docs[i], orgId, name) && docs[i].version == v - 1
    ensures (forall i :: 0 <= i < |docs| ==> !SameName(docs[i], orgId, name)) ==> v == 1
  {
    if IsNewVersion(rootId) then
      match LatestVersion(docs, orgId, name)
      case None => 1
      case Some(m) => m + 1
    else 1
  }

  /** The session names an organization, and both the user and the
      organization still exist. */
  predicate Authorised(db: Store.Db, session: Option<Store.Session>) {
    && session.Some? && Store.HasOrg(session.value)
    && session.value.userId in db.users && session.value.orgId.value in db.orgs
  }

  /** The uploaded file, when the form parsed and its `file` field is a file. */
  predicate HasUpload(req: Request) {
    req.form.Success? && Store.FormGet(req.form.value, "file").Blob?
  }

  function UploadOf(req: Request): Store.File
    requires HasUpload(req)
  {
    Store.FormGet(req.form.value, "file").file
  }

  /** `e instanceof Error ? e.message : "Upload failed"` */
  function CaughtMessage(e: Thrown): (m: string)
    ensures e.Error? ==> m == e.message
    ensures e.Raw? ==> m == "Upload failed"
  {
    if e.Error? then e.message else "Upload failed"
  }

  /** `POST`: the response and the database afterwards. */
  function Post(db: Store.Db, session: Option<Store.Session>, req: Request, ids: Ids): (r: (Store.Response, Store.Db))
    ensures session.None? || !Store.HasOrg(session.value) ==> r == (Store.ErrorResponse(401, "Unauthorized"), db)
    ensures session.Some? && Store.HasOrg(session.value) && !Authorised(db, session) ==>
      r == (Store.ErrorResponse(401, STALE_SESSION), db)
    ensures Authorised(db, session) && req.form.Failure? ==> r == (Store.ErrorResponse(500, CaughtMessage(req.form.error)), db)
    ensures Authorised(db, session) && req.form.Success? && !Store.FieldTruthy(Store.FormGet(req.form.value, "file")) ==>
      r == (Store.ErrorResponse(400, "No file provided"), db)
    ensures r.0.status == 200 <==> Authorised(db, session) && HasUpload(req)
    ensures r.0.status != 200 ==> r.1 == db
    ensures r.1.users == db.users && r.1.orgs == db.orgs && r.1.apiKeys == db.apiKeys
    ensures r.0.status == 200 ==>
      var s := session.value;
      var orgId := s.orgId.value;
      var f := UploadOf(req);
      && Field(r.0.body, "success") == Bool(true)
      && |r.1.documents| == |db.documents| + 1 && r.1.documents[..|db.documents|] == db.documents
      && var doc := r.1.documents[|db.documents|];
      && doc == Store.Document(ids.documentId, f.name, f.name, Some(f.bytes), orgId, Some(s.userId),
                               Store.DocPending, NextVersion(db.documents, orgId, f.name, req.rootId), None)
      && r.1.audit == db.audit + [Store.AuditEvent(DOCUMENT_UPLOADED, Some(doc.id), Some(s.userId), Some(f.name))]
      && r.1.jobs == Queue.Enqueue(db.jobs, ids.jobId, Queue.ProcessDocument,
                                   Store.ProcessPayload(doc.id, NodePath.BareExtension(f.name)), ids.now)
  {
    if session.None? || !Store.HasOrg(session.value) then (Store.ErrorResponse(401, "Unauthorized"), db)
    else
      var s := session.value;
      var orgId := s.orgId.value;
      if s.userId !in db.users || orgId !in db.orgs then (Store.ErrorResponse(401, STALE_SESSION), db)
      else match req.form
        case Failure(e) => (Store.ErrorResponse(500, CaughtMessage(e)), db)
        case Success(form) =>
          match Store.FormGet(form, "file")
          case Absent => (Store.ErrorResponse(400, "No file provided"), db)
          case Text(t) =>
            if t == "" then (Store.ErrorResponse(400, "No file provided"), db)
            else (Store.ErrorResponse(500, Store.NOT_A_FILE), db)
          case Blob(f) =>
            var version := NextVersion(db.documents, orgId, f.name, req.rootId);
            var doc := Store.Document(ids.documentId, f.name, f.name, Some(f.bytes), orgId, Some(s.userId),
                                      Store.DocPending, version, None);
            var event := Store.AuditEvent(DOCUMENT_UPLOADED, Some(doc.id), Some(s.userId), Some(f.name));
            var ext := NodePath.BareExtension(f.name);
            var jobs := Queue.Enqueue(db.jobs, ids.jobId, Queue.ProcessDocument, Store.ProcessPayload(doc.id, ext), ids.now);
            var body := Obj([("success", Bool(true)), ("document", Store.DocumentJson(doc))]);
            FieldAt(body.fields, "success", 0);
            (Store.Response(200, body), db.(documents := db.documents + [doc], audit := db.audit + [event], jobs := jobs))
  }

  /** A successful upload adds exactly one PENDING job, for the new
      document, whose extension is the file name's lower-case extension
      without its dot. */
  lemma UploadEnqueuesOneJob(db: Store.Db, session: Option<Store.Session>, req: Request, ids: Ids)
    requires Queue.IdsUnique(db.jobs) && !Queue.HasId(db.jobs, ids.jobId)
    requires Post(db, session, req, ids).0.status == 200
    ensures var after := Post(db, session, req, ids).1;
      && Queue.IdsUnique(after.jobs)
      && Queue.CountPending(after.jobs) == Queue.CountPending(db.jobs) + 1
      && Field(after.jobs[|db.jobs|].payload, "documentId") == Str(ids.documentId)
      && Field(after.jobs[|db.jobs|].payload, "ext") == Str(NodePath.BareExtension(UploadOf(req).name))
  {
    var f := UploadOf(req);
    Queue.EnqueueFresh(db.jobs, ids.jobId, Queue.ProcessDocument, Store.ProcessPayload(ids.documentId, NodePath.BareExtension(f.name)), ids.now);
    Store.ProcessPayloadExt(ids.documentId, NodePath.BareExtension(f.name));
  }
}

=== FILE: worker.dfy ===
/** The standalone worker of `src/worker.ts`: its own claim-handle-finish
    step over the job table, which converts a document's stored bytes with
    the engine chosen by the job's extension, and the polling loop around
    that step. The claim and the terminal writes are the same statements as
    in the queue, so the step is `Queue.ProcessNextJob` with this worker's
    handler. */
module Worker {
  import opened Js
  import Queue
  import Store
  import Aspose

  /** Delay between polls when no job was claimable, in milliseconds. */
  const POLL_INTERVAL_MS: nat := 1000

  const NOT_FOUND: string := "Document not found or empty"
  const PROCESSED_ACTION: string := "EXTERNAL_DOCUMENT_PROCESSED_ASYNC"

  /** `{ success: true }` */
  const SUCCESS: Value := Obj([("success", Bool(true))])

  /** `processDocumentBuffer(buffer, type)`, whose source is not part of this
      model: the converted bytes, or what it throws. */
  type BufferConverter = (Aspose.EngineKind, seq<byte>) -> Result<seq<byte>, Thrown>

  /** The tables the handler reads and writes besides the job table. */
  datatype World = World(documents: seq<Store.Document>, audit: seq<Store.AuditEvent>)

  /** `const extension = ext || "docx"`, then "cells" for "xlsx" and "xls"
      and "words" for everything else. */
  function EngineForExt(ext: Value): (k: Aspose.EngineKind)
    ensures k == Aspose.Cells <==> ext == Str("xlsx") || ext == Str("xls")
  {
    var extension := if Truthy(ext) then ext else Str("docx");
    if extension == Str("xlsx") || extension == Str("xls") then Aspose.Cells else Aspose.Words
  }

  /** The V8 message for destructuring `null` or `undefined`. */
  function DestructureError(v: Value): Thrown
    requires Nullish(v)
  {
    Error("Cannot destructure property 'documentId' of 'job.payload' as it is " + (if v.Null? then "null" else "undefined") + ".")
  }

  /** The audit event a successful conversion appends. */
  function ProcessedEvent(documentId: string, details: string): (e: Store.AuditEvent)
    ensures e.action == PROCESSED_ACTION && e.documentId == Some(documentId) && e.userId.None?
  {
    Store.AuditEvent(PROCESSED_ACTION, Some(documentId), None, Some(details))
  }

  /** The document `i` after a successful conversion to `pdf`. */
  function Converted(docs: seq<Store.Document>, i: nat, pdf: seq<byte>): (r: seq<Store.Document>)
    requires i < |docs|
    ensures |r| == |docs| && r[i].status == Store.DocCompleted && r[i].pdfData == Some(pdf)
    ensures r[i].id == docs[i].id && r[i].fileData == docs[i].fileData && r[i].version == docs[i].version
    ensures forall j :: 0 <= j < |docs| && j != i ==> r[j] == docs[j]
  {
    docs[i := docs[i].(status := Store.DocCompleted, pdfData := Some(pdf))]
  }

  /** The body of the worker's `try` block for one claimed job: the value
      it completes with, or what it throws, and the tables afterwards. */
  function Handle(c: Queue.Claimed, w: World, convert: BufferConverter): (r: (Queue.Outcome, World))
    ensures c.kind != Queue.ProcessDocument ==> r == (Queue.Returned(SUCCESS), w)
    ensures r.0.Returned? ==> r.0.value == SUCCESS
    ensures r.0.Threw? ==> r.1 == w
    ensures r.0.Returned? ==> |r.1.audit| <= |w.audit| + 1 && |r.1.documents| == |w.documents|
    ensures c.kind == Queue.ProcessDocument && !Nullish(c.payload) && Field(c.payload, "documentId").Str? ==>
      var i := Store.FindDocument(w.documents, Field(c.payload, "documentId").s);
      (i.None? || w.documents[i.value].fileData.None?) ==> r == (Queue.Threw(Error(NOT_FOUND)), w)
    ensures c.kind == Queue.ProcessDocument && r.0.Returned? ==>
      && Field(c.payload, "documentId").Str?
      && var id := Field(c.payload, "documentId").s;
      && var i := Store.FindDocument(w.documents, id);
      && i.Some? && w.documents[i.value].fileData.Some?
      && var out := convert(EngineForExt(Field(c.payload, "ext")), w.documents[i.value].fileData.value);
      && out.Success?
      && r.1.documents == Converted(w.documents, i.value, out.value)
      && r.1.audit == w.audit + [ProcessedEvent(id, "Processed via Worker")]
  {
    if c.kind != Queue.ProcessDocument then (Queue.Returned(SUCCESS), w)
    else if Nullish(c.payload) then (Queue.Threw(DestructureError(c.payload)), w)
    else
      var documentId := Field(c.payload, "documentId");
      var ext := Field(c.payload, "ext");
      match Store.LookupDocument(w.documents, documentId)
      case Failure(e) => (Queue.Threw(e), w)
      case Success(None) => (Queue.Threw(Error(NOT_FOUND)), w)
      case Success(Some(i)) =>
        var doc := w.documents[i];
        if doc.fileData.None? then (Queue.Threw(Error(NOT_FOUND)), w)
        else match convert(EngineForExt(ext), doc.fileData.value)
          case Failure(e) => (Queue.Threw(e), w)
          case Success(pdf) =>
            (Queue.Returned(SUCCESS),
             World(Converted(w.documents, i, pdf), w.audit + [ProcessedEvent(doc.id, "Processed via Worker")]))
  }

  function HandlerOf(convert: BufferConverter): (Queue.Claimed, World) -> (Queue.Outcome, World) {
    (c: Queue.Claimed, w: World) => Handle(c, w, convert)
  }

  /** The outcome of handling the job a step would claim. */
  function NextOutcome(db: Store.Db, convert: BufferConverter): (Queue.Outcome, World)
    requires !Queue.NoPending(db.jobs)
  {
    var k := Queue.OldestPending(db.jobs).value;
    Handle(Queue.ClaimedOf(db.jobs[k]), World(db.documents, db.audit), convert)
  }

  /** `processNextJob()` of the worker: whether a job was claimed, and the
      database afterwards. */
  function Step(db: Store.Db, convert: BufferConverter): (r: (bool, Store.Db))
    ensures r.0 <==> !Queue.NoPending(db.jobs)
    ensures !r.0 ==> r.1 == db
    ensures Queue.Advances(db.jobs, r.1.jobs)
    ensures r.1.users == db.users && r.1.orgs == db.orgs && r.1.apiKeys == db.apiKeys
    ensures r.0 ==>
      var k := Queue.OldestPending(db.jobs).value;
      var (o, w) := NextOutcome(db, convert);
      && (forall i :: 0 <= i < |db.jobs| && i != k ==> r.1.jobs[i] == db.jobs[i])
      && r.1.documents == w.documents && r.1.audit == w.audit
      && (o.Returned? ==> r.1.jobs[k].status == Queue.Completed && r.1.jobs[k].result == Some(SUCCESS))
      && (o.Threw? ==> r.1.jobs[k].status == Queue.Failed && r.1.jobs[k].error == Some(ErrorMessage(o.thrown)))
  {
    var (q, jobs, w) := Queue.ProcessNextJob(db.jobs, HandlerOf(convert), World(db.documents, db.audit));
    Queue.ProcessNextJobAdvances(db.jobs, HandlerOf(convert), World(db.documents, db.audit));
    (q.Some?, db.(jobs := jobs, documents := w.documents, audit := w.audit))
  }

  /** A PROCESS_DOCUMENT job whose document is gone fails with "Document not
      found or empty", and only the job's row changes. */
  lemma MissingDocumentFailsJob(db: Store.Db, convert: BufferConverter, id: string)
    requires !Queue.NoPending(db.jobs)
    requires var k := Queue.OldestPending(db.jobs).value;
      db.jobs[k].kind == Queue.ProcessDocument && Field(db.jobs[k].payload, "documentId") == Str(id)
    requires !Store.HasDocument(db.documents, id)
    ensures var k := Queue.OldestPending(db.jobs).value;
      var after := Step(db, convert).1;
      && after.jobs[k].status == Queue.Failed && after.jobs[k].error == Some(NOT_FOUND)
      && after.documents == db.documents && after.audit == db.audit
  {
    var k := Queue.OldestPending(db.jobs).value;
    assert !Nullish(db.jobs[k].payload);
    assert Store.FindDocument(db.documents, id).None?;
  }

  /** Whatever the engine does, a failed job leaves documents and audit
      trail as they were, and a completed PROCESS_DOCUMENT job has marked
      exactly one document COMPLETED and appended one audit event. */
  lemma StepEffects(db: Store.Db, convert: BufferConverter)
    requires !Queue.NoPending(db.jobs)
    ensures var k := Queue.OldestPending(db.jobs).value;
      var after := Step(db, convert).1;
      && (after.jobs[k].status == Queue.Failed ==> after.documents == db.documents && after.audit == db.audit)
      && (after.jobs[k].status == Queue.Completed && db.jobs[k].kind == Queue.ProcessDocument ==>
            |after.audit| == |db.audit| + 1 && after.audit[|db.audit|].action == PROCESSED_ACTION
            && exists i :: 0 <= i < |db.documents| && after.documents[i].status == Store.DocCompleted
                 && after.documents[i].pdfData.Some? && after.documents[i].id == db.documents[i].id)
  {
    var k := Queue.OldestPending(db.jobs).value;
    var (o, w) := NextOutcome(db, convert);
    var c := Queue.ClaimedOf(db.jobs[k]);
    if o.Returned? && c.kind == Queue.ProcessDocument {
      var i := Store.FindDocument(db.documents, Field(c.payload, "documentId").s).value;
      assert w.documents[i].status == Store.DocCompleted;
    }
  }

  // ---- the polling loop ---------------------------------------------------

  /** How many of the rounds the database was reachable. */
  function CountUp(down: seq<bool>): (n: nat)
    ensures n <= |down|
  {
    if |down| == 0 then 0 else CountUp(down[..|down| - 1]) + (if down[|down| - 1] then 0 else 1)
  }

  /** One turn of `run()`'s loop: the delay it sleeps afterwards and the
      database. When the database is unreachable (`dbDown`) the step throws
      before claiming anything; the loop logs it and waits five intervals. */
  function LoopTurn(db: Store.Db, convert: BufferConverter, dbDown: bool): (r: (nat, Store.Db))
    ensures dbDown ==> r == (5 * POLL_INTERVAL_MS, db)
    ensures !dbDown ==> r.1 == Step(db, convert).1
    ensures !dbDown ==> (r.0 == POLL_INTERVAL_MS <==> Queue.NoPending(db.jobs)) && (r.0 == 0 <==> !Queue.NoPending(db.jobs))
  {
    if dbDown then (5 * POLL_INTERVAL_MS, db)
    else
      var (processed, after) := Step(db, convert);
      (if processed then 0 else POLL_INTERVAL_MS, after)
  }

  /** Counting one more turn adds one when that turn had the database up. */
  lemma CountUpStep(down: seq<bool>, t: nat)
    requires t < |down|
    ensures CountUp(down[..t + 1]) == CountUp(down[..t]) + (if down[t] then 0 else 1)
  {
    assert down[..t + 1][..t] == down[..t];
  }

  function Min(a: nat, b: nat): nat {
    if a <= b then a else b
  }

  /** The loop's bookkeeping across one turn: `n` turns so far had the
      database up, `idle` of them found nothing to do, `p` jobs were PENDING
      at the start. */
  lemma TurnArithmetic(p: nat, n: nat, t: nat, idle: nat, slept: nat, up: bool)
    requires n <= t && idle == n - Min(p, n) && slept == 1000 * idle + 5000 * (t - n)
    ensures var pending := p - Min(p, n);
      var n' := n + (if up then 1 else 0);
      var idle' := idle + (if up && pending == 0 then 1 else 0);
      var delay := if !up then 5000 else if pending == 0 then 1000 else 0;
      && (if up then pending - Min(pending, 1) else pending) == p - Min(p, n')
      && idle' == n' - Min(p, n')
      && slept + delay == 1000 * idle' + 5000 * (t + 1 - n')
  {
  }

  /** What one turn does to the number of PENDING jobs and how long it sleeps. */
  lemma LoopTurnCount(db: Store.Db, convert: BufferConverter, dbDown: bool)
    ensures var (delay, after) := LoopTurn(db, convert, dbDown);
      var p := Queue.CountPending(db.jobs);
      && Queue.Advances(db.jobs, after.jobs)
      && after.users == db.users && after.orgs == db.orgs && after.apiKeys == db.apiKeys
      && (dbDown ==> Queue.CountPending(after.jobs) == p && delay == 5 * POLL_INTERVAL_MS)
      && (!dbDown ==> Queue.CountPending(after.jobs) == p - Min(p, 1))
      && (!dbDown ==> delay == if p == 0 then POLL_INTERVAL_MS else 0)
  {
    if !dbDown {
      Queue.ProcessNextJobPendingCount(db.jobs, HandlerOf(convert), World(db.documents, db.audit));
      Queue.CountPendingZero(db.jobs);
    } else {
      assert Queue.Advances(db.jobs, db.jobs);
    }
  }

  /** What holds after the first `t` turns of `run()`: `up` of them had the
      database up, `idle` of those found no PENDING job, `p` were PENDING at
      the start. */
  ghost predicate RunInvariant(db: Store.Db, down: seq<bool>, p: nat, t: nat, up: nat, idle: nat, last: Store.Db, slept: nat) {
    && t <= |down| && up == CountUp(down[..t]) && up <= t
    && Queue.Advances(db.jobs, last.jobs)
    && last.users == db.users && last.orgs == db.orgs && last.apiKeys == db.apiKeys
    && Queue.CountPending(last.jobs) == p - Min(p, up)
    && idle == up - Min(p, up)
    && slept == 1000 * idle + 5000 * (t - up)
  }

  lemma TurnKeepsRunInvariant(db: Store.Db, convert: BufferConverter, down: seq<bool>, p: nat, t: nat, up: nat, idle: nat,
                              last: Store.Db, slept: nat)
    requires RunInvariant(db, down, p, t, up, idle, last, slept) && t < |down|
    ensures var (delay, next) := LoopTurn(last, convert, down[t]);
      var up' := up + (if down[t] then 0 else 1);
      var idle' := idle + (if !down[t] && Queue.CountPending(last.jobs) == 0 then 1 else 0);
      RunInvariant(db, down, p, t + 1, up', idle', next, slept + delay)
  {
    var (delay, next) := LoopTurn(last, convert, down[t]);
    CountUpStep(down, t);
    LoopTurnCount(last, convert, down[t]);
    TurnArithmetic(p, up, t, idle, slept, !down[t]);
    Queue.AdvancesTransitive(db.jobs, last.jobs, next.jobs);
  }

  /** One turn of `run()`: the database is polled once and the time slept
      after it is added up. */
  method Turn(db: Store.Db, convert: BufferConverter, down: seq<bool>, p: nat, t: nat, ghost up: nat, ghost idle: nat,
              last: Store.Db, slept: nat)
    returns (next: Store.Db, slept': nat, ghost up': nat, ghost idle': nat)
    requires RunInvariant(db, down, p, t, up, idle, last, slept) && t < |down|
    ensures RunInvariant(db, down, p, t + 1, up', idle', next, slept')
    ensures Queue.Advances(last.jobs, next.jobs)
    ensures Queue.CountPending(next.jobs)
      == Queue.CountPending(last.jobs) - (if down[t] then 0 else Min(Queue.CountPending(last.jobs), 1))
    ensures slept <= slept'
  {
    TurnKeepsRunInvariant(db, convert, down, p, t, up, idle, last, slept);
    LoopTurnCount(last, convert, down[t]);
    var (delay, after) := LoopTurn(last, convert, down[t]);
    up' := up + (if down[t] then 0 else 1);
    idle' := idle + (if !down[t] && Queue.CountPending(last.jobs) == 0 then 1 else 0);
    next := after;
    slept' := slept + delay;
  }

  /** Each of the `|down|` turns with the database up finished one of the
      jobs PENDING in `before`, until none was left in `after`. */
  predicate Drained(before: Queue.JobStore, after: Queue.JobStore, down: seq<bool>) {
    Queue.CountPending(after) == Queue.CountPending(before) - Min(Queue.CountPending(before), CountUp(down))
  }

  /** The time `run()` sleeps over the turns `down` starting from `before`:
      one interval per turn that found nothing to do, five per turn with the
      database down, none after a turn that processed a job. */
  predicate SleptFor(before: Queue.JobStore, down: seq<bool>, slept: nat) {
    slept == POLL_INTERVAL_MS * (CountUp(down) - Min(Queue.CountPending(before), CountUp(down)))
      + 5 * POLL_INTERVAL_MS * (|down| - CountUp(down))
  }

  /** The first `|down|` turns of `run()`, which itself never stops; no job
      is enqueued meanwhile. Each turn with the database up finishes one
      PENDING job until none is left; the time slept is one interval per
      idle turn and five per turn with the database down. */
  method Run(db: Store.Db, convert: BufferConverter, down: seq<bool>) returns (last: Store.Db, slept: nat)
    ensures Queue.Advances(db.jobs, last.jobs)
    ensures last.users == db.users && last.orgs == db.orgs && last.apiKeys == db.apiKeys
    ensures Drained(db.jobs, last.jobs, down)
    ensures SleptFor(db.jobs, down, slept)
  {
    var p := Queue.CountPending(db.jobs);
    last := db;
    slept := 0;
    var t := 0;
    ghost var up := 0;
    ghost var idle := 0;
    assert Queue.Advances(db.jobs, db.jobs);
    while t < |down|
      invariant RunInvariant(db, down, p, t, up, idle, last, slept)
    {
      last, slept, up, idle := Turn(db, convert, down, p, t, up, idle, last, slept);
      t := t + 1;
    }
    assert down[..t] == down;
  }
}

=== FILE: worker_route.dfy ===
/** The `GET` handler of `src/app/api/workers/process/route.ts`: one queue
    step whose handler converts a document through two temporary files,
    skips template jobs and rejects unknown job types. */
module WorkerRoute {
  import opened Js
  import Text
  import NodePath
  import Queue
  import Store
  import Aspose
  import TempFile
  import Worker

  /** The tables and files the handler touches besides the job table. */
  datatype World = World(documents: seq<Store.Document>, audit: seq<Store.AuditEvent>, fs: Store.FileSystem)

  /** What the handler cannot compute itself: the engine, the temporary
      directory, the clock and the random part of temporary file names. */
  datatype Env = Env(convert: Aspose.Converter, tempDir: string, now: nat, random: string)

  /** `{ skipped: true }` */
  const SKIPPED: Value := Obj([("skipped", Bool(true))])

  /** The `TypeError` of calling `startsWith` on a value that is not a string. */
  const NOT_A_STRING: string := "extension.startsWith is not a function"

  /** The path `writeTempFile` picks for an extension during this call. */
  function TempInput(env: Env, extension: string): string {
    NodePath.Join(env.tempDir, TempFile.TempFileName(env.now, env.random, extension))
  }

  /** What every temporary path of this call starts with. */
  function TempPrefix(env: Env): string {
    NodePath.Join(env.tempDir, TempFile.TempStem(env.now, env.random))
  }

  lemma TempInputHasPrefix(env: Env, extension: string)
    ensures Text.StartsWith(TempInput(env, extension), TempPrefix(env))
    ensures Text.StartsWith(TempInput(env, extension) + ".pdf", TempPrefix(env))
  {
    var p := TempPrefix(env);
    var e := TempFile.SafeExt(extension);
    var t := TempInput(env, extension);
    Text.AppendAssoc(env.tempDir + "/", TempFile.TempStem(env.now, env.random), e);
    assert t == p + e;
    Text.StartsWithConcat(p, e, ".pdf");
  }

  /** `after` holds only files of `before`, unchanged, and keeps every file
      that does not carry this call's temporary-name prefix. */
  predicate FilesFramed(before: Store.FileSystem, after: Store.FileSystem, env: Env) {
    && (forall p :: p in after ==> p in before && after[p] == before[p])
    && (forall p :: p in before && !Text.StartsWith(p, TempPrefix(env)) ==> p in after)
  }

  /** A framed change to a file system without temporary files is no change. */
  lemma FramedWithoutTempFilesIsEqual(before: Store.FileSystem, after: Store.FileSystem, env: Env)
    requires FilesFramed(before, after, env)
    requires forall p :: p in before ==> !Text.StartsWith(p, TempPrefix(env))
    ensures after == before
  {
    assert forall p :: p in after <==> p in before;
  }

  lemma RemovingTempPathsIsFramed(fs: Store.FileSystem, env: Env, extension: string)
    ensures var t := TempInput(env, extension);
      FilesFramed(fs, fs - {t, t + ".pdf"}, env)
  {
    TempInputHasPrefix(env, extension);
  }

  /** The two `deleteTempFile` calls of the `finally` block. */
  function Cleanup(fs: Store.FileSystem, tempInput: string, tempOutput: string): (r: Store.FileSystem)
    ensures r == fs - {tempInput, tempOutput}
  {
    TempFile.DeleteTempFile(TempFile.DeleteTempFile(fs, tempInput, None), tempOutput, None)
  }

  /** `processDocument(tempInput, tempOutput, extension)` on the file system
      that holds the freshly written input file. */
  function Engine(w: World, bytes: seq<byte>, extension: string, env: Env): Result<Store.FileSystem, Thrown> {
    var tempInput := TempInput(env, extension);
    Aspose.ProcessDocument(w.fs[tempInput := bytes], tempInput, tempInput + ".pdf", extension, env.convert)
  }

  /** The `try` block for document `i`, found with data, from writing the
      input file to the audit event, followed by the `finally` block. It
      completes exactly when the engine succeeds; the output file is then
      always there to read. */
  function Convert(w: World, i: nat, extension: string, env: Env): (r: (Queue.Outcome, World))
    requires i < |w.documents| && w.documents[i].fileData.Some?
    ensures var t := TempInput(env, extension);
      r.1.fs == w.fs - {t, t + ".pdf"}
    ensures FilesFramed(w.fs, r.1.fs, env)
    ensures var e := Engine(w, w.documents[i].fileData.value, extension, env);
      && (r.0.Returned? <==> e.Success?)
      && (r.0.Threw? ==> r.0.thrown == e.error && r.1.documents == w.documents && r.1.audit == w.audit)
      && (r.0.Returned? ==>
            && r.0.value == Worker.SUCCESS
            && r.1.documents == Worker.Converted(w.documents, i, e.value[TempInput(env, extension) + ".pdf"])
            && r.1.audit == w.audit + [Worker.ProcessedEvent(w.documents[i].id, "Processed via Job Queue")])
  {
    var bytes := w.documents[i].fileData.value;
    var (tempInput, fs1) := TempFile.WriteTempFile(w.fs, env.tempDir, env.now, env.random, bytes, extension);
    assert tempInput == TempInput(env, extension);
    var tempOutput := tempInput + ".pdf";
    RemovingTempPathsIsFramed(w.fs, env, extension);
    assert tempInput != tempOutput by {
      assert |tempOutput| == |tempInput| + 4;
    }
    match Engine(w, bytes, extension, env)
    case Failure(e) =>
      CleanupAfterEngine(w.fs, tempInput, tempOutput, bytes, fs1);
      (Queue.Threw(e), w.(fs := Cleanup(fs1, tempInput, tempOutput)))
    case Success(fs2) =>
      CleanupAfterEngine(w.fs, tempInput, tempOutput, bytes, fs2);
      match Store.ReadFile(fs2, tempOutput)
      case Failure(e) => assert false; (Queue.Threw(e), w)
      case Success(pdf) =>
        (Queue.Returned(Worker.SUCCESS),
         World(Worker.Converted(w.documents, i, pdf),
               w.audit + [Worker.ProcessedEvent(w.documents[i].id, "Processed via Job Queue")],
               Cleanup(fs2, tempInput, tempOutput)))
  }

  /** Whatever the engine leaves behind, removing both temporary paths
      gives the file system from before the input file was written. */
  lemma CleanupAfterEngine(fs: Store.FileSystem, tempInput: string, tempOutput: string, bytes: seq<byte>, after: Store.FileSystem)
    requires forall p :: p != tempOutput ==> (p in after <==> p in fs[tempInput := bytes])
    requires forall p :: p != tempOutput && p in fs[tempInput := bytes] ==> after[p] == fs[tempInput := bytes][p]
    ensures Cleanup(after, tempInput, tempOutput) == fs - {tempInput, tempOutput}
  {
    var a := Cleanup(after, tempInput, tempOutput);
    var b := fs - {tempInput, tempOutput};
    assert forall p :: p in a <==> p in b;
    assert forall p :: p in a ==> a[p] == b[p];
  }

  /** The PROCESS_DOCUMENT branch of the handler. */
  function HandleDocument(payload: Value, w: World, env: Env): (r: (Queue.Outcome, World))
    ensures r.0.Threw? ==> r.1.documents == w.documents && r.1.audit == w.audit
    ensures FilesFramed(w.fs, r.1.fs, env)
    ensures !Nullish(payload) && Field(payload, "documentId").Str? ==>
      var i := Store.FindDocument(w.documents, Field(payload, "documentId").s);
      (i.None? || w.documents[i.value].fileData.None?) ==> r == (Queue.Threw(Error(Worker.NOT_FOUND)), w)
    ensures r.0.Returned? ==>
      && r.0.value == Worker.SUCCESS
      && Field(payload, "documentId").Str?
      && var id := Field(payload, "documentId").s;
      && var i := Store.FindDocument(w.documents, id);
      && i.Some? && w.documents[i.value].fileData.Some?
      && r.1.audit == w.audit + [Worker.ProcessedEvent(id, "Processed via Job Queue")]
      && exists pdf :: r.1.documents == Worker.Converted(w.documents, i.value, pdf)
  {
    assert FilesFramed(w.fs, w.fs, env);
    if Nullish(payload) then (Queue.Threw(Worker.DestructureError(payload)), w)
    else
      var documentId := Field(payload, "documentId");
      var ext := Field(payload, "ext");
      match Store.LookupDocument(w.documents, documentId)
      case Failure(e) => (Queue.Threw(e), w)
      case Success(None) => (Queue.Threw(Error(Worker.NOT_FOUND)), w)
      case Success(Some(i)) =>
        if w.documents[i].fileData.None? then (Queue.Threw(Error(Worker.NOT_FOUND)), w)
        else
          var extension := if Truthy(ext) then ext else Str("docx");
          if !extension.Str? then (Queue.Threw(Error(NOT_A_STRING)), w)
          else Convert(w, i, extension.s, env)
  }

  /** The handler closure passed to `processNextJob`. */
  function Handle(c: Queue.Claimed, w: World, env: Env): (r: (Queue.Outcome, World))
    ensures c.kind == Queue.ProcessDocument ==> r == HandleDocument(c.payload, w, env)
    ensures c.kind == Queue.GenerateTemplate ==> r == (Queue.Returned(SKIPPED), w)
    ensures c.kind.OtherType? ==> r == (Queue.Threw(Error("Unknown job type: " + c.kind.name)), w)
    ensures r.0.Threw? ==> r.1.documents == w.documents && r.1.audit == w.audit
    ensures FilesFramed(w.fs, r.1.fs, env)
  {
    assert FilesFramed(w.fs, w.fs, env);
    match c.kind
    case ProcessDocument => HandleDocument(c.payload, w, env)
    case GenerateTemplate => (Queue.Returned(SKIPPED), w)
    case OtherType(name) => (Queue.Threw(Error("Unknown job type: " + name)), w)
  }

  /** When nothing in the file system carries this call's temporary-name
      prefix, the handler leaves the file system exactly as it found it,
      whatever the job and whatever the engine does. */
  lemma HandleRestoresFiles(c: Queue.Claimed, w: World, env: Env)
    requires forall p :: p in w.fs ==> !Text.StartsWith(p, TempPrefix(env))
    ensures Handle(c, w, env).1.fs == w.fs
  {
    FramedWithoutTempFilesIsEqual(w.fs, Handle(c, w, env).1.fs, env);
  }

  // ---- the response -------------------------------------------------------

  /** The claimed row `{ id, type, payload }`. */
  function JobJson(c: Queue.Claimed): Value {
    Obj([("id", Str(c.id)), ("type", Str(Queue.TypeName(c.kind))), ("payload", c.payload)])
  }

  /** A thrown value as the response serialises it: an `Error` has no
      enumerable fields and becomes `{}`. */
  function ThrownJson(e: Thrown): Value {
    match e
    case Error(_) => EmptyObject
    case Raw(v) => v
  }

  /** The object `processNextJob` resolves to. */
  function ResultJson(q: Queue.QueueResult): (v: Value)
    ensures Field(v, "job") == JobJson(q.job)
    ensures Field(v, "status") == Str(if q.CompletedWith? then "COMPLETED" else "FAILED")
    ensures q.CompletedWith? ==> Field(v, "result") == q.result
    ensures q.FailedWith? ==> Field(v, "error") == ThrownJson(q.error)
  {
    var status := if q.CompletedWith? then "COMPLETED" else "FAILED";
    var last := if q.CompletedWith? then ("result", q.result) else ("error", ThrownJson(q.error));
    var fields := [("job", JobJson(q.job)), ("status", Str(status)), last];
    FieldAt(fields, "job", 0);
    FieldAt(fields, "status", 1);
    FieldAt(fields, last.0, 2);
    Obj(fields)
  }

  const NO_JOBS: Value := Obj([("message", Str("No jobs pending"))])

  function HandlerOf(env: Env): (Queue.Claimed, World) -> (Queue.Outcome, World) {
    (c: Queue.Claimed, w: World) => Handle(c, w, env)
  }

  /** `GET`: the response, the database and the file system afterwards. */
  function Get(db: Store.Db, fs: Store.FileSystem, env: Env): (r: (Store.Response, Store.Db, Store.FileSystem))
    ensures r.0.status == 200
    ensures Queue.NoPending(db.jobs) ==> r.0.body == NO_JOBS && r.1 == db && r.2 == fs
    ensures Queue.Advances(db.jobs, r.1.jobs)
    ensures r.1.users == db.users && r.1.orgs == db.orgs && r.1.apiKeys == db.apiKeys
    ensures !Queue.NoPending(db.jobs) ==>
      var k := Queue.OldestPending(db.jobs).value;
      && Field(r.0.body, "job") == JobJson(Queue.ClaimedOf(db.jobs[k]))
      && (Field(r.0.body, "status") == Str("COMPLETED") <==> r.1.jobs[k].status == Queue.Completed)
      && (Field(r.0.body, "status") == Str("FAILED") <==> r.1.jobs[k].status == Queue.Failed)
      && (forall i :: 0 <= i < |db.jobs| && i != k ==> r.1.jobs[i] == db.jobs[i])
  {
    var (q, jobs, w) := Queue.ProcessNextJob(db.jobs, HandlerOf(env), World(db.documents, db.audit, fs));
    Queue.ProcessNextJobAdvances(db.jobs, HandlerOf(env), World(db.documents, db.audit, fs));
    var body := if q.None? then NO_JOBS else ResultJson(q.value);
    (Store.Response(200, body), db.(jobs := jobs, documents := w.documents, audit := w.audit), w.fs)
  }

  /** A GENERATE_TEMPLATE job completes with `{ skipped: true }`, which the
      response carries back. */
  lemma GenerateTemplateIsSkipped(db: Store.Db, fs: Store.FileSystem, env: Env)
    requires !Queue.NoPending(db.jobs)
    requires db.jobs[Queue.OldestPending(db.jobs).value].kind == Queue.GenerateTemplate
    ensures var k := Queue.OldestPending(db.jobs).value;
      var r := Get(db, fs, env);
      && r.1.jobs[k].status == Queue.Completed && r.1.jobs[k].result == Some(SKIPPED)
      && Field(r.0.body, "result") == SKIPPED
      && r.1.documents == db.documents && r.2 == fs
  {
    var k := Queue.OldestPending(db.jobs).value;
    var c := Queue.ClaimedOf(db.jobs[k]);
    var w := World(db.documents, db.audit, fs);
    assert HandlerOf(env)(c, w) == (Queue.Returned(SKIPPED), w);
    assert Queue.ProcessNextJob(db.jobs, HandlerOf(env), w).0 == Some(Queue.CompletedWith(c, SKIPPED));
  }

  /** A job of any other type fails with "Unknown job type: <type>". */
  lemma UnknownTypeFails(db: Store.Db, fs: Store.FileSystem, env: Env, name: string)
    requires !Queue.NoPending(db.jobs)
    requires db.jobs[Queue.OldestPending(db.jobs).value].kind == Queue.OtherType(name)
    ensures var k := Queue.OldestPending(db.jobs).value;
      var r := Get(db, fs, env);
      && r.1.jobs[k].status == Queue.Failed && r.1.jobs[k].error == Some("Unknown job type: " + name)
      && r.1.documents == db.documents && r.1.audit == db.audit && r.2 == fs
  {
    var k := Queue.OldestPending(db.jobs).value;
    var c := Queue.ClaimedOf(db.jobs[k]);
    var w := World(db.documents, db.audit, fs);
    var e := Error("Unknown job type: " + name);
    assert HandlerOf(env)(c, w) == (Queue.Threw(e), w);
    assert Queue.ProcessNextJob(db.jobs, HandlerOf(env), w).0 == Some(Queue.FailedWith(c, e));
  }

  /** With fresh temporary names, a request leaves no file behind. */
  lemma GetRestoresFiles(db: Store.Db, fs: Store.FileSystem, env: Env)
    requires forall p :: p in fs ==> !Text.StartsWith(p, TempPrefix(env))
    ensures Get(db, fs, env).2 == fs
  {
    if !Queue.NoPending(db.jobs) {
      var k := Queue.OldestPending(db.jobs).value;
      HandleRestoresFiles(Queue.ClaimedOf(db.jobs[k]), World(db.documents, db.audit, fs), env);
    }
  }
}
